=== FILE: README.md ===
# Recurrent payments: criteria, results and users, modelled in Dafny

This project models the core that the Archetype and Payments services of the
recurrent-payments repository share. It covers:

- **Search criteria.** A `Criteria` holds filters, an order, a limit and an
  offset. It is built from raw `{field, operator, value}` maps, and those maps are
  parsed from a request's query string by `QueryProcessor`. Filters can be limited
  to an allow-list with `FilterExtensions.Only`.
- **The two criteria compilers** (`LinqBuilderByCriteria`):
  - The Archetype one resolves each filter's field path against the entity's
    metadata and unwraps value objects by appending `.Value`. It emits Dynamic-LINQ
    text `path op @i` with a parallel list of parameters converted to the field's
    type, and memoises field resolutions in a cache.
  - The Payments one builds expression trees. Each filter becomes a member access
    read by reflection, then a comparison or a `Contains` call. Filters that yield
    no expression are dropped, and the rest are joined with `AndAlso`.
  - Both then order, skip and take. A query's meaning over a sequence of rows
    (`Evaluation`, `Rows`) gives the compiled filters their semantics. The search
    result is proved to be the page of the filtered, ordered rows.
- **The result algebra.** `Error` and `Result<TValue>` with their implicit
  conversions, and the mapping of a result onto an HTTP response
  (`ResultExtensions`).
- **Value objects.** `StringValueObject` normalises its input (trimming by
  default) and then validates it; `EmailAddress`, `UserFullName` and
  `UserPasswordHash` build on it. The password rules are: trimmed length 8 to 12,
  then an upper-case letter, a lower-case letter, a digit and a symbol.
- **State holders.** `AggregateRoot` with its domain events, `LogContext` with its
  correlation, request and user ids, the `User` entity and the in-memory user
  repository.
- **The user handlers.** Authentication, and the two list handlers.

Modelling choices:

- Reflection becomes an explicit schema (`Reflection.Schema`).
- Exceptions become a `Throws` result and `null` becomes `Option.None`.
- Library parsers the model does not describe are a record of functions
  (`Conversions.Foreign`): dates, `Guid`, floating point, `Convert.ChangeType` for
  other types, a static `From(string)`, and `ToString()`. So are the hasher, the
  clock, the repository queries and the date formatter.
- Several types exist in both trees with the same behaviour and are modelled once:
  - `FilterOperator` and `UserPasswordHash`.
  - The Archetype `Criteria`, `Order`, `Filters`, `FilterExtensions` and
    `StringValueObject` files are not part of this model. The Payments definitions,
    which the Archetype code uses the same way, stand in for them.
  - The Archetype `User` is not part of this model; the Payments `User` stands in.
- Payments `EmailAddress` and `Uuid` override a `Validate` hook that
  `StringValueObject` does not declare. The email check is modelled as the
  Archetype `EmailAddress` wires it, as the validator of the base constructor.
- The two `QueryProcessor` dialects differ only in how the left side of `=` is
  split. They share one model parameterised by `Dialect`.

## Model

All source paths are under `src/`.

| member | source | states |
|---|---|---|
| Results.Of | src/Archetype.Core/Shared/Domain/Results/Error.cs:29-48 | a named factory gives that kind, numeric type 0, and the given code and description |
| Results.CustomError | src/Archetype.Core/Shared/Domain/Results/Error.cs:50-51 | `Custom(type, code, description)` is a custom error with that numeric type |
| Results.ErrorEquals | src/Archetype.Core/Shared/Domain/Results/Error.cs:53-59 | errors are equal exactly when all four fields are |
| Results.ErrorEqualsIsEquivalence | src/Archetype.Core/Shared/Domain/Results/Error.cs:53-59 | `Equals` is reflexive, symmetric and transitive |
| Results.KindsSeparateErrors | src/Archetype.Core/Shared/Domain/Results/Error.cs:29-59 | errors of different kinds are never equal, whatever their text |
| Results.EqualErrorsHashAlike | src/Archetype.Core/Shared/Domain/Results/Error.cs:61 | equal errors have equal hash codes |
| Results.FromValue | src/Archetype.Core/Shared/Domain/Results/Result.cs:14-22 | a null value throws `ArgumentNullException("value")`; otherwise a success whose `Value` reads back the value |
| Results.FromError | src/Archetype.Core/Shared/Domain/Results/Result.cs:24-27 | one error gives an error result whose list is that error and whose `FirstError` is it |
| Results.FromErrors | src/Archetype.Core/Shared/Domain/Results/Result.cs:29-39 | a null list throws `ArgumentNullException`, an empty one `ArgumentException`; otherwise an error result keeping the list |
| Results.GetValue | src/Archetype.Core/Shared/Domain/Results/Result.cs:47-58 | `Value` throws `InvalidOperationException` exactly on an error result, else gives the stored value |
| Results.GetFirstError | src/Archetype.Core/Shared/Domain/Results/Result.cs:60-71 | `FirstError` throws exactly on a success, else gives the head of the list |
| Results.Default | src/Archetype.Core/Shared/Domain/Results/Result.cs:41-45 | a default result (no error list) is a success with a null value |
| Results.FromErrorArray | src/Archetype.Core/Shared/Domain/Results/Result.ImplicitConverters.cs:11 | an error array converts to an error result with the same errors; an empty array throws |
| Results.SuccessXorError | src/Archetype.Core/Shared/Domain/Results/Result.cs:41-71 | every result is exactly one of success or error; `Value` is readable exactly when `FirstError` is not |
| Results.Result.IsSuccess | src/Archetype.Core/Shared/Domain/Results/Result.cs:41 | a success records no error: no list, or an empty one |
| Results.Result.IsError | src/Archetype.Core/Shared/Domain/Results/Result.cs:43 | an error result holds at least one error |
| Results.ConversionsRoundTrip | src/Archetype.Core/Shared/Domain/Results/Result.ImplicitConverters.cs:5-9 | converting a value or a non-empty error list and reading it back returns it unchanged |
| ResultExtensions.KindFor | src/Archetype.Api/Extensions/ResultExtensions.cs:34-50 | each error kind selects its response; a custom error selects by 400, 404 or 409 and otherwise an internal error |
| ResultExtensions.BuildFieldErrors | src/Archetype.Api/Extensions/ResultExtensions.cs:53-61 | one field error per error, in order; none for a null list |
| ResultExtensions.MapError | src/Archetype.Api/Extensions/ResultExtensions.cs:30-51 | the first error alone chooses the problem and its text; only a validation problem lists every error |
| ResultExtensions.MapSuccess | src/Archetype.Api/Extensions/ResultExtensions.cs:18-28 | a value that passes the `value is Success` test (supplied by the caller) gives 204 No Content; any other value, null included, gives 200 with the value and the pagination |
| ResultExtensions.ToHttpResponse | src/Archetype.Api/Extensions/ResultExtensions.cs:10-16 | a problem response comes exactly from an error result |
| ResultExtensions.FirstErrorDecides | src/Archetype.Api/Extensions/ResultExtensions.cs:30-51 | two error results with the same non-validation first error get the same response |
| ResultExtensions.SingleValidationError | src/Archetype.Api/Extensions/ResultExtensions.cs:36-37 | one validation error gives a validation problem listing exactly that error |
| StringValueObjects.Normalized | src/Payments.Core/Shared/Domain/ValueObjects/StringValueObject.cs:12-15 | without a normaliser the stored value is the trimmed input |
| StringValueObjects.New | src/Payments.Core/Shared/Domain/ValueObjects/StringValueObject.cs:7-19 | the value is normalised first; the validator sees the normalised value and its exception is the constructor's |
| StringValueObjects.Wrap | src/Payments.Core/Shared/Domain/FiltersByCriteria/Filter.cs:14-16 | a wrapper with the default normaliser and no validator never fails and stores the trimmed text |
| StringValueObjects.ToString | src/Payments.Core/Shared/Domain/ValueObjects/StringValueObject.cs:21 | `ToString()` is `Value` |
| StringValueObjects.AsString | src/Payments.Core/Shared/Domain/ValueObjects/StringValueObject.cs:23-26 | the implicit conversion to string agrees with `ToString()` |
| StringValueObjects.ValidatorSeesNormalized | src/Payments.Core/Shared/Domain/ValueObjects/StringValueObject.cs:15-16 | inputs that normalise alike are accepted or rejected alike and store the same value |
| StringValueObjects.DefaultNormalization | src/Payments.Core/Shared/Domain/ValueObjects/StringValueObject.cs:19 | a default-normalised value has no white space at either end, and re-wrapping it is the identity |
| ValueObjects.EmailShapeIsPattern | src/Archetype.Core/Shared/Domain/ValueObjects/EmailAddress.cs:20 | a structural description of `^[^@\s]+@[^@\s]+\.[^@\s]+$` accepts exactly the strings the pattern matches |
| ValueObjects.EnsureValidEmail | src/Archetype.Core/Shared/Domain/ValueObjects/EmailAddress.cs:12-18 | rejects with `ArgumentException("Invalid email address.")` exactly when the regex (with `$` before a final line feed) does not match |
| ValueObjects.EmailAddress | src/Archetype.Core/Shared/Domain/ValueObjects/EmailAddress.cs:7-10 | a built address stores the trimmed text; a rejection is the email exception |
| ValueObjects.EmailAddressAccepts | src/Payments.Core/Shared/Domain/ValueObjects/EmailAddress.cs:9-17 | an address is accepted exactly when its trimmed text matches the pattern |
| ValueObjects.MissingAtOrDotNeverMatches | src/Archetype.Core/Shared/Domain/ValueObjects/EmailAddress.cs:20 | text without `@` or without `.` never matches |
| ValueObjects.EmailAddressRejectsEmpty | src/Archetype.Core/Shared/Domain/ValueObjects/EmailAddress.cs:12-18 | the empty address is rejected |
| ValueObjects.EmailAddressRejectsMissingAt | src/Archetype.Core/Shared/Domain/ValueObjects/EmailAddress.cs:12-18 | `invalid-email` is rejected |
| ValueObjects.EmailAddressRejectsMissingDot | src/Archetype.Core/Shared/Domain/ValueObjects/EmailAddress.cs:12-18 | `user@domain` is rejected |
| ValueObjects.EmailAddressAcceptsExample | src/Archetype.Core/Shared/Domain/ValueObjects/EmailAddress.cs:7-21 | `user.name+tag@sub.domain.io` is accepted verbatim |
| Text.Utf16Length | src/Payments.Core/Users/Domain/UserFullName.cs:14 | `string.Length` counts between one and two code units per character, and equals the number of characters exactly when none lies outside the Basic Multilingual Plane |
| ValueObjects.EnsureLengthIsWithinRange | src/Payments.Core/Users/Domain/UserFullName.cs:12-18 | accepts exactly the strings of 3 to 100 UTF-16 code units; otherwise `ArgumentOutOfRangeException("v")` |
| ValueObjects.UserFullName | src/Payments.Core/Users/Domain/UserFullName.cs:7-10 | a name is accepted exactly when its trimmed text is 3 to 100 UTF-16 code units long, and it is stored trimmed |
| ValueObjects.UserFullNameExample | src/Payments.Core/Users/Domain/UserFullName.cs:7-18 | `"   Jane Doe   "` becomes `Jane Doe` |
| ValueObjects.UserFullNameCountsCodeUnits | src/Payments.Core/Users/Domain/UserFullName.cs:12-18 | a name of two characters outside the Basic Multilingual Plane is four code units and is accepted; one such character is rejected |
| PasswordHashes.ValidatePlainPassword | src/Archetype.Core/Users/Domain/UserPasswordHash.cs:13-44 | accepts exactly the passwords whose trimmed text is 8 to 12 UTF-16 code units long and meets every character rule; otherwise the exception of the first broken rule, in source order |
| PasswordHashes.FromHash | src/Archetype.Core/Users/Domain/UserPasswordHash.cs:55 | a hash is stored through the base normaliser, that is trimmed |
| PasswordHashes.Create | src/Payments.Core/Users/Domain/UserPasswordHash.cs:36-43 | succeeds exactly for an acceptable trimmed password (length in UTF-16 code units) and stores the trimmed hash of the untrimmed password; a failure is the validation exception |
| PasswordHashes.MaskedHidesValue | src/Archetype.Core/Users/Domain/UserPasswordHash.cs:59 | `ToString()` is `********` whatever the hash |
| PasswordHashes.Masked | src/Archetype.Core/Users/Domain/UserPasswordHash.cs:59 | `ToString()` is eight asterisks |
| PasswordHashes.Verify | src/Archetype.Core/Users/Domain/UserPasswordHash.cs:57 | the hasher decides, on the untrimmed plain text and the stored hash |
| PasswordHashes.ValidationSeesTrimmed | src/Payments.Core/Users/Domain/UserPasswordHash.cs:13-34 | passwords with the same trimmed text are accepted or rejected alike |
| PasswordHashes.CreateThenVerify | src/Archetype.Core/Users/Domain/UserPasswordHash.cs:46-57 | an accepted password verifies against its own hash when the hasher recognises its own trim-free output |
| PasswordHashes.ValidExampleAcceptable | src/Payments.Core/Users/Domain/UserPasswordHash.cs:13-34 | `Valid12!` meets every rule |
| PasswordHashes.SurroundingWhiteSpaceExample | src/Payments.Core/Users/Domain/UserPasswordHash.cs:36-53 | `"  Valid12!  "` is validated trimmed but hashed untrimmed, so the fake hasher then rejects the very password it hashed |
| PasswordHashes.FakeHasherRoundTrip | src/Payments.Core/Users/Domain/UserPasswordHash.cs:36-53 | with the fake hasher, `Valid12!` stores `Valid12!_HASH`, which verifies that password and no other |
| FilterOperators.Ordinal | src/Payments.Core/Shared/Domain/FiltersByCriteria/FilterOperator.cs:3-13 | every operator's underlying value is below 8 |
| FilterOperators.OrdinalsAreDistinct | src/Payments.Core/Shared/Domain/FiltersByCriteria/FilterOperator.cs:3-13 | the eight operators have distinct values and use all of 0..7 |
| FilterOperators.FromValue | src/Payments.Core/Shared/Domain/FiltersByCriteria/FilterOperator.cs:17-31 | an unknown token throws `ArgumentOutOfRangeException` carrying the token |
| FilterOperators.FromValueIsTokenInverse | src/Payments.Core/Shared/Domain/FiltersByCriteria/FilterOperator.cs:19-30 | parsing is a case-sensitive bijection between the eight tokens and the operators, and rejects everything else |
| FilterOperators.Token | src/Payments.Core/Shared/Domain/FiltersByCriteria/FilterOperator.cs:21-28 | the token of each operator, which `FilterOperatorFromValue` reads back as that operator |
| FilterOperators.FromValueRejectsExamples | src/Payments.Core/Shared/Domain/FiltersByCriteria/FilterOperator.cs:29 | `contains` (wrong case) and `starts_with` are rejected |
| FilterOperators.IsPositive | src/Payments.Core/Shared/Domain/FiltersByCriteria/FilterOperator.cs:33-34 | an operator is negative exactly when it is `NOTEQUAL` or `NOTCONTAINS` |
| Criterias.NewFilter | src/Payments.Core/Shared/Domain/FiltersByCriteria/Filter.cs:3-7 | a null field, then a null value, throws `ArgumentNullException`; otherwise the filter of its parts |
| Criterias.FilterFromValues | src/Payments.Core/Shared/Domain/FiltersByCriteria/Filter.cs:9-17 | a null map throws; it succeeds exactly on maps with all three keys and a known operator, giving the trimmed field and value |
| Criterias.FilterFromValuesTrims | src/Payments.Core/Shared/Domain/FiltersByCriteria/Filter.cs:13-16 | the built field and value are the trimmed map entries |
| Criterias.FiltersFromValues | src/Payments.Core/Shared/Domain/FiltersByCriteria/Filters.cs:9-12 | no list gives no `Filters`; otherwise one filter per map, in order, failing exactly when some map is malformed, with the first failure |
| Criterias.ParseOrderType | src/Payments.Core/Shared/Domain/FiltersByCriteria/Order.cs:14 | text starting, after white space, with a digit or sign is read as an `int` and gives the `OrderType` of that value, named or not; a malformed number throws `ArgumentException`, one beyond `int` `OverflowException`; other text parses exactly when it is `NONE`, `ASC` or `DESC` in any case with white space around, and otherwise throws `ArgumentException` |
| Criterias.ParseOrderTypeOfUpper | src/Payments.Core/Shared/Domain/FiltersByCriteria/Order.cs:14 | upper-casing before the case-insensitive parse changes no outcome, for names and for numbers alike |
| Criterias.OrderFromValues | src/Payments.Core/Shared/Domain/FiltersByCriteria/Order.cs:8-17 | a null field throws; a null or empty type gives `NONE`; any other type gives its parsed value (a member, or an unnamed value for other numbers) or throws |
| Criterias.OrderNone | src/Payments.Core/Shared/Domain/FiltersByCriteria/Order.cs:19 | `Order.None()` has an empty field and type `NONE` |
| Criterias.OrderFromValuesAscending | src/Payments.Core/Shared/Domain/FiltersByCriteria/Order.cs:12-16 | any spelling of `ASC` gives ascending order |
| Criterias.OrderFromValuesMixedCase | src/Payments.Core/Shared/Domain/FiltersByCriteria/Order.cs:12-16 | `Asc` gives ascending order |
| Criterias.OrderFromValuesRejects | src/Payments.Core/Shared/Domain/FiltersByCriteria/Order.cs:14 | `sideways` is rejected |
| Criterias.OrderTypeOf | src/Payments.Core/Shared/Domain/FiltersByCriteria/Order.cs:14 | a number gives an unnamed `OrderType` exactly when it is not 0, 1 or 2, the values of `NONE`, `ASC` and `DESC` |
| Criterias.OrderTypeValueRoundTrip | src/Payments.Core/Shared/Domain/FiltersByCriteria/Order.cs:14 | the value of the `OrderType` made from a number is that number; a named member is the one made from its value |
| Criterias.NamesNotNumeric | src/Payments.Core/Shared/Domain/FiltersByCriteria/Order.cs:14 | text that names a member is never read as a number |
| Criterias.OrderFromValuesDigit | src/Payments.Core/Shared/Domain/FiltersByCriteria/Order.cs:12-16 | a single digit as the type gives the `OrderType` of its value, so `"1"` is `ASC` and `"7"` the unnamed value 7 |
| Criterias.DigitOrderType | src/Payments.Core/Shared/Domain/FiltersByCriteria/Order.cs:14 | a single digit parses as the `OrderType` of its value |
| Criterias.NumericOrderType | src/Payments.Core/Shared/Domain/FiltersByCriteria/Order.cs:14 | text starting with a digit that reads as a number gives that number's `OrderType` within the range of `int`, and throws `OverflowException` beyond it |
| Criterias.ParseIntegerUpper | src/Payments.Core/Shared/Domain/FiltersByCriteria/Order.cs:14 | upper-casing text changes no number it reads as |
| Criterias.UpperNumberChar | src/Payments.Core/Shared/Domain/FiltersByCriteria/Order.cs:14 | upper-casing changes no digit, sign or number white space, and makes no other character one |
| Criterias.ParsedNumberChars | src/Payments.Core/Shared/Domain/FiltersByCriteria/Order.cs:14 | text that reads as a number holds only digits, signs and number white space |
| Criterias.NewCriteria | src/Payments.Core/Shared/Domain/FiltersByCriteria/Criteria.cs:3-8 | limit and offset default to null |
| Criterias.HasFilters | src/Payments.Core/Shared/Domain/FiltersByCriteria/Criteria.cs:10 | criteria with filters hold a non-empty filter list |
| Criterias.HasOrder | src/Payments.Core/Shared/Domain/FiltersByCriteria/Criteria.cs:12-13 | criteria with an order have a type other than `NONE` and a non-empty field |
| Criterias.CriteriaPredicates | src/Payments.Core/Shared/Domain/FiltersByCriteria/Criteria.cs:10-13 | missing or empty filters do not count as filters, `Order.None()` never counts as an order, and a non-empty list does count |
| FilterExtensions.Only | src/Payments.Core/Shared/Domain/FiltersByCriteria/FilterExtensions.cs:5-12 | keeps exactly the raw filters whose `field` is on the allow-list ignoring case, each as many times as it occurs in the input, and nothing else |
| Sequences.Where | src/Payments.Core/Shared/Domain/FiltersByCriteria/FilterExtensions.cs:9-11 | `Where` keeps each element that satisfies the predicate as many times as it occurs, in order, and no other element |
| FilterExtensions.OnlyProperties | src/Payments.Core/Shared/Domain/FiltersByCriteria/FilterExtensions.cs:9-11 | the kept filters are an order-preserving subsequence, all have a `field`; an empty allow-list keeps nothing; `Only` is idempotent |
| FilterExtensions.OnlyKeepsNothing | src/Payments.Core/Shared/Domain/FiltersByCriteria/FilterExtensions.cs:9-11 | when no filter names an allowed field the result is empty |
| FilterExtensions.OnlyIgnoresCase | src/Payments.Core/Shared/Domain/FiltersByCriteria/FilterExtensions.cs:7-11 | a filter naming an allowed field in another case is kept |
| Conversions.BoolParse | src/Archetype.Core/Shared/Infrastructure/Persistence/EntityFramework/Criteria/LinqBuilderByCriteria.cs:290-293 | `True`/`False` in any case, with white space and NUL characters trimmed from both ends, parse; anything else throws `FormatException` |
| Conversions.TrimBoolSpace | src/Archetype.Core/Shared/Infrastructure/Persistence/EntityFramework/Criteria/LinqBuilderByCriteria.cs:290-293 | the trimmed text neither starts nor ends with white space or NUL |
| Conversions.BoolParseIgnoresNul | src/Archetype.Core/Shared/Infrastructure/Persistence/EntityFramework/Criteria/LinqBuilderByCriteria.cs:290-293 | a trailing NUL after `True` still parses as true |
| Conversions.IndexIgnoreCase | src/Archetype.Core/Shared/Infrastructure/Persistence/EntityFramework/Criteria/LinqBuilderByCriteria.cs:268-271 | the first enum name equal to the text ignoring case, or none when no name is |
| Conversions.EnumParse | src/Archetype.Core/Shared/Infrastructure/Persistence/EntityFramework/Criteria/LinqBuilderByCriteria.cs:268-271 | the ordinal of a name matching the trimmed text ignoring case; an existing name always parses; failures are `ArgumentException` |
| Numbers.ParseWidth | src/Archetype.Core/Shared/Infrastructure/Persistence/EntityFramework/Criteria/LinqBuilderByCriteria.cs:310-348 | an integer parse succeeds with the written integer within the width's range, allowing only ASCII control white space and the space around it; a malformed text throws `FormatException`, an out-of-range one `OverflowException` |
| Numbers.TryParseInt32 | src/Payments.Api/Endpoints/Shared/QueryProcessor.cs:149-163 | `int.TryParse` gives a value exactly when the text parses as an `Int32`, and then the parsed value |
| Numbers.ParseIntToString | src/Archetype.Api/Endpoints/Shared/QueryProcessor.cs:133-147 | formatting an integer and parsing it back gives the integer |
| Numbers.NumberSpaceAccepted | src/Payments.Api/Endpoints/Shared/QueryProcessor.cs:149-163 | `" 5\t"` parses as 5 |
| Numbers.OtherSpaceRejected | src/Payments.Api/Endpoints/Shared/QueryProcessor.cs:149-163 | a no-break space or a next-line character before the digits makes the text malformed |
| Numbers.TrimNumberSpace | src/Payments.Api/Endpoints/Shared/QueryProcessor.cs:149-163 | the trimmed text neither starts nor ends with number white space |
| Evaluation.Positive | src/Payments.Core/Shared/Domain/FiltersByCriteria/FilterOperator.cs:33-34 | the positive counterpart of an operator is positive, and a positive operator is its own |
| Evaluation.OperatorsAgree | src/Archetype.Core/Shared/Infrastructure/Persistence/EntityFramework/Criteria/LinqBuilderByCriteria.cs:96-129 | a negated operator holds exactly when its positive one does not; `>=` is `>` or equal; `<` and `<=` are `>` and `>=` swapped |
| Reflection.FirstNamed | src/Archetype.Core/Shared/Infrastructure/Persistence/EntityFramework/Criteria/LinqBuilderByCriteria.cs:214-220 | the first member of the given kinds named so, ignoring case, or none exactly when there is no such member |
| Reflection.ValueProperty | src/Archetype.Core/Shared/Infrastructure/Persistence/EntityFramework/Criteria/LinqBuilderByCriteria.cs:232-257 | the public property named exactly `Value`, or none exactly when there is none |
| ArchetypeCriteria.GetMemberByName | src/Archetype.Core/Shared/Infrastructure/Persistence/EntityFramework/Criteria/LinqBuilderByCriteria.cs:214-220 | a member of the type whose name matches ignoring case, or none exactly when no property or field matches |
| ArchetypeCriteria.PrimitiveOf | src/Archetype.Core/Shared/Infrastructure/Persistence/EntityFramework/Criteria/LinqBuilderByCriteria.cs:232-257 | the `IValueObject<T>` argument takes precedence; no primitive exactly when neither that nor a `Value` property exists |
| ArchetypeCriteria.ResolveSegment | src/Archetype.Core/Shared/Infrastructure/Persistence/EntityFramework/Criteria/LinqBuilderByCriteria.cs:162-208 | one iteration emits one or two segments |
| ArchetypeCriteria.ResolveNext | src/Archetype.Core/Shared/Infrastructure/Persistence/EntityFramework/Criteria/LinqBuilderByCriteria.cs:164-207 | the loop body appends and moves the type as the resolution specifies |
| ArchetypeCriteria.ResolveAll | src/Archetype.Core/Shared/Infrastructure/Persistence/EntityFramework/Criteria/LinqBuilderByCriteria.cs:159-208 | the loop computes the resolution of all segments from the root type |
| ArchetypeCriteria.BuildFieldResolution | src/Archetype.Core/Shared/Infrastructure/Persistence/EntityFramework/Criteria/LinqBuilderByCriteria.cs:150-212 | a path without segments stays as it is at the root type; otherwise the resolved segments joined with `.` |
| ArchetypeCriteria.ResolvedFieldOf | src/Archetype.Core/Shared/Infrastructure/Persistence/EntityFramework/Criteria/LinqBuilderByCriteria.cs:140-148 | a blank path is unresolved and untyped; any other path is resolved |
| ArchetypeCriteria.CacheValidAfterAdd | src/Archetype.Core/Shared/Infrastructure/Persistence/EntityFramework/Criteria/LinqBuilderByCriteria.cs:136-147 | adding a correct resolution keeps every cache entry equal to the resolution of its key |
| ArchetypeCriteria.FieldPathCache.constructor | src/Archetype.Core/Shared/Infrastructure/Persistence/EntityFramework/Criteria/LinqBuilderByCriteria.cs:136 | the cache starts empty and consistent |
| ArchetypeCriteria.FieldPathCache.GetResolvedField | src/Archetype.Core/Shared/Infrastructure/Persistence/EntityFramework/Criteria/LinqBuilderByCriteria.cs:140-148 | the answer is always the resolution itself, hit or miss; a blank path leaves the cache alone, any other path ends up stored under its key |
| ArchetypeCriteria.ConvertFilterValue | src/Archetype.Core/Shared/Infrastructure/Persistence/EntityFramework/Criteria/LinqBuilderByCriteria.cs:259-351 | text stays text; an integer type converts exactly when the text fits the width; an enum converts exactly when a name matches |
| ArchetypeCriteria.ValueType | src/Archetype.Core/Shared/Infrastructure/Persistence/EntityFramework/Criteria/LinqBuilderByCriteria.cs:86-91 | substring operators and unresolved fields convert to text |
| ArchetypeCriteria.FilterParameter | src/Archetype.Core/Shared/Infrastructure/Persistence/EntityFramework/Criteria/LinqBuilderByCriteria.cs:86-92 | a substring filter's parameter is its raw text |
| ArchetypeCriteria.CompileFilter | src/Archetype.Core/Shared/Infrastructure/Persistence/EntityFramework/Criteria/LinqBuilderByCriteria.cs:83-134 | a filter compiles exactly when its value converts, and fails with the conversion's exception |
| ArchetypeCriteria.TryGetQueryByFilter | src/Archetype.Core/Shared/Infrastructure/Persistence/EntityFramework/Criteria/LinqBuilderByCriteria.cs:83-134 | the fragment and the extended parameter list are those of the compiled filter; the cache stays consistent |
| ArchetypeCriteria.RenderAll | src/Archetype.Core/Shared/Infrastructure/Persistence/EntityFramework/Criteria/LinqBuilderByCriteria.cs:96-129 | one query text per fragment, in order |
| ArchetypeCriteria.Render | src/Archetype.Core/Shared/Infrastructure/Persistence/EntityFramework/Criteria/LinqBuilderByCriteria.cs:96-129 | a fragment's text starts with its field path (after `!` for `NOT_CONTAINS`) and ends with its parameter `@index` (followed by `)` for the substring operators) |
| ArchetypeCriteria.CompileFilters | src/Archetype.Core/Shared/Infrastructure/Persistence/EntityFramework/Criteria/LinqBuilderByCriteria.cs:23-29 | a compiled list has one fragment and one parameter per filter |
| ArchetypeCriteria.CompileFiltersShape | src/Archetype.Core/Shared/Infrastructure/Persistence/EntityFramework/Criteria/LinqBuilderByCriteria.cs:23-29 | compilation fails exactly when some value does not convert; fragment `i` reads filter `i`'s path and names `@i`, which holds filter `i`'s converted value |
| ArchetypeCriteria.CompileWhere | src/Archetype.Core/Shared/Infrastructure/Persistence/EntityFramework/Criteria/LinqBuilderByCriteria.cs:13-37 | no filters compile to no clause; a clause has one fragment per filter |
| ArchetypeCriteria.Where | src/Archetype.Core/Shared/Infrastructure/Persistence/EntityFramework/Criteria/LinqBuilderByCriteria.cs:13-37 | the loop builds the specified clause and keeps the cache consistent |
| ArchetypeCriteria.FirstFailureThrows | src/Archetype.Core/Shared/Infrastructure/Persistence/EntityFramework/Criteria/LinqBuilderByCriteria.cs:23-29 | once one filter throws, compiling the whole list throws the same exception |
| ArchetypeCriteria.WhereMeaning | src/Archetype.Core/Shared/Infrastructure/Persistence/EntityFramework/Criteria/LinqBuilderByCriteria.cs:23-36 | a row satisfies the compiled clause exactly when every filter's member compares with its converted value as its operator says |
| ArchetypeCriteria.ApplyWhere | src/Archetype.Core/Shared/Infrastructure/Persistence/EntityFramework/Criteria/LinqBuilderByCriteria.cs:31-36 | no clause keeps the rows as they are |
| ArchetypeCriteria.OrderRows | src/Archetype.Core/Shared/Infrastructure/Persistence/EntityFramework/Criteria/LinqBuilderByCriteria.cs:39-58 | no order, `NONE` or an unnamed type value leaves the rows; `ASC` and `DESC` give the rows sorted by the member at the order path, in that direction; ordering is a permutation |
| ArchetypeCriteria.LimitRows | src/Archetype.Core/Shared/Infrastructure/Persistence/EntityFramework/Criteria/LinqBuilderByCriteria.cs:60-69 | no limit or 0 leaves the rows; a positive limit bounds the count |
| ArchetypeCriteria.OffsetRows | src/Archetype.Core/Shared/Infrastructure/Persistence/EntityFramework/Criteria/LinqBuilderByCriteria.cs:71-80 | no offset leaves the rows |
| ArchetypeCriteria.Search | src/Archetype.Core/Shared/Infrastructure/Persistence/EntityFramework/Criteria/SearchByCriteriaExtension.cs:13 | within the model, the search fails exactly when compiling the `Where` clause fails, with that exception; otherwise it is the page of the filtered, ordered rows |
| ArchetypeCriteria.SearchByCriteria | src/Archetype.Core/Shared/Infrastructure/Persistence/EntityFramework/Criteria/SearchByCriteriaExtension.cs:9-14 | `Where`, `OrderBy`, `Offset`, `Limit` in that order give the specified search |
| ArchetypeCriteriaProperties.Verbatim | src/Archetype.Core/Shared/Infrastructure/Persistence/EntityFramework/Criteria/LinqBuilderByCriteria.cs:166-176 | an unresolved segment is emitted as written, except that `value` becomes `Value` |
| ArchetypeCriteriaProperties.ExplicitValueSegment | src/Archetype.Core/Shared/Infrastructure/Persistence/EntityFramework/Criteria/LinqBuilderByCriteria.cs:166-170 | an explicit `value` segment emits `Value` and keeps the current type |
| ArchetypeCriteriaProperties.UnresolvedStaysVerbatim | src/Archetype.Core/Shared/Infrastructure/Persistence/EntityFramework/Criteria/LinqBuilderByCriteria.cs:172-185 | once a segment fails to resolve, the type stays unknown and every later segment is emitted verbatim |
| ArchetypeCriteriaProperties.UnknownFirstMember | src/Archetype.Core/Shared/Infrastructure/Persistence/EntityFramework/Criteria/LinqBuilderByCriteria.cs:178-185 | a path whose first segment is no member of the root is emitted as written and untyped, so its value stays text |
| ArchetypeCriteriaProperties.ValueObjectGetsOneValue | src/Archetype.Core/Shared/Infrastructure/Persistence/EntityFramework/Criteria/LinqBuilderByCriteria.cs:192-203 | a value-object member gets exactly one `Value` after it, never doubled, and the type moves to the wrapped primitive |
| ArchetypeCriteriaProperties.SingleValueObjectField | src/Archetype.Core/Shared/Infrastructure/Persistence/EntityFramework/Criteria/LinqBuilderByCriteria.cs:150-212 | a one-segment path naming a value object resolves to `Member.Value` with the primitive type |
| ArchetypeCriteriaProperties.SinglePlainField | src/Archetype.Core/Shared/Infrastructure/Persistence/EntityFramework/Criteria/LinqBuilderByCriteria.cs:150-212 | a one-segment path naming a plain member resolves to its declared name with its non-nullable type |
| ArchetypeCriteriaProperties.SearchWithoutCriteria | src/Archetype.Core/Shared/Infrastructure/Persistence/EntityFramework/Criteria/LinqBuilderByCriteria.cs:13-80 | with no filters, order, limit or offset the rows come back unchanged |
| ArchetypeCriteriaProperties.SearchResultRows | src/Archetype.Core/Shared/Infrastructure/Persistence/EntityFramework/Criteria/SearchByCriteriaExtension.cs:13 | every result row is an input row satisfying the clause, and a positive limit bounds the count |
| ArchetypeCriteriaProperties.SearchWindow | src/Archetype.Core/Shared/Infrastructure/Persistence/EntityFramework/Criteria/SearchByCriteriaExtension.cs:13 | result row `k` is row `offset + k` of the filtered and ordered rows |
| ArchetypeCriteriaProperties.SearchIsPage | src/Archetype.Core/Shared/Infrastructure/Persistence/EntityFramework/Criteria/LinqBuilderByCriteria.cs:60-80 | the result is `Take(Skip(ordered, offset), limit)`, with 0 meaning no limit and negative counts clamped |
| ArchetypeCriteriaProperties.SearchKeepsOrderWithoutSorting | src/Archetype.Core/Shared/Infrastructure/Persistence/EntityFramework/Criteria/LinqBuilderByCriteria.cs:39-58 | without an order the result is a subsequence of the rows in their original order |
| PaymentsCriteria.PropertyOrField | src/Payments.Core/Shared/Infrastructure/Persistence/EntityFramework/Criteria/LinqBuilderByCriteria.cs:166-169 | among the public instance members, a matching property is preferred to a field; it throws exactly when none matches, naming the segment and the type |
| PaymentsCriteria.AccessStep | src/Payments.Core/Shared/Infrastructure/Persistence/EntityFramework/Criteria/LinqBuilderByCriteria.cs:166-169 | one segment extends the access by a member of that name, or throws as `PropertyOrField` does |
| PaymentsCriteria.AccessFailurePersists | src/Payments.Core/Shared/Infrastructure/Persistence/EntityFramework/Criteria/LinqBuilderByCriteria.cs:166-169 | a failed segment fails the whole access with the same exception |
| PaymentsCriteria.AccessParts | src/Payments.Core/Shared/Infrastructure/Persistence/EntityFramework/Criteria/LinqBuilderByCriteria.cs:164-171 | the loop reads the segments one after the other, as specified |
| PaymentsCriteria.MemberAccessOf | src/Payments.Core/Shared/Infrastructure/Persistence/EntityFramework/Criteria/LinqBuilderByCriteria.cs:161-172 | a built access has one member per non-empty path segment |
| PaymentsCriteria.BuildMemberAccess | src/Payments.Core/Shared/Infrastructure/Persistence/EntityFramework/Criteria/LinqBuilderByCriteria.cs:161-172 | builds the specified access |
| PaymentsCriteria.WrapperValue | src/Payments.Core/Shared/Infrastructure/Persistence/EntityFramework/Criteria/LinqBuilderByCriteria.cs:181-186 | a built wrapper's `Value` reads its text |
| PaymentsCriteria.CreateWrapper | src/Payments.Core/Shared/Infrastructure/Persistence/EntityFramework/Criteria/LinqBuilderByCriteria.cs:181-186 | a wrapper stores the trimmed text; a constructor failure arrives as `TargetInvocationException`; a type whose `(string)` constructor is private (`Uuid`, `UserPasswordHash`) throws `MissingMethodException`, and only such a type does |
| PaymentsCriteria.ChangeType | src/Payments.Core/Shared/Infrastructure/Persistence/EntityFramework/Criteria/LinqBuilderByCriteria.cs:214 | integers and booleans convert exactly when their parsers accept |
| PaymentsCriteria.ConvertToType | src/Payments.Core/Shared/Infrastructure/Persistence/EntityFramework/Criteria/LinqBuilderByCriteria.cs:174-216 | text stays text; a wrapper type with a public `(string)` constructor converts exactly when that constructor accepts, and one whose constructor is private throws `MissingMethodException` before its static `From` is tried; only `From` gives null; an enum parses by name |
| PaymentsCriteria.BuildComparison | src/Payments.Core/Shared/Infrastructure/Persistence/EntityFramework/Criteria/LinqBuilderByCriteria.cs:106-127 | a null constant drops the filter; a conversion failure propagates; otherwise it throws only for ordering on a type without that operator |
| PaymentsCriteria.StringAccessor | src/Payments.Core/Shared/Infrastructure/Persistence/EntityFramework/Criteria/LinqBuilderByCriteria.cs:143-159 | a text member itself, else a text `Value` property, else `ToString()`, and none for an interface |
| PaymentsCriteria.BuildContains | src/Payments.Core/Shared/Infrastructure/Persistence/EntityFramework/Criteria/LinqBuilderByCriteria.cs:129-141 | no accessor drops the filter; otherwise a (negated) `Contains` on the accessor |
| PaymentsCriteria.FilterExpression | src/Payments.Core/Shared/Infrastructure/Persistence/EntityFramework/Criteria/LinqBuilderByCriteria.cs:86-104 | a bad field path throws its access exception |
| PaymentsCriteria.BuildFor | src/Payments.Core/Shared/Infrastructure/Persistence/EntityFramework/Criteria/LinqBuilderByCriteria.cs:90-103 | substring operators build `Contains`; the others compare against the member type without `Nullable` |
| PaymentsCriteria.BuildFilterExpression | src/Payments.Core/Shared/Infrastructure/Persistence/EntityFramework/Criteria/LinqBuilderByCriteria.cs:86-104 | builds the specified expression |
| PaymentsCriteria.KeptPredicates | src/Payments.Core/Shared/Infrastructure/Persistence/EntityFramework/Criteria/LinqBuilderByCriteria.cs:24-36 | at most one predicate per filter |
| PaymentsCriteria.FoldAnd | src/Payments.Core/Shared/Infrastructure/Persistence/EntityFramework/Criteria/LinqBuilderByCriteria.cs:32-35 | the fold is absent exactly when there is no predicate |
| PaymentsCriteria.WhereExpr | src/Payments.Core/Shared/Infrastructure/Persistence/EntityFramework/Criteria/LinqBuilderByCriteria.cs:16-19 | criteria without filters give no expression |
| PaymentsCriteria.KeptFailurePersists | src/Payments.Core/Shared/Infrastructure/Persistence/EntityFramework/Criteria/LinqBuilderByCriteria.cs:24-36 | once one filter throws, the whole list throws the same exception |
| PaymentsCriteria.Where | src/Payments.Core/Shared/Infrastructure/Persistence/EntityFramework/Criteria/LinqBuilderByCriteria.cs:14-45 | the loop skips null expressions and folds the rest, giving the specified expression |
| PaymentsCriteria.ApplyWhere | src/Payments.Core/Shared/Infrastructure/Persistence/EntityFramework/Criteria/LinqBuilderByCriteria.cs:38-44 | no expression keeps the rows as they are |
| PaymentsCriteria.OrderRows | src/Payments.Core/Shared/Infrastructure/Persistence/EntityFramework/Criteria/LinqBuilderByCriteria.cs:47-64 | without an order the rows stay; it fails exactly when the order field is no member path; `ASC` and `DESC` give the rows sorted by that member in that direction; an unnamed type value leaves them; ordering is a permutation |
| Sorting.SortByIsStable | src/Payments.Core/Shared/Infrastructure/Persistence/EntityFramework/Criteria/LinqBuilderByCriteria.cs:58-62 | the sort is stable: the rows whose keys tie with any given value come out in their input order |
| PaymentsCriteria.OrderBy | src/Payments.Core/Shared/Infrastructure/Persistence/EntityFramework/Criteria/LinqBuilderByCriteria.cs:47-64 | orders as specified |
| PaymentsCriteria.LimitRows | src/Payments.Core/Shared/Infrastructure/Persistence/EntityFramework/Criteria/LinqBuilderByCriteria.cs:66-74 | null or 0 leaves the rows; a positive limit bounds the count |
| PaymentsCriteria.OffsetRows | src/Payments.Core/Shared/Infrastructure/Persistence/EntityFramework/Criteria/LinqBuilderByCriteria.cs:76-84 | null or 0 leaves the rows |
| PaymentsCriteria.Search | src/Payments.Core/Shared/Infrastructure/Persistence/EntityFramework/Criteria/SearchByCriteriaExtension.cs:12-15 | a null set, then null criteria, throws `ArgumentNullException` first |
| PaymentsCriteria.SearchByCriteria | src/Payments.Core/Shared/Infrastructure/Persistence/EntityFramework/Criteria/SearchByCriteriaExtension.cs:9-16 | the null checks, then `Where`, `OrderBy`, `Offset` and `Limit`, give the specified search |
| PaymentsCriteriaProperties.AccessFollowsPath | src/Payments.Core/Shared/Infrastructure/Persistence/EntityFramework/Criteria/LinqBuilderByCriteria.cs:161-172 | member `k` of a built access matches path segment `k` ignoring case |
| PaymentsCriteriaProperties.AccessFailsAtUnknownSegment | src/Payments.Core/Shared/Infrastructure/Persistence/EntityFramework/Criteria/LinqBuilderByCriteria.cs:161-172 | a segment naming no member of the type reached throws `ArgumentException` naming the segment and that type |
| PaymentsCriteriaProperties.FoldAndMeaning | src/Payments.Core/Shared/Infrastructure/Persistence/EntityFramework/Criteria/LinqBuilderByCriteria.cs:32-35 | the `AndAlso` fold holds exactly when every predicate does |
| PaymentsCriteriaProperties.KeptBuildsAll | src/Payments.Core/Shared/Infrastructure/Persistence/EntityFramework/Criteria/LinqBuilderByCriteria.cs:24-36 | the predicates exist exactly when no filter throws |
| PaymentsCriteriaProperties.KeptMeaning | src/Payments.Core/Shared/Infrastructure/Persistence/EntityFramework/Criteria/LinqBuilderByCriteria.cs:24-36 | all kept predicates hold exactly when every filter that builds one holds |
| PaymentsCriteriaProperties.FiltersOf | src/Payments.Core/Shared/Domain/FiltersByCriteria/Criteria.cs:10 | a criteria with filters yields exactly its filter list |
| PaymentsCriteriaProperties.WhereMeaning | src/Payments.Core/Shared/Infrastructure/Persistence/EntityFramework/Criteria/LinqBuilderByCriteria.cs:14-45 | `Where` throws exactly when some filter throws; otherwise it keeps a row exactly when the row passes every filter that is not dropped |
| PaymentsCriteriaProperties.AllDroppedKeepsNothingOut | src/Payments.Core/Shared/Infrastructure/Persistence/EntityFramework/Criteria/LinqBuilderByCriteria.cs:27-30 | when every filter is dropped, no predicate is kept |
| PaymentsCriteriaProperties.AllDroppedWhere | src/Payments.Core/Shared/Infrastructure/Persistence/EntityFramework/Criteria/LinqBuilderByCriteria.cs:38-41 | when every filter is dropped, `Where` returns the source unfiltered |
| PaymentsCriteriaProperties.ContainsOnText | src/Payments.Core/Shared/Infrastructure/Persistence/EntityFramework/Criteria/LinqBuilderByCriteria.cs:129-159 | on a text member, `CONTAINS` holds exactly when the member contains the value, and `NOT_CONTAINS` exactly when it does not |
| PaymentsCriteriaProperties.OrderingNeedsOperator | src/Payments.Core/Shared/Infrastructure/Persistence/EntityFramework/Criteria/LinqBuilderByCriteria.cs:106-127 | an ordering filter on a type without that operator throws `InvalidOperationException` |
| PaymentsCriteriaProperties.NonPublicWrapperThrows | src/Payments.Core/Shared/Infrastructure/Persistence/EntityFramework/Criteria/LinqBuilderByCriteria.cs:181-186 | a comparison filter on a `Uuid` or `UserPasswordHash` member throws `MissingMethodException`, whatever its text |
| PaymentsCriteriaProperties.SearchWindow | src/Payments.Core/Shared/Infrastructure/Persistence/EntityFramework/Criteria/SearchByCriteriaExtension.cs:15 | result row `k` is row `offset + k` of the filtered and ordered rows, at most `limit` of them |
| PaymentsCriteriaProperties.SearchIsPage | src/Payments.Core/Shared/Infrastructure/Persistence/EntityFramework/Criteria/LinqBuilderByCriteria.cs:66-84 | the result is `Take(Skip(ordered, offset), limit)`, with 0 meaning no limit and negative counts clamped |
| PaymentsCriteriaProperties.SearchResultRows | src/Payments.Core/Shared/Infrastructure/Persistence/EntityFramework/Criteria/SearchByCriteriaExtension.cs:15 | every result row is a row of the set that passes every filter |
| PaymentsCriteriaProperties.SearchKeepsOrderWithoutSorting | src/Payments.Core/Shared/Infrastructure/Persistence/EntityFramework/Criteria/LinqBuilderByCriteria.cs:49-52 | without an order the result is a subsequence of the set, in its order |
| PaymentsCriteriaProperties.SearchWithoutCriteria | src/Payments.Core/Shared/Infrastructure/Persistence/EntityFramework/Criteria/SearchByCriteriaExtension.cs:12-15 | criteria with nothing to filter, order or page return the set unchanged |
| QueryProcessors.LookupIgnoreCase | src/Payments.Api/Endpoints/Shared/QueryProcessor.cs:135 | the token of a mapping whose name matches ignoring case, or the fallback exactly when none matches |
| QueryProcessors.MapOperator | src/Payments.Api/Endpoints/Shared/QueryProcessor.cs:64-76 | every name maps to a known token; `NOT_CONTAINS` only for `not-contains` |
| QueryProcessors.RawFilterOf | src/Payments.Api/Endpoints/Shared/QueryProcessor.cs:137-142 | the raw filter has exactly the keys `field`, `operator` and `value`, holding the given parts |
| QueryProcessors.ParseSingleFilter | src/Payments.Api/Endpoints/Shared/QueryProcessor.cs:99-143 | no `=` gives nothing; a parsed filter is always well formed, and its value is the text after the first `=`, neither side of which is blank |
| QueryProcessors.ParseValues | src/Archetype.Api/Endpoints/Shared/QueryProcessor.cs:70-78 | at most one well-formed filter per value |
| QueryProcessors.ParseAll | src/Archetype.Api/Endpoints/Shared/QueryProcessor.cs:41-82 | every parsed filter is well formed, so `Filter.FromValues` accepts it |
| QueryProcessors.ParseParamValues | src/Payments.Api/Endpoints/Shared/QueryProcessor.cs:85-93 | the inner loop parses each `key=value`, keeping the non-null results in order |
| QueryProcessors.ParseFilters | src/Payments.Api/Endpoints/Shared/QueryProcessor.cs:56-97 | the loop computes the filters of every parameter that is not excluded |
| QueryProcessors.ExcludedParamsIgnored | src/Payments.Api/Endpoints/Shared/QueryProcessor.cs:59-62 | `orderby`, `order`, `limit` and `offset`, in any case, contribute no filter |
| QueryProcessors.QueryProcessor.constructor | src/Payments.Api/Endpoints/Shared/QueryProcessor.cs:18-34 | nothing is parsed yet |
| QueryProcessors.QueryProcessor.Filters | src/Payments.Api/Endpoints/Shared/QueryProcessor.cs:18-34 | every read returns the parsed filters, memoised after the first read |
| QueryProcessors.ReadTwice | src/Archetype.Api/Endpoints/Shared/QueryProcessor.cs:15-31 | two reads of `Filters` return the same list |
| QueryProcessors.ValuesOf | src/Payments.Api/Endpoints/Shared/QueryProcessor.cs:145 | the values of a parameter named so ignoring case, or none exactly when there is none |
| QueryProcessors.FirstValue | src/Payments.Api/Endpoints/Shared/QueryProcessor.cs:145-147 | the first value of the named parameter when it has one, and null otherwise |
| QueryProcessors.GetOrderBy | src/Payments.Api/Endpoints/Shared/QueryProcessor.cs:145 | the first value of `orderBy`, found ignoring case, or null when absent |
| QueryProcessors.GetOrder | src/Payments.Api/Endpoints/Shared/QueryProcessor.cs:147 | the first value of `order`, found ignoring case, or null when absent |
| QueryProcessors.GetLimit | src/Payments.Api/Endpoints/Shared/QueryProcessor.cs:149-155 | the first `limit` value as a 32-bit integer exactly when it parses as one, else null |
| QueryProcessors.GetOffset | src/Payments.Api/Endpoints/Shared/QueryProcessor.cs:157-163 | the first `offset` value as a 32-bit integer exactly when it parses as one, else null |
| QueryProcessors.GetLimitReadsWrittenValue | src/Archetype.Api/Endpoints/Shared/QueryProcessor.cs:133-139 | a 32-bit integer written as the first `limit` value is read back |
| QueryProcessorProperties.ParseKeyValue | src/Archetype.Api/Endpoints/Shared/QueryProcessor.cs:84-127 | `key=value` splits right after `key`, even when `value` contains `=` |
| QueryProcessorProperties.BlankSideGivesNothing | src/Archetype.Api/Endpoints/Shared/QueryProcessor.cs:96-99 | a blank side gives no filter |
| QueryProcessorProperties.PaymentsNeverNotContains | src/Payments.Api/Endpoints/Shared/QueryProcessor.cs:116-135 | the Payments dialect never yields `NOT_CONTAINS`, because the operator name after the last dash has no dash |
| QueryProcessorProperties.PaymentsSplitsAtLastDash | src/Payments.Api/Endpoints/Shared/QueryProcessor.cs:116-128 | the field is the untrimmed text before the last dash and the operator name is the text after it |
| QueryProcessorProperties.PaymentsEmailNotContainsExample | src/Payments.Api/Endpoints/Shared/QueryProcessor.cs:116-135 | `email-not-contains=x` becomes field `email-not` with `CONTAINS` |
| QueryProcessorProperties.ArchetypeFieldIsTrimmedPiece | src/Archetype.Api/Endpoints/Shared/QueryProcessor.cs:104-117 | the field is a non-empty, trimmed piece without a dash |
| QueryProcessorProperties.ArchetypeBareLeftSide | src/Archetype.Api/Endpoints/Shared/QueryProcessor.cs:111-112 | a left side without a dash is the trimmed field with operator name `eq` |
| QueryProcessorProperties.ArchetypeBareKeyIsEqual | src/Archetype.Api/Endpoints/Shared/QueryProcessor.cs:111-119 | `key=value` with no dash is an equality filter |
| QueryProcessorProperties.ArchetypeThreePieces | src/Archetype.Api/Endpoints/Shared/QueryProcessor.cs:104-119 | in `field-a-b=value` the field is the first piece and the operator name is `a-b` |
| QueryProcessorProperties.ArchetypeEmailNotContainsExample | src/Archetype.Api/Endpoints/Shared/QueryProcessor.cs:104-126 | `email-not-contains=x` becomes field `email` with `NOT_CONTAINS` |
| LogContexts.Override | src/Archetype.Core/Shared/Infrastructure/LogContext.cs:39-52 | a non-null incoming field wins, and a null one keeps the current field |
| LogContexts.Merge | src/Archetype.Core/Shared/Infrastructure/LogContext.cs:36-53 | each of the three fields is overridden independently |
| LogContexts.MergeLaws | src/Archetype.Core/Shared/Infrastructure/LogContext.cs:36-53 | setting nothing changes nothing; setting twice is setting once; setting on an empty holder gives the values |
| LogContexts.MergeComposes | src/Archetype.Core/Shared/Infrastructure/LogContext.cs:36-53 | two `Set` calls act as one with the later non-null fields laid over the earlier |
| LogContexts.LogContext.constructor | src/Archetype.Core/Shared/Infrastructure/LogContext.cs:14 | a flow starts with no holder |
| LogContexts.LogContext.Values | src/Archetype.Core/Shared/Infrastructure/LogContext.cs:16-34 | a missing holder reads as all null |
| LogContexts.LogContext.CorrelationId | src/Archetype.Core/Shared/Infrastructure/LogContext.cs:32 | the holder's correlation id, null without a holder |
| LogContexts.LogContext.RequestId | src/Archetype.Core/Shared/Infrastructure/LogContext.cs:33 | the holder's request id, null without a holder |
| LogContexts.LogContext.UserId | src/Archetype.Core/Shared/Infrastructure/LogContext.cs:34 | the holder's user id, null without a holder |
| LogContexts.LogContext.Set | src/Archetype.Core/Shared/Infrastructure/LogContext.cs:36-53 | the holder becomes the old values with the non-null fields of the argument laid over them |
| LogContexts.LogContext.Capture | src/Archetype.Core/Shared/Infrastructure/LogContext.cs:55-59 | returns the current values and leaves them unchanged (creating the holder) |
| LogContexts.LogContext.Clear | src/Archetype.Core/Shared/Infrastructure/LogContext.cs:61-64 | drops the holder, so every field reads null |
| LogContexts.SetThenCapture | src/Archetype.Core/Shared/Infrastructure/LogContext.cs:36-59 | a capture after `Set` sees the set non-null fields over the earlier values |
| AggregateRoots.AggregateRoot.constructor | src/Archetype.Core/Shared/Domain/AggregateRoot.cs:7-9 | a new aggregate has no events |
| AggregateRoots.AggregateRoot.GetDomainEvents | src/Archetype.Core/Shared/Domain/AggregateRoot.cs:11-14 | the raised events in the order raised |
| AggregateRoots.AggregateRoot.ClearDomainEvents | src/Archetype.Core/Shared/Domain/AggregateRoot.cs:16-19 | the event list becomes empty and the id is kept |
| AggregateRoots.AggregateRoot.RaiseDomainEvent | src/Archetype.Core/Shared/Domain/AggregateRoot.cs:21-24 | the event is appended at the end; earlier events and the id are unchanged |
| AggregateRoots.RaiseInOrder | src/Archetype.Core/Shared/Domain/AggregateRoot.cs:11-24 | raising `a` then `b` after clearing lists exactly `[a, b]` |
| Users.CreateGuard | src/Payments.Core/Users/Domain/User.cs:30-33 | the first null argument, in order id, email, full name, password, is reported; none exactly when all are present |
| Users.User.constructor | src/Payments.Core/Users/Domain/User.cs:19-26 | the user holds the given fields |
| Users.User.Create | src/Payments.Core/Users/Domain/User.cs:28-42 | fails exactly on a null argument, with the guard's exception; otherwise a new user with the given fields, stamped with the clock's instant |
| Users.User.ChangePassword | src/Payments.Core/Users/Domain/User.cs:44-48 | a null hash throws and changes nothing; otherwise only the hash is replaced |
| Users.User.VerifyPassword | src/Payments.Core/Users/Domain/User.cs:50 | the hasher decides, given the stored hash |
| Users.ChangePasswordReplacesHash | src/Payments.Core/Users/Domain/User.cs:44-50 | after changing to `NewValid1!`, that password verifies and the former `Valid12!` no longer does |
| Users.NewPasswordAccepted | src/Payments.Core/Users/Domain/UserPasswordHash.cs:36-43 | `NewValid1!` is accepted and its fake hash is not that of `Valid12!` |
| Users.InMemoryUserRepository.constructor | src/Payments.Core/Users/Infrastructure/InMemoryUserRepository.cs:13-23 | the store holds the seed user alone, under its id |
| Users.InMemoryUserRepository.Find | src/Payments.Core/Users/Infrastructure/InMemoryUserRepository.cs:25-29 | the stored user for a known id, and null exactly for an unknown one |
| Users.InMemoryUserRepository.Save | src/Payments.Core/Users/Infrastructure/InMemoryUserRepository.cs:31-35 | the user is stored under its id, replacing any earlier one, and every other entry is unchanged |
| Users.SaveIsIdempotent | src/Payments.Core/Users/Infrastructure/InMemoryUserRepository.cs:31-35 | saving the same user twice is saving it once |
| Users.SeededRepositoryFinds | src/Payments.Core/Users/Infrastructure/InMemoryUserRepository.cs:13-29 | a seeded repository finds the seed user and no other id |
| UserHandlers.InvalidCredentials | src/Archetype.Core/Users/Application/AuthenticateUserHandler.cs:10-11 | the unauthorised error `INVALID_CREDENTIALS`, "Invalid credentials." |
| UserHandlers.Authenticate | src/Archetype.Core/Users/Application/AuthenticateUserHandler.cs:13-32 | a malformed email throws; an unknown email and a wrong password give the same invalid-credentials error; otherwise the user's id, email and name |
| UserHandlers.InvalidCredentialsResponse | src/Archetype.Core/Users/Application/AuthenticateUserHandler.cs:19-29 | both failures reach the client as the same 401 problem with no field errors |
| UserHandlers.ListCriteria | src/Archetype.Core/Users/Application/List/ListUsersHandler.cs:13-20 | only `email` and `fullname` filters are kept, each built from an allowed raw filter; ordering is by `CreatedAt` descending; limit and offset pass through; malformed allowed filters throw |
| UserHandlers.CreatedAtDescending | src/Archetype.Core/Users/Application/List/ListUsersHandler.cs:17 | `Order.FromValues("CreatedAt", "DESC")` is a real descending order |
| UserHandlers.Summaries | src/Archetype.Core/Users/Application/List/ListUsersHandler.cs:24-29 | one summary per user, in repository order |
| UserHandlers.ListResponse | src/Payments.Core/Users/Application/List/ListUsersResponse.cs:3-5 | `Total` is the number of users returned on this page |
| UserHandlers.ArchetypeListUsers | src/Archetype.Core/Users/Application/List/ListUsersHandler.cs:11-32 | throws exactly when the criteria do; otherwise a success holding the response for the matching users |
| UserHandlers.PaymentsListUsers | src/Payments.Core/Users/Application/List/ListUsersHandler.cs:10-31 | the same criteria and response, without a result wrapper |
| UserHandlers.NoAllowedFilterGivesEmptyFilters | src/Payments.Core/Users/Application/List/ListUsersHandler.cs:12 | a request naming no allowed field still builds an empty `Filters`, which counts as no filters |

## Left out

- I/O and plumbing are not modelled: HTTP endpoints and dependency injection,
  Entity Framework persistence and migrations, the event bus, the console logger,
  `DateTimeOffsetExtensions`, and the JWT and BCrypt providers. The date formatter
  and the hasher are parameters.
- `GetUserHandler` and `GenerateTokenHandler` are not part of this model.
- `UsersSeedData` is not part of this model. The seeded repository takes its seed
  user as a parameter.
- `IUserRepository` (src/Payments.Core/Users/Domain/UserRepository.cs:5-11)
  also declares `FindByEmail` and `Matching`, which the `InMemoryUserRepository`
  file does not implement. The handlers take both queries as parameters.
- `Uuid.Validate` (a `Guid` check) is not modelled, because `StringValueObject`
  has no `Validate` hook to call it. A `Uuid` is its text.
- Concurrency is not modelled:
  - the `AsyncLocal` flow of `LogContext`;
  - the `ConcurrentDictionary` of the field-path cache and of the repository
    (modelled as plain maps);
  - the lock in `QueryProcessor.Filters`.
- `LogContexts.LogContext.Values`: the getters of `CorrelationId`, `RequestId` and
  `UserId` create the holder on first read. The model reads a missing holder as all
  null without creating it; what a caller observes is the same.
- `AggregateRoots.AggregateRoot.GetDomainEvents` returns a snapshot, where the
  source returns a read-only live view of the list.
- Library parsers are parameters (`Conversions.Foreign`) rather than models:
  `DateTimeOffset`, `DateTime`, `Guid`, `decimal`, `double` and `float` parsing,
  `Convert.ChangeType` for types other than integers and booleans, a type's static
  `From(string)`, and `ToString()`.
- `Criterias.ParseOrderType`: the comma-separated lists that `Enum.Parse` combines
  (`"ASC,DESC"` is `(OrderType)3`) are rejected as unknown names.
- `Criterias.ParseOrderType`: the values 0, 1 and 2 of `NONE`, `ASC` and `DESC`
  are their declaration order; `OrderType.cs` is not part of this model.
- `Numbers.ParseWidth`, `Numbers.TryParseInt32`: trailing NUL characters, which the .NET integer parsers
  accept after a number, are rejected.
- `ArchetypeCriteria.Search`, `ArchetypeCriteria.ApplyWhere`,
  `ArchetypeCriteria.OrderRows`: the Dynamic-LINQ text is not parsed. A
  `ParseException` from a filter or order text that Dynamic LINQ cannot read is
  not modelled, and a member the path does not name reads as null instead of
  failing.
- `ArchetypeCriteria.OrderRows`, `PaymentsCriteria.OrderRows`: rows are sorted by
  `Rows.Compare`, under which two object values are equal. Ordering by a
  value-object member therefore keeps the rows in order, while Entity Framework
  orders by the mapped column.
- `PaymentsCriteria.PropertyOrField`: a type's members are its public instance
  members. The fallback to non-public properties and fields, and the
  `AmbiguousMatchException` for names that differ only in case, are not modelled.
- `LogContexts.LogContext.constructor`: the source keeps the holder in one static
  `AsyncLocal` shared by every `LogContext` instance of a flow; one model object
  stands for that holder. A second instance in the same flow is not modelled.
- `Conversions.EnumParse` accepts enum names only. The numeric forms that
  `Enum.Parse` also accepts (`"1"`, comma-separated flags) are not modelled.
- Character classes are an ASCII and Latin-1 approximation. This covers
  `char.IsWhiteSpace`, `IsUpper`, `IsLower`, `IsDigit`, `IsLetterOrDigit`, the
  regex class `\s`, and the case folding of `OrdinalIgnoreCase`.
- Exception messages are not modelled where the source builds them from library
  text: the message of `ArgumentOutOfRangeException` in the password and name
  checks, and the messages of the integer and boolean parsers. `Enum.Parse`
  quotes the text after `TrimStart` in its not-found message, while
  `Conversions.EnumParse` and `Criterias.ParseOrderType` quote the untrimmed text.
- `Evaluation.OperatorsAgree`: comparisons follow a total preorder on values of one
  scalar kind, standing in for the database's ordering. The ordering operators of
  the Payments compiler are taken to exist for numbers, dates and `Guid`, as in
  .NET 7 and later.
- `PaymentsCriteria.OrderRows`: a stable sort by the member's value
  (`Sorting.SortByIsStable`); a database need not keep tied rows in input order,
  and that freedom is not modelled. Null keys
  (including members below a null navigation) and the provider's collation are not
  modelled.
- `PaymentsCriteria.ConvertToType`: the null semantics of `Expression.Convert` on
  nullable members is not modelled. A null member compares as neither greater nor
  smaller, and as unequal to any constant.
- `Results.FromErrorArray`: the implicit conversion of a null `Error[]` (which
  throws in the spread) is not modelled. The array is a sequence.
- `UserHandlers.Authenticate`: the property that the password is checked only
  after a user was found is not stated separately. It is implied by the hasher
  being a pure parameter.

=== FILE: aggregate_root.dfy ===
/** `AggregateRoot<TId>`: an identifier and the list of domain events raised since
    the list was last cleared. */
module AggregateRoots {
  class AggregateRoot<TId, TEvent> {
    /** `Id`; only a derived class sets it, and no event operation touches it. */
    var id: TId
    /** `_domainEvents`, oldest first. */
    var domainEvents: seq<TEvent>

    constructor(id: TId)
      ensures this.id == id && domainEvents == []
    {
      this.id := id;
      domainEvents := [];
    }

    /** `GetDomainEvents`: the raised events in the order they were raised. */
    method GetDomainEvents() returns (events: seq<TEvent>)
      ensures events == domainEvents
    {
      events := domainEvents;
    }

    /** `ClearDomainEvents`: the list is emptied; the id is kept. */
    method ClearDomainEvents()
      modifies this
      ensures domainEvents == [] && id == old(id)
    {
      domainEvents := [];
    }

    /** `RaiseDomainEvent`: one event more, at the end; the earlier ones and the id
        are unchanged. */
    method RaiseDomainEvent(domainEvent: TEvent)
      modifies this
      ensures domainEvents == old(domainEvents) + [domainEvent]
      ensures |domainEvents| == |old(domainEvents)| + 1 && domainEvents[|domainEvents| - 1] == domainEvent
      ensures domainEvents[..|old(domainEvents)|] == old(domainEvents)
      ensures id == old(id)
    {
      domainEvents := domainEvents + [domainEvent];
    }
  }

  /** Raising `a` and then `b` on a cleared aggregate lists exactly `[a, b]`, in
      that order, under the same id. */
  method RaiseInOrder<TId, TEvent>(root: AggregateRoot<TId, TEvent>, a: TEvent, b: TEvent) returns (events: seq<TEvent>)
    modifies root
    ensures events == [a, b] && root.id == old(root.id)
  {
    root.ClearDomainEvents();
    root.RaiseDomainEvent(a);
    root.RaiseDomainEvent(b);
    events := root.GetDomainEvents();
  }
}

=== FILE: archetype_linq.dfy ===
/** The Archetype criteria compiler (`LinqBuilderByCriteria`): it resolves each
    filter's field path against the entity metadata, unwrapping value objects by
    appending `.Value`, and emits Dynamic-LINQ text `path op @i` with a parallel
    parameter list; then it orders, skips and takes.

    The query text is kept both as text (`Render`) and as the fragments it is made
    of; `ApplyWhere` gives the fragments their meaning over a sequence of rows. */
module ArchetypeCriteria {
  import opened Wrappers
  import opened Text
  import opened Numbers
  import opened Reflection
  import opened Rows
  import opened Sequences
  import opened Sorting
  import opened StringValueObjects
  import opened FilterOperators
  import opened Criterias
  import opened Conversions
  import opened Evaluation

  const ValuePropertyName: string := "Value"

  /** A resolved field: the member path to emit and the type it ends at (`None` once
      a segment could not be resolved). */
  datatype ResolvedField = ResolvedField(path: string, fieldType: Option<TypeDesc>)

  predicate IsValueSegment(segment: string) {
    EqualsIgnoreCase(segment, ValuePropertyName)
  }

  /** `GetMemberByName`: the first public instance property or field with that name,
      ignoring case. */
  function GetMemberByName(schema: Schema, t: TypeDesc, name: string): (r: Option<Member>)
    ensures r.Some? ==> r.value in Info(schema, t).members && EqualsIgnoreCase(r.value.name, name)
    ensures r.None? <==> forall j :: 0 <= j < |Info(schema, t).members| ==> !Named(Info(schema, t).members[j], name, {Property, MemberKind.Field})
  {
    FirstNamed(Info(schema, t).members, name, {Property, MemberKind.Field})
  }

  /** `TryGetValueObjectPrimitiveType`: the `T` of `IValueObject<T>` when the type is
      or implements it, else the type of a public `Value` property, else none. */
  function PrimitiveOf(schema: Schema, t: TypeDesc): (r: Option<TypeDesc>)
    ensures Info(schema, t).valueObjectOf.Some? ==> r == Info(schema, t).valueObjectOf
    ensures r.None? <==> Info(schema, t).valueObjectOf.None? && ValueProperty(schema, t).None?
  {
    match Info(schema, t).valueObjectOf
    case Some(p) => Some(p)
    case None =>
      match ValueProperty(schema, t)
      case Some(m) => Some(m.memberType)
      case None => None
  }

  /** What one iteration of the resolution loop emits, and the type it moves to. */
  datatype Step = Step(emitted: seq<string>, next: Option<TypeDesc>)

  /** One iteration of `BuildFieldResolution` for `segments[index]`, reached with
      type `current`. */
  function ResolveSegment(schema: Schema, segments: seq<string>, index: nat, current: Option<TypeDesc>): (r: Step)
    requires index < |segments|
    ensures 1 <= |r.emitted| <= 2
  {
    var raw := segments[index];
    if IsValueSegment(raw) then Step([ValuePropertyName], current)
    else if current.None? then Step([raw], None)
    else match GetMemberByName(schema, current.value, raw)
      case None => Step([raw], None)
      case Some(m) =>
        var memberType := NonNullable(m.memberType);
        match PrimitiveOf(schema, memberType)
        case Some(p) =>
          var nextIsValue := index + 1 < |segments| && IsValueSegment(segments[index + 1]);
          Step(if nextIsValue then [m.name] else [m.name, ValuePropertyName], Some(p))
        case None => Step([m.name], Some(memberType))
  }

  /** The first `n` iterations of the resolution loop, from the root type. */
  function ResolvePrefix(schema: Schema, segments: seq<string>, n: nat, root: TypeDesc): (r: Step)
    requires n <= |segments|
    ensures n <= |r.emitted| <= 2 * n
  {
    if n == 0 then Step([], Some(root))
    else
      var before := ResolvePrefix(schema, segments, n - 1, root);
      var step := ResolveSegment(schema, segments, n - 1, before.next);
      Step(before.emitted + step.emitted, step.next)
  }

  /** The resolution of a non-empty list of segments: the emitted segments joined
      with `.`, at the type the last one reached. */
  function ResolveSegments(schema: Schema, root: TypeDesc, segments: seq<string>): (r: ResolvedField)
    requires |segments| > 0
  {
    var all := ResolvePrefix(schema, segments, |segments|, root);
    ResolvedField(Join(".", all.emitted), all.next)
  }

  /** The specification of `BuildFieldResolution`: the path split on `.` with empty
      entries removed and entries trimmed; no entry leaves the path as it is, at the
      root type; otherwise the resolution of the segments. */
  function Resolution(schema: Schema, root: TypeDesc, fieldName: string): ResolvedField {
    var segments := SplitTrimmedNonEmpty(fieldName, '.');
    if |segments| == 0 then ResolvedField(fieldName, Some(root))
    else ResolveSegments(schema, root, segments)
  }

  /** The body of the resolution loop for `segments[index]`: the segments it
      appends and the type it moves to. */
  method ResolveNext(schema: Schema, segments: seq<string>, index: nat, currentType: Option<TypeDesc>)
    returns (appended: seq<string>, nextType: Option<TypeDesc>)
    requires index < |segments|
    ensures Step(appended, nextType) == ResolveSegment(schema, segments, index, currentType)
  {
    var rawSegment := segments[index];
    nextType := currentType;
    if IsValueSegment(rawSegment) {
      appended := [ValuePropertyName];
    } else if currentType.None? {
      appended := [rawSegment];
    } else {
      var member := GetMemberByName(schema, currentType.value, rawSegment);
      if member.None? {
        appended := [rawSegment];
        nextType := None;
      } else {
        appended := [member.value.name];
        var normalizedMemberType := NonNullable(member.value.memberType);
        var primitiveType := PrimitiveOf(schema, normalizedMemberType);
        if primitiveType.Some? {
          var nextSegmentIsExplicitValue := index + 1 < |segments| && IsValueSegment(segments[index + 1]);
          if !nextSegmentIsExplicitValue {
            appended := appended + [ValuePropertyName];
          }
          nextType := primitiveType;
        } else {
          nextType := Some(normalizedMemberType);
        }
      }
    }
  }

  /** The resolution loop of `BuildFieldResolution`: walks the segments from the
      root type, appending to the resolved segments and moving the current type. */
  method ResolveAll(schema: Schema, root: TypeDesc, segments: seq<string>)
    returns (resolvedSegments: seq<string>, currentType: Option<TypeDesc>)
    ensures Step(resolvedSegments, currentType) == ResolvePrefix(schema, segments, |segments|, root)
  {
    resolvedSegments := [];
    currentType := Some(root);
    for index := 0 to |segments|
      invariant Step(resolvedSegments, currentType) == ResolvePrefix(schema, segments, index, root)
    {
      var appended, nextType := ResolveNext(schema, segments, index, currentType);
      resolvedSegments := resolvedSegments + appended;
      currentType := nextType;
    }
  }

  /** `BuildFieldResolution`: a path with no segment stays as it is, at the root
      type; otherwise the resolved segments joined with `.`. */
  method BuildFieldResolution(schema: Schema, root: TypeDesc, fieldName: string) returns (r: ResolvedField)
    ensures r == Resolution(schema, root, fieldName)
  {
    var segments := SplitTrimmedNonEmpty(fieldName, '.');
    if |segments| == 0 {
      return ResolvedField(fieldName, Some(root));
    }
    var resolvedSegments, currentType := ResolveAll(schema, root, segments);
    r := ResolvedField(Join(".", resolvedSegments), currentType);
  }

  /** `GetResolvedField` without the cache: a blank path is left unresolved. */
  function ResolvedFieldOf(schema: Schema, root: TypeDesc, fieldName: string): (r: ResolvedField)
    ensures IsBlank(fieldName) ==> r == ResolvedField(fieldName, None)
    ensures !IsBlank(fieldName) ==> r == Resolution(schema, root, fieldName)
  {
    if IsBlank(fieldName) then ResolvedField(fieldName, None) else Resolution(schema, root, fieldName)
  }

  /** Every entry of a field-path cache is the resolution of its key. */
  ghost predicate CacheValid(schema: Schema, entries: map<(TypeDesc, string), ResolvedField>) {
    forall key :: key in entries ==> entries[key] == Resolution(schema, key.0, key.1)
  }

  lemma CacheValidAfterAdd(schema: Schema, entries: map<(TypeDesc, string), ResolvedField>, root: TypeDesc, path: string, r: ResolvedField)
    requires CacheValid(schema, entries) && r == Resolution(schema, root, path)
    ensures CacheValid(schema, entries[(root, path) := r])
  {
  }

  /** Storing what a map already holds leaves it as it is. */
  lemma StoreSame<K, V>(m: map<K, V>, k: K)
    requires k in m
    ensures m[k := m[k]] == m
  {
  }

  /** The field-path cache (`_fieldPathCache`) over a fixed schema. */
  class FieldPathCache {
    const schema: Schema
    var entries: map<(TypeDesc, string), ResolvedField>

    ghost predicate Valid()
      reads this
    {
      CacheValid(schema, entries)
    }

    constructor(schema: Schema)
      ensures this.schema == schema && entries == map[] && Valid()
    {
      this.schema := schema;
      entries := map[];
    }

    /** `GetResolvedField`: a blank path bypasses the cache; any other path is looked
        up, and resolved and stored on a miss. Either way the answer is the
        resolution itself. */
    method GetResolvedField(root: TypeDesc, fieldName: string) returns (r: ResolvedField)
      requires Valid()
      modifies this
      ensures Valid()
      ensures r == ResolvedFieldOf(schema, root, fieldName)
      ensures IsBlank(fieldName) ==> entries == old(entries)
      ensures !IsBlank(fieldName) ==> entries == old(entries)[(root, fieldName) := r]
    {
      if IsBlank(fieldName) {
        return ResolvedField(fieldName, None);
      }
      if (root, fieldName) in entries {
        r := entries[(root, fieldName)];
        StoreSame(entries, (root, fieldName));
        return;
      }
      r := BuildFieldResolution(schema, root, fieldName);
      CacheValidAfterAdd(schema, entries, root, fieldName, r);
      entries := entries[(root, fieldName) := r];
    }
  }

  /** `ConvertFilterValue`: the filter text as a value of the target type. Text stays
      text; enums, booleans and integers are parsed as described in `Conversions`;
      every other type goes to the library parsers. Failures propagate. */
  function ConvertFilterValue(rawValue: string, targetType: TypeDesc, foreign: Foreign): (r: Throws<Value>)
    ensures NonNullable(targetType) == StringType ==> r == Ok(Str(rawValue))
    ensures NonNullable(targetType).IntegerType? ==>
      (r.Ok? <==> ParseWidth(rawValue, NonNullable(targetType).width).Ok?) &&
      (r.Ok? ==> r.value == Number(ParseInteger(rawValue).value) && NonNullable(targetType).width.InRange(r.value.n))
    ensures NonNullable(targetType).EnumType? ==>
      (r.Ok? <==> EnumParse(NonNullable(targetType).names, rawValue).Ok?) &&
      (r.Ok? ==> r.value.Number? && 0 <= r.value.n < |NonNullable(targetType).names|)
  {
    var t := NonNullable(targetType);
    match t
    case StringType => Ok(Str(rawValue))
    case EnumType(_, names) =>
      var ordinal :- EnumParse(names, rawValue);
      Ok(EnumValue(ordinal))
    case BoolType =>
      var b :- BoolParse(rawValue);
      Ok(Bool(b))
    case IntegerType(width) =>
      var n :- ParseWidth(rawValue, width);
      Ok(Number(n))
    case _ => foreign.parse(t, rawValue)
  }

  /** One piece of the query text: `path op @index`. */
  datatype Fragment = Fragment(path: string, op: FilterOperator, index: nat)

  /** The query text of a fragment: the field path (negated for `NOT_CONTAINS`)
      first, the parameter `@index` last (inside the `Contains` call for the
      substring operators). */
  function Render(f: Fragment): (r: string)
    ensures var lead := if f.op == NOTCONTAINS then "!" + f.path else f.path;
      |lead| <= |r| && r[..|lead|] == lead
    ensures var p := "@" + NatToString(f.index);
      var tail := if f.op == CONTAINS || f.op == NOTCONTAINS then p + ")" else p;
      |tail| <= |r| && r[|r| - |tail|..] == tail
  {
    var p := "@" + NatToString(f.index);
    match f.op
    case EQUAL => f.path + " == " + p
    case NOTEQUAL => f.path + " != " + p
    case GT => f.path + " > " + p
    case GTE => f.path + " >= " + p
    case LT => f.path + " < " + p
    case LTE => f.path + " <= " + p
    case CONTAINS => f.path + ".Contains(" + p + ")"
    case NOTCONTAINS => "!" + f.path + ".Contains(" + p + ")"
  }

  /** The type a filter value is converted to: text for the substring operators,
      otherwise the resolved field type, text when it is unknown. */
  function ValueType(op: FilterOperator, fieldType: Option<TypeDesc>): (t: TypeDesc)
    ensures op == CONTAINS || op == NOTCONTAINS || fieldType.None? ==> t == StringType
  {
    if op == CONTAINS || op == NOTCONTAINS then StringType else fieldType.GetOr(StringType)
  }

  /** The converted value of one filter: its text converted to the type of its
      resolved field (text for the substring operators). */
  function FilterParameter(schema: Schema, foreign: Foreign, root: TypeDesc, filter: Filter): (r: Throws<Value>)
    ensures filter.op == CONTAINS || filter.op == NOTCONTAINS ==> r == Ok(Str(filter.value.value))
  {
    var resolved := ResolvedFieldOf(schema, root, filter.field.value);
    ConvertFilterValue(filter.value.value, ValueType(filter.op, resolved.fieldType), foreign)
  }

  /** How each filter compiles: the member path its fragment reads and its
      converted parameter. */
  datatype FilterCompiler = FilterCompiler(pathOf: Filter -> string, parameterOf: Filter -> Throws<Value>)

  /** The compiler of `TryGetQueryByFilter` for entities of type `root`: the
      resolved field path, and the filter text converted to the resolved type. */
  function CompilerFor(schema: Schema, foreign: Foreign, root: TypeDesc): (c: FilterCompiler)
  {
    FilterCompiler(
      (filter: Filter) => ResolvedFieldOf(schema, root, filter.field.value).path,
      (filter: Filter) => FilterParameter(schema, foreign, root, filter))
  }

  /** The specification of `TryGetQueryByFilter`: the fragment of one filter given
      the number of parameters so far, with its parameter value. */
  function CompileFilter(c: FilterCompiler, filter: Filter, index: nat): (r: Throws<(Fragment, Value)>)
    ensures r.Ok? <==> c.parameterOf(filter).Ok?
    ensures r.Thrown? ==> r.error == c.parameterOf(filter).error
  {
    var typed :- c.parameterOf(filter);
    Ok((Fragment(c.pathOf(filter), filter.op, index), typed))
  }

  /** `TryGetQueryByFilter`: resolves the field through the cache, converts the
      value, appends it to the parameters and returns the fragment. Every operator
      yields a fragment; a failed conversion throws. */
  method TryGetQueryByFilter(cache: FieldPathCache, foreign: Foreign, root: TypeDesc, filter: Filter, parameters: seq<Value>)
    returns (r: Throws<(Fragment, seq<Value>)>)
    requires cache.Valid()
    modifies cache
    ensures cache.Valid()
    ensures match CompileFilter(CompilerFor(cache.schema, foreign, root), filter, |parameters|)
      case Ok((f, v)) => r == Ok((f, parameters + [v]))
      case Thrown(e) => r == Thrown(e)
  {
    var resolvedField := cache.GetResolvedField(root, filter.field.value);
    var valueType := ValueType(filter.op, resolvedField.fieldType);
    var typedValue := ConvertFilterValue(filter.value.value, valueType, foreign);
    if typedValue.Thrown? {
      return Thrown(typedValue.error);
    }
    var parameterIndex := |parameters|;
    r := Ok((Fragment(resolvedField.path, filter.op, parameterIndex), parameters + [typedValue.value]));
  }

  /** The compiled `Where`: fragments joined with ` && `, and their parameters. */
  datatype WhereClause = WhereClause(fragments: seq<Fragment>, parameters: seq<Value>) {
    function Text(): string {
      Join(" && ", RenderAll(fragments))
    }
  }

  function RenderAll(fragments: seq<Fragment>): (r: seq<string>)
    ensures |r| == |fragments| && forall i :: 0 <= i < |r| ==> r[i] == Render(fragments[i])
  {
    if fragments == [] then [] else [Render(fragments[0])] + RenderAll(fragments[1..])
  }

  /** The clause of the filters, in filter order; the first failed conversion is
      thrown. */
  function CompileFilters(c: FilterCompiler, filters: seq<Filter>): (r: Throws<WhereClause>)
    ensures r.Ok? ==> |r.value.fragments| == |filters| && |r.value.parameters| == |filters|
  {
    if filters == [] then Ok(WhereClause([], []))
    else
      var last := filters[|filters| - 1];
      var before :- CompileFilters(c, filters[..|filters| - 1]);
      var compiled :- CompileFilter(c, last, |before.parameters|);
      Ok(WhereClause(before.fragments + [compiled.0], before.parameters + [compiled.1]))
  }

  /** One fragment and one parameter per filter, in filter order, fragment `i`
      naming parameter `@i` and holding the filter's path and operator, and
      parameter `i` the filter's converted value; compilation fails exactly when
      some conversion does. */
  lemma {:induction false} CompileFiltersShape(c: FilterCompiler, filters: seq<Filter>)
    ensures var r := CompileFilters(c, filters);
      r.Ok? <==> forall i :: 0 <= i < |filters| ==> c.parameterOf(filters[i]).Ok?
    ensures var r := CompileFilters(c, filters);
      r.Ok? ==> forall i :: 0 <= i < |filters| ==>
        r.value.fragments[i] == Fragment(c.pathOf(filters[i]), filters[i].op, i)
        && c.parameterOf(filters[i]) == Ok(r.value.parameters[i])
  {
    if filters != [] {
      var n := |filters| - 1;
      var prefix := filters[..n];
      CompileFiltersShape(c, prefix);
      assert forall i :: 0 <= i < n ==> filters[i] == prefix[i];
      var before := CompileFilters(c, prefix);
      if before.Ok? {
        var compiled := CompileFilter(c, filters[n], |before.value.parameters|);
        if compiled.Ok? {
          var r := CompileFilters(c, filters);
          assert r.value.fragments[n] == compiled.value.0;
        }
      } else {
        var k :| 0 <= k < n && !c.parameterOf(prefix[k]).Ok?;
        assert !c.parameterOf(filters[k]).Ok?;
      }
    }
  }

  /** The specification of `Where`: nothing to compile without filters (nor when no
      fragment comes out); otherwise the clause of all filters. */
  function CompileWhere(c: FilterCompiler, criteria: Criteria): (r: Throws<Option<WhereClause>>)
    ensures criteria.filters.None? || criteria.filters.value.values == [] ==> r == Ok(None)
    ensures r.Ok? && r.value.Some? ==> |r.value.value.fragments| == |criteria.filters.value.values| > 0
  {
    if criteria.filters.None? || criteria.filters.value.values == [] then Ok(None)
    else
      var clause :- CompileFilters(c, criteria.filters.value.values);
      if clause.fragments == [] then Ok(None) else Ok(Some(clause))
  }

  /** `Where`: compiles every filter in order, collecting fragments and parameters. */
  method Where(cache: FieldPathCache, foreign: Foreign, root: TypeDesc, criteria: Criteria) returns (r: Throws<Option<WhereClause>>)
    requires cache.Valid()
    modifies cache
    ensures cache.Valid()
    ensures r == CompileWhere(CompilerFor(cache.schema, foreign, root), criteria)
  {
    if criteria.filters.None? || criteria.filters.value.values == [] {
      return Ok(None);
    }
    var filters := criteria.filters.value.values;
    ghost var c := CompilerFor(cache.schema, foreign, root);
    var queries: seq<Fragment> := [];
    var parameters: seq<Value> := [];
    for i := 0 to |filters|
      invariant cache.Valid()
      invariant CompileFilters(c, filters[..i]) == Ok(WhereClause(queries, parameters))
    {
      var query := TryGetQueryByFilter(cache, foreign, root, filters[i], parameters);
      CompileStep(c, filters, i, queries, parameters, query);
      if query.Thrown? {
        r := Thrown(query.error);
        FirstFailureThrows(c, filters, i + 1);
        return;
      }
      queries := queries + [query.value.0];
      parameters := query.value.1;
    }
    assert filters[..|filters|] == filters;
    if |queries| == 0 {
      return Ok(None);
    }
    r := Ok(Some(WhereClause(queries, parameters)));
  }

  /** One more filter: its fragment and parameter are appended, or the list throws
      what it throws. */
  lemma CompileStep(c: FilterCompiler, filters: seq<Filter>, i: nat, queries: seq<Fragment>, parameters: seq<Value>,
                    query: Throws<(Fragment, seq<Value>)>)
    requires i < |filters| && CompileFilters(c, filters[..i]) == Ok(WhereClause(queries, parameters))
    requires match CompileFilter(c, filters[i], |parameters|)
      case Ok((f, v)) => query == Ok((f, parameters + [v]))
      case Thrown(e) => query == Thrown(e)
    ensures query.Thrown? ==> CompileFilters(c, filters[..i + 1]) == Thrown(query.error)
    ensures query.Ok? ==> CompileFilters(c, filters[..i + 1]) == Ok(WhereClause(queries + [query.value.0], query.value.1))
  {
    assert filters[..i + 1][..i] == filters[..i];
  }

  /** Once a prefix of the filters throws, the whole list throws the same error. */
  lemma {:induction false} FirstFailureThrows(c: FilterCompiler, filters: seq<Filter>, n: nat)
    requires n <= |filters| && CompileFilters(c, filters[..n]).Thrown?
    ensures CompileFilters(c, filters) == CompileFilters(c, filters[..n])
    decreases |filters| - n
  {
    if n < |filters| {
      assert filters[..n + 1][..n] == filters[..n];
      FirstFailureThrows(c, filters, n + 1);
    } else {
      assert filters[..n] == filters;
    }
  }

  /** The member path a fragment reads, as Dynamic LINQ splits it. */
  function PathOf(path: string): seq<string> {
    Split(path, '.')
  }

  /** A row satisfies a fragment: the member at its path, compared with its
      parameter by its operator. */
  predicate FragmentHolds(f: Fragment, parameters: seq<Value>, row: Value) {
    f.index < |parameters| && Holds(f.op, Walk(row, PathOf(f.path)), parameters[f.index])
  }

  /** A row satisfies the clause: every fragment, joined by `&&`, holds. */
  predicate Satisfies(clause: WhereClause, row: Value) {
    forall i :: 0 <= i < |clause.fragments| ==> FragmentHolds(clause.fragments[i], clause.parameters, row)
  }

  /** The rows the compiled `Where` keeps, in source order. */
  function ApplyWhere(rows: seq<Value>, clause: Option<WhereClause>): (r: seq<Value>)
    ensures clause.None? ==> r == rows
  {
    match clause
    case None => rows
    case Some(c) => Sequences.Where(rows, row => Satisfies(c, row))
  }

  /** The `Where` clause keeps a row exactly when, for every filter, the member at
      the filter's path compares with the filter's converted value as its operator
      says. With `CompilerFor`, the path is the resolved field path and the value the
      filter text converted to the resolved type. */
  lemma WhereMeaning(c: FilterCompiler, criteria: Criteria, row: Value)
    requires CompileWhere(c, criteria).Ok? && CompileWhere(c, criteria).value.Some?
    ensures var clause := CompileWhere(c, criteria).value.value;
      var filters := criteria.filters.value.values;
      Satisfies(clause, row) <==> forall k :: 0 <= k < |filters| ==>
        c.parameterOf(filters[k]).Ok? &&
        Holds(filters[k].op, Walk(row, PathOf(c.pathOf(filters[k]))), c.parameterOf(filters[k]).value)
  {
    var clause := CompileWhere(c, criteria).value.value;
    var filters := criteria.filters.value.values;
    assert CompileFilters(c, filters) == Ok(clause);
    CompileFiltersShape(c, filters);
  }

  /** `OrderBy`: no order, type `NONE` or a value with no member name leaves the
      rows; `ASC` and `DESC` sort stably by the member at the raw, unresolved field
      path, in that direction. */
  function OrderRows(rows: seq<Value>, criteria: Criteria): (r: seq<Value>)
    ensures criteria.order.None? || criteria.order.value.orderType == NONE ==> r == rows
    ensures criteria.order.Some? && criteria.order.value.orderType.Unnamed? ==> r == rows
    ensures criteria.order.Some? && criteria.order.value.orderType in {ASC, DESC} ==>
      SortedBy(r, KeyAt(PathOf(criteria.order.value.orderBy.value)), criteria.order.value.orderType == DESC)
    ensures multiset(r) == multiset(rows)
  {
    match criteria.order
    case None => rows
    case Some(order) =>
      var key := KeyAt(PathOf(order.orderBy.value));
      match order.orderType
      case NONE => rows
      case ASC => SortBySorted(rows, key, false); SortBy(rows, key, false)
      case DESC => SortBySorted(rows, key, true); SortBy(rows, key, true)
      case Unnamed(_) => rows
  }

  /** `Limit`: no limit, or 0, leaves the rows; otherwise `Take`. */
  function LimitRows(rows: seq<Value>, criteria: Criteria): (r: seq<Value>)
    ensures criteria.limit.None? || criteria.limit == Some(0) ==> r == rows
    ensures criteria.limit.Some? && criteria.limit.value > 0 ==> |r| <= criteria.limit.value
  {
    if criteria.limit.None? || criteria.limit.value == 0 then rows else Take(rows, criteria.limit.value)
  }

  /** `Offset`: no offset leaves the rows; otherwise `Skip`. */
  function OffsetRows(rows: seq<Value>, criteria: Criteria): (r: seq<Value>)
    ensures criteria.offset.None? ==> r == rows
  {
    if criteria.offset.None? then rows else Skip(rows, criteria.offset.value)
  }

  /** The specification of `SearchByCriteria`: `Where`, then `OrderBy`, then
      `Offset`, then `Limit`; a filter value that does not convert throws before any
      row is read. */
  function Search(c: FilterCompiler, rows: seq<Value>, criteria: Criteria): (r: Throws<seq<Value>>)
    ensures r.Ok? <==> CompileWhere(c, criteria).Ok?
    ensures r.Thrown? ==> r.error == CompileWhere(c, criteria).error
  {
    var clause :- CompileWhere(c, criteria);
    Ok(LimitRows(OffsetRows(OrderRows(ApplyWhere(rows, clause), criteria), criteria), criteria))
  }

  /** `SearchByCriteria` over the rows of an entity set of type `root`. */
  method SearchByCriteria(cache: FieldPathCache, foreign: Foreign, root: TypeDesc, rows: seq<Value>, criteria: Criteria)
    returns (r: Throws<seq<Value>>)
    requires cache.Valid()
    modifies cache
    ensures cache.Valid()
    ensures r == Search(CompilerFor(cache.schema, foreign, root), rows, criteria)
  {
    var clause :- Where(cache, foreign, root, criteria);
    var filtered := ApplyWhere(rows, clause);
    r := Ok(LimitRows(OffsetRows(OrderRows(filtered, criteria), criteria), criteria));
  }
}

=== FILE: archetype_properties.dfy ===
/** Properties of the Archetype criteria compiler: the rules field resolution
    follows, and what `SearchByCriteria` returns. */
module ArchetypeCriteriaProperties {
  import opened Wrappers
  import opened Text
  import opened Reflection
  import opened Rows
  import opened Sequences
  import opened Sorting
  import opened Criterias
  import opened ArchetypeCriteria

  /** A segment as the resolution emits it once the type is unknown: an explicit
      `value`, in any case, becomes `Value`; anything else is kept as written. */
  function Verbatim(segment: string): (r: string)
    ensures IsValueSegment(segment) ==> r == ValuePropertyName
    ensures !IsValueSegment(segment) ==> r == segment
  {
    if IsValueSegment(segment) then ValuePropertyName else segment
  }

  function VerbatimAll(segments: seq<string>): (r: seq<string>)
    ensures |r| == |segments| && forall k :: 0 <= k < |r| ==> r[k] == Verbatim(segments[k])
  {
    seq(|segments|, k requires 0 <= k < |segments| => Verbatim(segments[k]))
  }

  /** An explicit `value` segment is emitted as `Value` and leaves the type where it
      was. */
  lemma ExplicitValueSegment(schema: Schema, segments: seq<string>, index: nat, current: Option<TypeDesc>)
    requires index < |segments| && IsValueSegment(segments[index])
    ensures ResolveSegment(schema, segments, index, current) == Step([ValuePropertyName], current)
  {
  }

  /** One more iteration once the type is unknown emits the segment verbatim. */
  lemma UnresolvedStep(schema: Schema, segments: seq<string>, m: nat, root: TypeDesc)
    requires 0 < m <= |segments| && ResolvePrefix(schema, segments, m - 1, root).next.None?
    ensures ResolvePrefix(schema, segments, m, root) ==
      Step(ResolvePrefix(schema, segments, m - 1, root).emitted + [Verbatim(segments[m - 1])], None)
  {
  }

  lemma VerbatimAllSnoc(segments: seq<string>, n: nat, m: nat)
    requires n < m <= |segments|
    ensures VerbatimAll(segments[n..m]) == VerbatimAll(segments[n..m - 1]) + [Verbatim(segments[m - 1])]
  {
    var l := VerbatimAll(segments[n..m]);
    var r := VerbatimAll(segments[n..m - 1]) + [Verbatim(segments[m - 1])];
    forall k | 0 <= k < |l| ensures l[k] == r[k] {
      if k < m - 1 - n {
        assert segments[n..m][k] == segments[n..m - 1][k];
      }
    }
  }

  /** Once a segment fails to resolve, the type stays unknown and every later
      segment is emitted verbatim. */
  lemma {:induction false} UnresolvedStaysVerbatim(schema: Schema, segments: seq<string>, n: nat, m: nat, root: TypeDesc)
    requires n <= m <= |segments| && ResolvePrefix(schema, segments, n, root).next.None?
    ensures ResolvePrefix(schema, segments, m, root).next.None?
    ensures ResolvePrefix(schema, segments, m, root).emitted ==
      ResolvePrefix(schema, segments, n, root).emitted + VerbatimAll(segments[n..m])
    decreases m
  {
    if m == n {
      assert segments[n..m] == [];
    } else {
      UnresolvedStaysVerbatim(schema, segments, n, m - 1, root);
      UnresolvedStep(schema, segments, m, root);
      VerbatimAllSnoc(segments, n, m);
    }
  }

  /** A path whose first segment names no member of the root type is emitted as
      written (explicit `value` segments aside), with no type, so that the filter
      value stays text. */
  lemma UnknownFirstMember(schema: Schema, root: TypeDesc, segments: seq<string>)
    requires |segments| > 0 && !IsValueSegment(segments[0]) && GetMemberByName(schema, root, segments[0]).None?
    ensures ResolveSegments(schema, root, segments) == ResolvedField(Join(".", VerbatimAll(segments)), None)
  {
    UnknownFirstStep(schema, root, segments);
    UnresolvedStaysVerbatim(schema, segments, 1, |segments|, root);
    VerbatimAllCons(segments);
  }

  lemma UnknownFirstStep(schema: Schema, root: TypeDesc, segments: seq<string>)
    requires |segments| > 0 && !IsValueSegment(segments[0]) && GetMemberByName(schema, root, segments[0]).None?
    ensures ResolvePrefix(schema, segments, 1, root) == Step([segments[0]], None)
  {
  }

  lemma VerbatimAllCons(segments: seq<string>)
    requires |segments| > 0 && !IsValueSegment(segments[0])
    ensures VerbatimAll(segments) == [segments[0]] + VerbatimAll(segments[1..|segments|])
  {
    var l := VerbatimAll(segments);
    var r := [segments[0]] + VerbatimAll(segments[1..|segments|]);
    forall k | 0 <= k < |l| ensures l[k] == r[k] {
      if k > 0 {
        assert segments[1..|segments|][k - 1] == segments[k];
      }
    }
  }

  /** A value-object member gets exactly one `Value` after its name: appended when
      the path does not say it, taken from the path when it does, never doubled. The
      type moves to the wrapped primitive. */
  lemma ValueObjectGetsOneValue(schema: Schema, segments: seq<string>, index: nat, root: TypeDesc, m: Member, p: TypeDesc)
    requires index < |segments| && !IsValueSegment(segments[index])
    requires ResolvePrefix(schema, segments, index, root).next.Some?
    requires GetMemberByName(schema, ResolvePrefix(schema, segments, index, root).next.value, segments[index]) == Some(m)
    requires PrimitiveOf(schema, NonNullable(m.memberType)) == Some(p)
    ensures var explicit := index + 1 < |segments| && IsValueSegment(segments[index + 1]);
      var after := ResolvePrefix(schema, segments, if explicit then index + 2 else index + 1, root);
      after.emitted == ResolvePrefix(schema, segments, index, root).emitted + [m.name, ValuePropertyName]
      && after.next == Some(p)
  {
    var before := ResolvePrefix(schema, segments, index, root);
    var one := ResolvePrefix(schema, segments, index + 1, root);
    if index + 1 < |segments| && IsValueSegment(segments[index + 1]) {
      assert one == Step(before.emitted + [m.name], Some(p));
      assert ResolvePrefix(schema, segments, index + 2, root).emitted == before.emitted + [m.name] + [ValuePropertyName];
    }
  }

  /** A single-segment path naming a value-object member of the root resolves to
      `Member.Value`, typed as the wrapped primitive: `Email` on a user becomes
      `Email.Value`, a string. */
  lemma SingleValueObjectField(schema: Schema, root: TypeDesc, fieldName: string, m: Member, p: TypeDesc)
    requires '.' !in fieldName && Trim(fieldName) != [] && !IsValueSegment(Trim(fieldName))
    requires GetMemberByName(schema, root, Trim(fieldName)) == Some(m)
    requires PrimitiveOf(schema, NonNullable(m.memberType)) == Some(p)
    ensures Resolution(schema, root, fieldName) == ResolvedField(m.name + "." + ValuePropertyName, Some(p))
  {
    SplitTrimmedSingle(fieldName, '.');
    SingleValueObjectSegment(schema, root, Trim(fieldName), m, p);
  }

  lemma SingleValueObjectSegment(schema: Schema, root: TypeDesc, segment: string, m: Member, p: TypeDesc)
    requires !IsValueSegment(segment) && GetMemberByName(schema, root, segment) == Some(m)
    requires PrimitiveOf(schema, NonNullable(m.memberType)) == Some(p)
    ensures ResolveSegments(schema, root, [segment]) == ResolvedField(m.name + "." + ValuePropertyName, Some(p))
  {
    assert ResolveSegment(schema, [segment], 0, Some(root)) == Step([m.name, ValuePropertyName], Some(p));
    assert ResolvePrefix(schema, [segment], 1, root) == Step([m.name, ValuePropertyName], Some(p));
    JoinPair(".", m.name, ValuePropertyName);
  }

  /** A single-segment path naming a member that is no value object resolves to the
      member's declared name, typed as the member (without `Nullable`). */
  lemma SinglePlainField(schema: Schema, root: TypeDesc, fieldName: string, m: Member)
    requires '.' !in fieldName && Trim(fieldName) != [] && !IsValueSegment(Trim(fieldName))
    requires GetMemberByName(schema, root, Trim(fieldName)) == Some(m)
    requires PrimitiveOf(schema, NonNullable(m.memberType)).None?
    ensures Resolution(schema, root, fieldName) == ResolvedField(m.name, Some(NonNullable(m.memberType)))
  {
    SplitTrimmedSingle(fieldName, '.');
    SinglePlainSegment(schema, root, Trim(fieldName), m);
  }

  lemma SinglePlainSegment(schema: Schema, root: TypeDesc, segment: string, m: Member)
    requires !IsValueSegment(segment) && GetMemberByName(schema, root, segment) == Some(m)
    requires PrimitiveOf(schema, NonNullable(m.memberType)).None?
    ensures ResolveSegments(schema, root, [segment]) == ResolvedField(m.name, Some(NonNullable(m.memberType)))
  {
    assert ResolveSegment(schema, [segment], 0, Some(root)) == Step([m.name], Some(NonNullable(m.memberType)));
    assert ResolvePrefix(schema, [segment], 1, root) == Step([m.name], Some(NonNullable(m.memberType)));
  }

  /** Without filters, order, limit or offset the search returns the rows as they
      are. */
  lemma SearchWithoutCriteria(c: FilterCompiler, rows: seq<Value>, criteria: Criteria)
    requires criteria.filters.None? || criteria.filters.value.values == []
    requires criteria.order.None? && criteria.limit.None? && criteria.offset.None?
    ensures Search(c, rows, criteria) == Ok(rows)
  {
  }

  /** A successful search returns at most `limit` rows when a positive limit is
      given; each of them is one of the input rows and satisfies the compiled
      `Where`. */
  lemma SearchResultRows(c: FilterCompiler, rows: seq<Value>, criteria: Criteria)
    requires Search(c, rows, criteria).Ok?
    ensures var r := Search(c, rows, criteria).value;
      (criteria.limit.Some? && criteria.limit.value > 0 ==> |r| <= criteria.limit.value)
      && forall k :: 0 <= k < |r| ==> r[k] in rows && (CompileWhere(c, criteria).value.Some? ==> Satisfies(CompileWhere(c, criteria).value.value, r[k]))
  {
    var clause := CompileWhere(c, criteria).value;
    var filtered := ApplyWhere(rows, clause);
    var ordered := OrderRows(filtered, criteria);
    var skipped := OffsetRows(ordered, criteria);
    var r := Search(c, rows, criteria).value;
    assert r == LimitRows(skipped, criteria);
    forall k | 0 <= k < |r|
      ensures r[k] in rows && (clause.Some? ==> Satisfies(clause.value, r[k]))
    {
      assert r[k] in skipped;
      assert r[k] in ordered;
      assert r[k] in multiset(ordered);
      assert r[k] in filtered;
    }
  }

  /** The search result is the page of the filtered and ordered rows that starts at
      the offset (a negative offset counts as none): row `k` of the result is row
      `offset + k` of the ordered rows. */
  lemma SearchWindow(c: FilterCompiler, rows: seq<Value>, criteria: Criteria)
    requires Search(c, rows, criteria).Ok?
    ensures var ordered := OrderRows(ApplyWhere(rows, CompileWhere(c, criteria).value), criteria);
      var start := if criteria.offset.None? || criteria.offset.value < 0 then 0 else criteria.offset.value;
      IsWindowOf(Search(c, rows, criteria).value, ordered, start)
  {
    var ordered := OrderRows(ApplyWhere(rows, CompileWhere(c, criteria).value), criteria);
    var start := if criteria.offset.None? || criteria.offset.value < 0 then 0 else criteria.offset.value;
    var limit := if criteria.limit.None? || criteria.limit.value == 0 then |ordered| else if criteria.limit.value < 0 then 0 else criteria.limit.value;
    SearchIsPage(c, rows, criteria, ordered, start, limit);
    PageWindow(ordered, start, limit, Search(c, rows, criteria).value);
  }

  lemma SearchIsPage(c: FilterCompiler, rows: seq<Value>, criteria: Criteria, ordered: seq<Value>, start: nat, limit: nat)
    requires Search(c, rows, criteria).Ok?
    requires ordered == OrderRows(ApplyWhere(rows, CompileWhere(c, criteria).value), criteria)
    requires start == if criteria.offset.None? || criteria.offset.value < 0 then 0 else criteria.offset.value
    requires limit == if criteria.limit.None? || criteria.limit.value == 0 then |ordered| else if criteria.limit.value < 0 then 0 else criteria.limit.value
    ensures Search(c, rows, criteria).value == Take(Skip(ordered, start), limit)
  {
    var skipped := OffsetRows(ordered, criteria);
    assert skipped == Skip(ordered, start);
  }

  /** Without an order (or with order type `NONE`) the search keeps the rows in the
      order the entity set yields them. */
  lemma SearchKeepsOrderWithoutSorting(c: FilterCompiler, rows: seq<Value>, criteria: Criteria)
    requires Search(c, rows, criteria).Ok?
    requires criteria.order.None? || criteria.order.value.orderType == NONE
    ensures IsSubsequence(Search(c, rows, criteria).value, rows)
  {
    var clause := CompileWhere(c, criteria).value;
    var filtered := ApplyWhere(rows, clause);
    var offset := if criteria.offset.None? then 0 else criteria.offset.value;
    var limit := if criteria.limit.None? || criteria.limit.value == 0 then |filtered| else criteria.limit.value;
    assert Search(c, rows, criteria).value == Take(Skip(filtered, offset), limit);
    PageIsSubsequence(filtered, offset, limit);
    if clause.Some? {
      WhereIsSubsequence(rows, row => Satisfies(clause.value, row));
      SubsequenceTransitive(Search(c, rows, criteria).value, filtered, rows);
    }
  }
}

=== FILE: conversions.dfy ===
/** The conversions from filter text to typed values that both criteria compilers
    share: the parsers the model describes (`bool.Parse`, `Enum.Parse` on names, the
    integer parsers) and a record of the ones it leaves abstract. */
module Conversions {
  import opened Wrappers
  import opened Text
  import opened Numbers
  import opened Reflection
  import opened Rows

  /** Library code the model treats as given functions:
      - `parse`: `DateTimeOffset.Parse`, `DateTime.Parse`, `Guid.Parse`, the
        floating-point and decimal parsers, and `Convert.ChangeType` for any other
        type, keyed by the target type;
      - `invokeFrom`: calling a type's public static `From(string)`;
      - `render`: `ToString()` on a value (`None` for a null receiver). */
  datatype Foreign = Foreign(
    parse: (TypeDesc, string) -> Throws<Value>,
    invokeFrom: (TypeDesc, string) -> Throws<Option<Value>>,
    render: Value -> Option<string>)

  /** The characters `bool.Parse` removes from both ends: white space and NUL. */
  predicate IsBoolSpace(c: char) {
    IsWhiteSpace(c) || c == '\0'
  }

  /** The number of leading white-space and NUL characters. */
  function LeadingBoolSpace(s: string): (n: nat)
    ensures n <= |s| && (n == |s| || !IsBoolSpace(s[n]))
    ensures forall k :: 0 <= k < n ==> IsBoolSpace(s[k])
  {
    if s == [] || !IsBoolSpace(s[0]) then 0 else 1 + LeadingBoolSpace(s[1..])
  }

  /** The length of `s` without its trailing white-space and NUL characters. */
  function TrailingBoolSpaceStart(s: string): (n: nat)
    ensures n <= |s| && (n == 0 || !IsBoolSpace(s[n - 1]))
    ensures forall k :: n <= k < |s| ==> IsBoolSpace(s[k])
  {
    if s == [] || !IsBoolSpace(s[|s| - 1]) then |s| else TrailingBoolSpaceStart(s[..|s| - 1])
  }

  /** `TrimWhiteSpaceAndNull`: the text between the leading and the trailing white
      space and NUL characters. */
  function TrimBoolSpace(s: string): (t: string)
    ensures t == [] || (!IsBoolSpace(t[0]) && !IsBoolSpace(t[|t| - 1]))
  {
    var u := s[LeadingBoolSpace(s)..];
    u[..TrailingBoolSpaceStart(u)]
  }

  /** `bool.Parse`: `True` or `False` in any case, with white space and NUL
      characters around it ignored. */
  function BoolParse(text: string): (r: Throws<bool>)
    ensures r == Ok(true) <==> EqualsIgnoreCase(TrimBoolSpace(text), "True")
    ensures r == Ok(false) <==> EqualsIgnoreCase(TrimBoolSpace(text), "False")
    ensures r.Thrown? ==> r.error == Format(text)
  {
    if EqualsIgnoreCase(TrimBoolSpace(text), "True") then Ok(true)
    else if EqualsIgnoreCase(TrimBoolSpace(text), "False") then Ok(false)
    else Thrown(Format(text))
  }

  /** A trailing NUL is ignored: `"True\0"` parses as `true`. */
  lemma BoolParseIgnoresNul()
    ensures BoolParse("True\0") == Ok(true)
  {
    var s := "True\0";
    assert LeadingBoolSpace(s) == 0;
    assert TrailingBoolSpaceStart(s[..4]) == 4;
    assert TrimBoolSpace(s) == "True";
  }

  /** The position of the first name equal to `text` ignoring case. */
  function IndexIgnoreCase(names: seq<string>, text: string): (r: Option<nat>)
    ensures r.Some? ==> r.value < |names| && EqualsIgnoreCase(names[r.value], text)
    ensures r.Some? ==> forall j :: 0 <= j < r.value ==> !EqualsIgnoreCase(names[j], text)
    ensures r.None? <==> forall j :: 0 <= j < |names| ==> !EqualsIgnoreCase(names[j], text)
  {
    if names == [] then None
    else if EqualsIgnoreCase(names[0], text) then Some(0)
    else match IndexIgnoreCase(names[1..], text)
      case None => None
      case Some(k) => Some(k + 1)
  }

  /** `Enum.Parse(type, text, ignoreCase: true)` on an enum given by its names in
      ordinal order: the ordinal of the first name equal to the trimmed text ignoring
      case; blank text and unknown names throw `ArgumentException`. */
  function EnumParse(names: seq<string>, text: string): (r: Throws<nat>)
    ensures r.Ok? ==> r.value < |names| && EqualsIgnoreCase(names[r.value], Trim(text))
    ensures r.Thrown? ==> r.error.Argument?
    ensures Trim(text) != [] && (exists j :: 0 <= j < |names| && EqualsIgnoreCase(names[j], Trim(text))) ==> r.Ok?
  {
    if Trim(text) == [] then Thrown(Argument("Must specify valid information for parsing in the string."))
    else match IndexIgnoreCase(names, Trim(text))
      case Some(k) => Ok(k)
      case None => Thrown(Argument("Requested value '" + text + "' was not found."))
  }

  /** An enum value is held as its ordinal. */
  function EnumValue(ordinal: nat): Value {
    Number(ordinal)
  }
}

=== FILE: criteria.dfy ===
/** The search criteria: filters, order, limit and offset, and the factories that
    build them from raw string maps. */
module Criterias {
  import opened Wrappers
  import opened Text
  import opened StringValueObjects
  import opened FilterOperators
  import opened Sequences
  import opened Numbers

  /** A raw filter as received: `field`, `operator` and `value` keys. */
  type RawFilter = map<string, string>

  /** One filter: a trimmed field name, an operator and a trimmed value. */
  datatype Filter = Filter(field: StringValueObject, op: FilterOperator, value: StringValueObject)

  /** The `Filter` constructor: a null field or value is rejected. */
  function NewFilter(field: Option<StringValueObject>, op: FilterOperator, value: Option<StringValueObject>): (r: Throws<Filter>)
    ensures r.Ok? <==> field.Some? && value.Some?
    ensures r.Ok? ==> r.value == Filter(field.value, op, value.value)
    ensures field.None? ==> r == Thrown(ArgumentNull("field"))
    ensures field.Some? && value.None? ==> r == Thrown(ArgumentNull("value"))
  {
    match (field, value)
    case (None, _) => Thrown(ArgumentNull("field"))
    case (_, None) => Thrown(ArgumentNull("value"))
    case (Some(f), Some(v)) => Ok(Filter(f, op, v))
  }

  /** A raw filter with all three keys and a known operator token. */
  predicate IsWellFormed(m: RawFilter) {
    "field" in m && "operator" in m && "value" in m && FromValue(m["operator"]).Ok?
  }

  /** `Filter.FromValues`: reads `field`, then `operator`, then `value`, in that order;
      a missing key throws `KeyNotFoundException` and an unknown operator token
      throws as `FilterOperators.FromValue` does. */
  function FilterFromValues(values: Option<RawFilter>): (r: Throws<Filter>)
    ensures values.None? ==> r == Thrown(ArgumentNull("values"))
    ensures r.Ok? <==> values.Some? && IsWellFormed(values.value)
    ensures r.Ok? ==> r.value == Filter(Wrap(values.value["field"]), FromValue(values.value["operator"]).value, Wrap(values.value["value"]))
    ensures values.Some? && "field" !in values.value ==> r == Thrown(KeyNotFound("field"))
  {
    match values
    case None => Thrown(ArgumentNull("values"))
    case Some(m) =>
      if "field" !in m then Thrown(KeyNotFound("field"))
      else
        var field := Wrap(m["field"]);
        if "operator" !in m then Thrown(KeyNotFound("operator"))
        else
          var op :- FromValue(m["operator"]);
          if "value" !in m then Thrown(KeyNotFound("value"))
          else NewFilter(Some(field), op, Some(Wrap(m["value"])))
  }

  /** Field and value of a filter built from raw values carry no white space at their
      ends. */
  lemma FilterFromValuesTrims(values: RawFilter)
    requires FilterFromValues(Some(values)).Ok?
    ensures var f := FilterFromValues(Some(values)).value;
      f.field.value == Trim(values["field"]) && f.value.value == Trim(values["value"])
  {
  }

  /** An ordered snapshot of filters. */
  datatype Filters = Filters(values: seq<Filter>)

  /** `Filter.FromValues` on a map that is present. */
  function FromRaw(m: RawFilter): Throws<Filter> {
    FilterFromValues(Some(m))
  }

  /** `Filters.FromValues`: no list gives no `Filters`; a list, even an empty one,
      gives a `Filters` with one filter per raw map. */
  function FiltersFromValues(rawFilters: Option<seq<RawFilter>>): (r: Throws<Option<Filters>>)
    ensures rawFilters.None? ==> r == Ok(None)
    ensures rawFilters.Some? && r.Ok? ==> r.value.Some? && |r.value.value.values| == |rawFilters.value|
    ensures rawFilters == Some([]) ==> r == Ok(Some(Filters([])))
    ensures rawFilters.Some? && r.Ok? ==> forall k :: 0 <= k < |rawFilters.value| ==>
                                            FromRaw(rawFilters.value[k]).Ok? && r.value.value.values[k] == FromRaw(rawFilters.value[k]).value
    ensures rawFilters.Some? ==> (r.Ok? <==> forall k :: 0 <= k < |rawFilters.value| ==> IsWellFormed(rawFilters.value[k]))
    ensures rawFilters.Some? && r.Thrown? ==> FirstThrown(rawFilters.value, FromRaw, r.error)
  {
    match rawFilters
    case None => Ok(None)
    case Some(raws) =>
      var filters :- MapThrows(raws, FromRaw);
      Ok(Some(Filters(filters)))
  }

  /** `OrderType`: its members `NONE`, `ASC` and `DESC`, whose values are 0, 1 and 2
      in declaration order, or any other value an `OrderType` variable can hold, such
      as `(OrderType)7`. */
  datatype OrderType = NONE | ASC | DESC | Unnamed(n: int)

  /** The `OrderType` whose underlying value is `n`. */
  function OrderTypeOf(n: int): (t: OrderType)
    ensures t.Unnamed? <==> !(0 <= n <= 2)
  {
    if n == 0 then NONE else if n == 1 then ASC else if n == 2 then DESC else Unnamed(n)
  }

  /** The underlying value of an `OrderType`. */
  function OrderTypeValue(t: OrderType): int {
    match t
    case NONE => 0
    case ASC => 1
    case DESC => 2
    case Unnamed(n) => n
  }

  /** Every underlying value gives an `OrderType` that reads back as that value, and
      the named members are the only ones for 0, 1 and 2. */
  lemma OrderTypeValueRoundTrip(n: int, t: OrderType)
    ensures OrderTypeValue(OrderTypeOf(n)) == n
    ensures !t.Unnamed? ==> OrderTypeOf(OrderTypeValue(t)) == t
  {
  }

  /** `name` is the enum name `symbol`, ignoring case and surrounding white space. */
  predicate Names(text: string, symbol: string) {
    EqualsIgnoreCase(Trim(text), symbol)
  }

  /** `Enum.Parse` reads text as a number when its first character after leading
      white space is an ASCII digit or a sign. */
  predicate IsNumericForm(text: string) {
    var t := TrimStart(text);
    t != [] && (IsDigit(t[0]) || t[0] == '-' || t[0] == '+')
  }

  /** `Enum.Parse<OrderType>(text, ignoreCase: true)`. Numeric text is read as an
      `int` after its leading white space, allowing a sign and trailing white space;
      any value is accepted, named or not, and a value outside `int` throws
      `OverflowException`. Other text is compared with the member names, ignoring
      case and surrounding white space. */
  function ParseOrderType(text: string): (r: Throws<OrderType>)
    ensures IsNumericForm(text) ==>
      (r.Ok? <==> ParseWidth(TrimStart(text), Int32).Ok?)
      && (r.Ok? ==> r.value == OrderTypeOf(ParseInteger(TrimStart(text)).value))
      && (r.Thrown? ==> (r.error.Overflow? <==> ParseInteger(TrimStart(text)).Some?))
    ensures !IsNumericForm(text) ==>
      (r.Ok? <==> Names(text, "NONE") || Names(text, "ASC") || Names(text, "DESC"))
      && (r == Ok(ASC) <==> Names(text, "ASC"))
      && (r == Ok(DESC) <==> Names(text, "DESC"))
      && (r.Ok? ==> !r.value.Unnamed?)
    ensures r.Thrown? ==> r.error.Argument? || r.error.Overflow?
  {
    if IsNumericForm(text) then
      match ParseWidth(TrimStart(text), Int32)
      case Ok(n) => Ok(OrderTypeOf(n))
      case Thrown(e) =>
        if e.Overflow? then Thrown(Overflow(text))
        else Thrown(Argument("Requested value '" + text + "' was not found."))
    else if Names(text, "NONE") then Ok(NONE)
    else if Names(text, "ASC") then Ok(ASC)
    else if Names(text, "DESC") then Ok(DESC)
    else Thrown(Argument("Requested value '" + text + "' was not found."))
  }

  /** The characters a number may be written with. */
  predicate IsNumberChar(c: char) {
    IsDigit(c) || IsNumberSpace(c) || c == '-' || c == '+'
  }

  /** Text that parses as a number is made of digits, signs and number white
      space only. */
  lemma ParsedNumberChars(x: string)
    requires ParseInteger(x).Some?
    ensures forall k :: 0 <= k < |x| ==> IsNumberChar(x[k])
  {
    var i := LeadingNumberSpace(x);
    var u := x[i..];
    var j := TrailingNumberSpaceStart(u);
    var t := u[..j];
    assert t == TrimNumberSpace(x);
    var digits := if t[0] == '-' || t[0] == '+' then t[1..] else t;
    forall k | 0 <= k < |x| ensures IsNumberChar(x[k]) {
      if i <= k < i + j {
        assert x[k] == t[k - i];
        if k - i > 0 && (t[0] == '-' || t[0] == '+') {
          assert t[k - i] == digits[k - i - 1];
        } else if !(t[0] == '-' || t[0] == '+') {
          assert t[k - i] == digits[k - i];
        }
      } else if k >= i + j {
        assert x[k] == u[k - i];
      }
    }
  }

  /** Upper-casing changes no number character, and makes no other character one. */
  lemma UpperNumberChar(c: char)
    ensures IsNumberChar(ToUpper(c)) <==> IsNumberChar(c)
    ensures IsNumberChar(c) ==> ToUpper(c) == c
  {
  }

  /** Upper-casing the text changes no number it reads as. */
  lemma ParseIntegerUpper(x: string)
    ensures ParseInteger(ToUpperString(x)) == ParseInteger(x)
  {
    var u := ToUpperString(x);
    if forall k :: 0 <= k < |x| ==> IsNumberChar(x[k]) {
      forall k | 0 <= k < |x| ensures u[k] == x[k] {
        UpperNumberChar(x[k]);
      }
      assert u == x;
    } else {
      var k :| 0 <= k < |x| && !IsNumberChar(x[k]);
      UpperNumberChar(x[k]);
      if ParseInteger(x).Some? {
        ParsedNumberChars(x);
      }
      if ParseInteger(u).Some? {
        ParsedNumberChars(u);
      }
    }
  }

  /** Upper-casing before the case-insensitive parse changes no outcome. */
  lemma ParseOrderTypeOfUpper(s: string)
    ensures ParseOrderType(ToUpperString(s)).Ok? <==> ParseOrderType(s).Ok?
    ensures ParseOrderType(s).Ok? ==> ParseOrderType(ToUpperString(s)).value == ParseOrderType(s).value
  {
    TrimUpper(s);
    TrimStartUpper(s);
    var t := TrimStart(s);
    if t != [] {
      UpperNumberChar(t[0]);
      assert ToUpperString(t)[0] == ToUpper(t[0]);
    }
    assert IsNumericForm(ToUpperString(s)) <==> IsNumericForm(s);
    ParseIntegerUpper(t);
    EqualsIgnoreCaseUpper(Trim(s), "NONE");
    EqualsIgnoreCaseUpper(Trim(s), "ASC");
    EqualsIgnoreCaseUpper(Trim(s), "DESC");
  }

  datatype Order = Order(orderBy: StringValueObject, orderType: OrderType)

  /** `Order.FromValues`: a null field is rejected; a null or empty type gives `NONE`;
      any other type is upper-cased and parsed as an enum name, ignoring case. */
  function OrderFromValues(orderBy: Option<string>, orderType: Option<string>): (r: Throws<Order>)
    ensures orderBy.None? ==> r == Thrown(ArgumentNull("orderBy"))
    ensures r.Ok? ==> r.value.orderBy == Wrap(orderBy.value)
    ensures orderBy.Some? && (orderType.None? || orderType == Some("")) ==> r == Ok(Order(Wrap(orderBy.value), NONE))
    ensures orderBy.Some? && orderType.Some? && orderType.value != "" ==>
              (r.Ok? <==> ParseOrderType(orderType.value).Ok?) &&
              (r.Ok? ==> r.value.orderType == ParseOrderType(orderType.value).value)
  {
    match orderBy
    case None => Thrown(ArgumentNull("orderBy"))
    case Some(field) =>
      if orderType.None? || orderType.value == "" then Ok(Order(Wrap(field), NONE))
      else
        ParseOrderTypeOfUpper(orderType.value);
        var parsed :- ParseOrderType(ToUpperString(orderType.value));
        Ok(Order(Wrap(field), parsed))
  }

  /** `Order.None()`. */
  function OrderNone(): (o: Order)
    ensures o.orderBy.value == [] && o.orderType == NONE
  {
    Order(Wrap(""), NONE)
  }

  /** Any spelling of `ASC` gives ascending order, whatever its case. */
  lemma OrderFromValuesAscending(field: string, orderType: string)
    requires orderType != "" && Names(orderType, "ASC")
    ensures OrderFromValues(Some(field), Some(orderType)) == Ok(Order(Wrap(field), ASC))
  {
    NamesNotNumeric(orderType, "ASC");
  }

  /** Text that names a member, such as "ASC", is not read as a number. */
  lemma NamesNotNumeric(text: string, symbol: string)
    requires symbol != [] && IsUpper(symbol[0]) && Names(text, symbol)
    ensures !IsNumericForm(text)
  {
    var t := TrimStart(text);
    assert Trim(text) == TrimEnd(t) && TrimEnd(t) == t[..|TrimEnd(t)|];
    assert ToUpper(t[0]) == ToUpper(Trim(text)[0]) == ToUpper(symbol[0]);
  }

  /** A single digit reads as the `OrderType` of its value: "1" gives `ASC` and "7"
      the unnamed value 7. */
  lemma OrderFromValuesDigit(field: string, digit: string)
    requires |digit| == 1 && IsDigit(digit[0])
    ensures OrderFromValues(Some(field), Some(digit)) == Ok(Order(Wrap(field), OrderTypeOf(DigitValue(digit[0]))))
  {
    DigitOrderType(digit);
    assert ToUpperString(digit) == digit;
  }

  lemma DigitOrderType(digit: string)
    requires |digit| == 1 && IsDigit(digit[0])
    ensures ParseOrderType(digit) == Ok(OrderTypeOf(DigitValue(digit[0])))
  {
    SingleDigit(digit);
    NumericOrderType(digit, DigitValue(digit[0]));
  }

  lemma SingleDigit(text: string)
    requires |text| == 1 && IsDigit(text[0])
    ensures ParseInteger(text) == Some(DigitValue(text[0]))
  {
    assert DigitsValue(text) == DigitsValue(text[..0]) * 10 + DigitValue(text[0]);
    ParseUnsigned(text);
  }

  /** Text that starts with a digit and reads as the number `n` gives the
      `OrderType` of `n`, or throws `OverflowException` beyond the range of `int`. */
  lemma NumericOrderType(text: string, n: int)
    requires text != [] && IsDigit(text[0]) && ParseInteger(text) == Some(n)
    ensures Int32.InRange(n) ==> ParseOrderType(text) == Ok(OrderTypeOf(n))
    ensures !Int32.InRange(n) ==> ParseOrderType(text) == Thrown(Overflow(text))
  {
    assert TrimStart(text) == text;
  }

  /** The mixed-case type name "Asc" gives ascending order. */
  lemma OrderFromValuesMixedCase(field: string)
    ensures OrderFromValues(Some(field), Some("Asc")) == Ok(Order(Wrap(field), ASC))
  {
    NamesExample("Asc", "ASC");
    OrderFromValuesAscending(field, "Asc");
  }

  /** An unrecognised type name, such as "sideways", is rejected. */
  lemma OrderFromValuesRejects(field: string)
    ensures OrderFromValues(Some(field), Some("sideways")).Thrown?
  {
    var w := "sideways";
    TrimOfTrimmed(w);
    assert !Names(w, "NONE") && !Names(w, "ASC") && !Names(w, "DESC");
    assert !ParseOrderType(w).Ok?;
  }

  lemma NamesExample(text: string, symbol: string)
    requires text != [] && !IsWhiteSpace(text[0]) && !IsWhiteSpace(text[|text| - 1])
    requires EqualsIgnoreCase(text, symbol)
    ensures Names(text, symbol)
  {
    TrimOfTrimmed(text);
  }

  /** The search criteria. */
  datatype Criteria = Criteria(filters: Option<Filters>, order: Option<Order>, limit: Option<int>, offset: Option<int>)

  /** The constructor with `limit` and `offset` left at their default, null. */
  function NewCriteria(filters: Option<Filters>, order: Option<Order>): (c: Criteria)
    ensures c.filters == filters && c.order == order && c.limit.None? && c.offset.None?
  {
    Criteria(filters, order, None, None)
  }

  /** `HasFilters`: there is a `Filters` and it holds at least one filter. */
  predicate HasFilters(c: Criteria)
    ensures HasFilters(c) ==> c.filters.Some? && c.filters.value.values != []
  {
    c.filters.Some? && |c.filters.value.values| > 0
  }

  /** `HasOrder`: there is an order, its type is not `NONE` and its field is not
      empty. */
  predicate HasOrder(c: Criteria)
    ensures HasOrder(c) ==> c.order.Some? && c.order.value.orderType != NONE && |c.order.value.orderBy.value| > 0
  {
    c.order.Some? && c.order.value.orderType != NONE && c.order.value.orderBy.value != ""
  }

  /** Neither a missing nor an empty `Filters` counts as having filters, and
      `Order.None()` never counts as an order. */
  lemma CriteriaPredicates(filters: Option<Filters>, limit: Option<int>, offset: Option<int>)
    ensures !HasFilters(Criteria(None, None, limit, offset))
    ensures !HasFilters(Criteria(Some(Filters([])), None, limit, offset))
    ensures !HasOrder(Criteria(filters, Some(OrderNone()), limit, offset))
    ensures filters.Some? && filters.value.values != [] ==> HasFilters(Criteria(filters, None, limit, offset))
  {
  }
}

=== FILE: evaluation.dfy ===
/** What a compiled filter means for one row: the comparison that a filter operator
    stands for, between the member value read from the row and the converted filter
    value. Both criteria compilers produce queries whose meaning is given here.

    Equality is value equality (records compare by their fields). The ordering
    operators hold only between two values of the same scalar kind, ordered by
    `Rows.Compare`; a null member compares as neither greater nor smaller.
    `CONTAINS` is an ordinal substring test on text, and `NOT_CONTAINS` is its
    negation.
 */
module Evaluation {
  import opened Text
  import opened Rows
  import opened FilterOperators

  /** Two values the ordering operators can compare. */
  predicate Comparable(a: Value, b: Value) {
    !a.Null? && !a.Object? && Rank(a) == Rank(b)
  }

  /** `a.Contains(b)` on two texts. */
  predicate ContainsText(a: Value, b: Value) {
    a.Str? && b.Str? && Contains(a.s, b.s)
  }

  /** `actual op expected`. */
  predicate Holds(op: FilterOperator, actual: Value, expected: Value) {
    match op
    case EQUAL => actual == expected
    case NOTEQUAL => actual != expected
    case GT => Comparable(actual, expected) && Compare(actual, expected) > 0
    case GTE => Comparable(actual, expected) && Compare(actual, expected) >= 0
    case LT => Comparable(actual, expected) && Compare(actual, expected) < 0
    case LTE => Comparable(actual, expected) && Compare(actual, expected) <= 0
    case CONTAINS => ContainsText(actual, expected)
    case NOTCONTAINS => !ContainsText(actual, expected)
  }

  /** The positive operator a negative one negates. */
  function Positive(op: FilterOperator): (p: FilterOperator)
    ensures IsPositive(p)
    ensures IsPositive(op) ==> p == op
  {
    match op
    case NOTEQUAL => EQUAL
    case NOTCONTAINS => CONTAINS
    case _ => op
  }

  /** A negative operator holds exactly when its positive counterpart does not;
      `>=` is `>` or equal, and `<` is `>` with its operands swapped. */
  lemma OperatorsAgree(op: FilterOperator, a: Value, b: Value)
    ensures !IsPositive(op) ==> (Holds(op, a, b) <==> !Holds(Positive(op), a, b))
    ensures Holds(GTE, a, b) <==> Holds(GT, a, b) || (Comparable(a, b) && a == b)
    ensures Holds(LT, a, b) <==> Holds(GT, b, a)
    ensures Holds(LTE, a, b) <==> Holds(GTE, b, a)
  {
    CompareIsTotalPreorder(a, b, a);
  }
}

=== FILE: filter_extensions.dfy ===
/** `FilterExtensions.Only`: keeps the raw filters whose `field` is on an allow-list. */
module FilterExtensions {
  import opened Text
  import opened Sequences
  import opened Criterias

  /** `name` is one of `allowed`, ignoring case (the allow-list is a case-insensitive
      set of lower-cased names, probed with a lower-cased name). */
  predicate IsAllowed(allowed: seq<string>, name: string) {
    exists k :: 0 <= k < |allowed| && EqualsIgnoreCase(allowed[k], name)
  }

  /** The test each raw filter must pass. */
  predicate Keeps(allowed: seq<string>, raw: RawFilter) {
    "field" in raw && IsAllowed(allowed, raw["field"])
  }

  /** `filters.Only(allowedFields)`. */
  function Only(filters: seq<RawFilter>, allowed: seq<string>): (r: seq<RawFilter>)
    ensures forall k :: 0 <= k < |r| ==> r[k] in filters && Keeps(allowed, r[k])
    ensures forall k :: 0 <= k < |filters| && Keeps(allowed, filters[k]) ==> filters[k] in r
    ensures forall raw :: multiset(r)[raw] == if Keeps(allowed, raw) then multiset(filters)[raw] else 0
  {
    Where(filters, raw => Keeps(allowed, raw))
  }

  /** The kept filters are an order-preserving subsequence of the input, taken
      unchanged; a map without a `field` key is never kept; an empty allow-list
      keeps nothing; and applying `Only` twice is applying it once. */
  lemma OnlyProperties(filters: seq<RawFilter>, allowed: seq<string>)
    ensures IsSubsequence(Only(filters, allowed), filters)
    ensures forall k :: 0 <= k < |Only(filters, allowed)| ==> "field" in Only(filters, allowed)[k]
    ensures allowed == [] ==> Only(filters, allowed) == []
    ensures Only(Only(filters, allowed), allowed) == Only(filters, allowed)
  {
    WhereIsSubsequence(filters, raw => Keeps(allowed, raw));
    WhereIdempotent(filters, raw => Keeps(allowed, raw));
  }

  /** A list in which no filter names an allowed field keeps nothing. */
  lemma {:induction false} OnlyKeepsNothing(filters: seq<RawFilter>, allowed: seq<string>)
    requires forall k :: 0 <= k < |filters| ==> !Keeps(allowed, filters[k])
    ensures Only(filters, allowed) == []
  {
    if filters != [] {
      OnlyKeepsNothing(filters[1..], allowed);
    }
  }

  /** A filter on an allowed field passes whatever the case of its name. */
  lemma OnlyIgnoresCase(raw: RawFilter, allowed: seq<string>, k: nat)
    requires k < |allowed| && "field" in raw && EqualsIgnoreCase(ToUpperString(allowed[k]), raw["field"])
    ensures Only([raw], allowed) == [raw]
  {
    EqualsIgnoreCaseUpper(allowed[k], raw["field"]);
  }
}

=== FILE: filter_operator.dfy ===
/** `FilterOperator`: the eight comparison operators of a filter, their textual
    tokens, and whether an operator is positive. */
module FilterOperators {
  import opened Wrappers

  datatype FilterOperator = EQUAL | NOTEQUAL | GT | GTE | LT | LTE | CONTAINS | NOTCONTAINS

  /** The enum's underlying value (`EQUAL = 0` ... `NOTCONTAINS = 7`). */
  function Ordinal(op: FilterOperator): (n: nat)
    ensures n < 8
  {
    match op
    case EQUAL => 0
    case NOTEQUAL => 1
    case GT => 2
    case GTE => 3
    case LT => 4
    case LTE => 5
    case CONTAINS => 6
    case NOTCONTAINS => 7
  }

  /** Distinct operators have distinct ordinals, and every ordinal below 8 is used. */
  lemma OrdinalsAreDistinct(a: FilterOperator, b: FilterOperator, n: nat)
    ensures Ordinal(a) == Ordinal(b) ==> a == b
    ensures n < 8 ==> exists op :: Ordinal(op) == n
  {
    if n < 8 {
      var all := [EQUAL, NOTEQUAL, GT, GTE, LT, LTE, CONTAINS, NOTCONTAINS];
      assert Ordinal(all[n]) == n;
    }
  }

  /** The token each operator is written as; `FilterOperatorFromValue` reads it
      back. */
  function Token(op: FilterOperator): (t: string)
    ensures FromValue(t) == Ok(op)
  {
    match op
    case EQUAL => "="
    case NOTEQUAL => "!="
    case GT => ">"
    case GTE => ">="
    case LT => "<"
    case LTE => "<="
    case CONTAINS => "CONTAINS"
    case NOTCONTAINS => "NOT_CONTAINS"
  }

  /** `FilterOperatorFromValue`: an exact, case-sensitive match on the eight tokens;
      any other string throws `ArgumentOutOfRangeException` carrying that string. */
  function FromValue(value: string): (r: Throws<FilterOperator>)
    ensures r.Thrown? ==> r.error == ArgumentOutOfRange("value", Some(value))
  {
    match value
    case "=" => Ok(EQUAL)
    case "!=" => Ok(NOTEQUAL)
    case ">" => Ok(GT)
    case ">=" => Ok(GTE)
    case "<" => Ok(LT)
    case "<=" => Ok(LTE)
    case "CONTAINS" => Ok(CONTAINS)
    case "NOT_CONTAINS" => Ok(NOTCONTAINS)
    case _ => Thrown(ArgumentOutOfRange("value", Some(value)))
  }

  /** `FromValue` and `Token` are inverse: the parser is a bijection between the
      eight tokens and the eight operators, and rejects everything else. */
  lemma FromValueIsTokenInverse(op: FilterOperator, s: string)
    ensures FromValue(Token(op)) == Ok(op)
    ensures FromValue(s).Ok? ==> Token(FromValue(s).value) == s
    ensures FromValue(s).Ok? <==> exists o :: Token(o) == s
  {
    if FromValue(s).Ok? {
      assert Token(FromValue(s).value) == s;
    }
  }

  /** Tokens in another case, and unknown tokens, are rejected. */
  lemma FromValueRejectsExamples()
    ensures FromValue("contains") == Thrown(ArgumentOutOfRange("value", Some("contains")))
    ensures FromValue("starts_with") == Thrown(ArgumentOutOfRange("value", Some("starts_with")))
  {
  }

  /** `IsPositive`: every operator but the two negations. */
  function IsPositive(op: FilterOperator): (b: bool)
    ensures !b <==> op == NOTEQUAL || op == NOTCONTAINS
  {
    !(op == NOTCONTAINS || op == NOTEQUAL)
  }
}

=== FILE: handlers.dfy ===
/** The user application handlers: `AuthenticateUserHandler.Authenticate` and the
    two `ListUsersHandler.Find` variants. The repository calls (`FindByEmail`,
    `Matching`) and the `CreatedAt` formatter are parameters. */
module UserHandlers {
  import opened Wrappers
  import opened Text
  import opened StringValueObjects
  import opened ValueObjects
  import opened PasswordHashes
  import opened Results
  import opened ResultExtensions
  import opened Criterias
  import opened FilterExtensions
  import opened Users

  datatype AuthenticateUserResponse = AuthenticateUserResponse(id: string, email: string, fullName: string)

  const InvalidCredentialsCode: string := "INVALID_CREDENTIALS"
  const InvalidCredentialsMessage: string := "Invalid credentials."

  /** The one error both authentication failures return. */
  function InvalidCredentials(): (e: Error)
    ensures e.kind == Unauthorized && e.numericType == 0
    ensures e.code == InvalidCredentialsCode && e.description == InvalidCredentialsMessage
  {
    Of(Unauthorized, InvalidCredentialsCode, InvalidCredentialsMessage)
  }

  /** `Authenticate`: a malformed email throws before any lookup; an unknown email
      and a wrong password both give the invalid-credentials error; otherwise the
      found user's id, email and full name. */
  method Authenticate(email: string, password: string, findByEmail: StringValueObject -> Option<User>, hasher: Hasher)
    returns (r: Throws<Result<AuthenticateUserResponse>>)
    ensures EmailAddress(email).Thrown? ==> r == Thrown(EmailAddress(email).error)
    ensures (EmailAddress(email).Ok? && findByEmail(EmailAddress(email).value).None?) ==>
      r == Ok(FromError(InvalidCredentials()))
    ensures (EmailAddress(email).Ok? && findByEmail(EmailAddress(email).value).Some?
      && !findByEmail(EmailAddress(email).value).value.VerifyPassword(password, hasher)) ==>
      r == Ok(FromError(InvalidCredentials()))
    ensures (EmailAddress(email).Ok? && findByEmail(EmailAddress(email).value).Some?
      && findByEmail(EmailAddress(email).value).value.VerifyPassword(password, hasher)) ==>
      var user := findByEmail(EmailAddress(email).value).value;
      r == Results.FromValue(Some(AuthenticateUserResponse(user.id.value, user.email.value, user.fullName.value)))
  {
    var emailAddress :- EmailAddress(email);
    var user := findByEmail(emailAddress);
    if user.None? {
      return Ok(FromError(InvalidCredentials()));
    }
    var passwordMatches := user.value.VerifyPassword(password, hasher);
    if !passwordMatches {
      return Ok(FromError(InvalidCredentials()));
    }
    var response := AuthenticateUserResponse(user.value.id.value, user.value.email.value, user.value.fullName.value);
    r := Results.FromValue(Some(response));
  }

  /** Both authentication failures reach the client as the same `401` problem, with
      no field errors, so the response does not reveal which check failed. */
  lemma InvalidCredentialsResponse<P>(isSuccessMarker: AuthenticateUserResponse -> bool, pagination: Option<P>)
    ensures ToHttpResponse(FromError<AuthenticateUserResponse>(InvalidCredentials()), isSuccessMarker, pagination)
      == Problem(UnauthorizedProblem, InvalidCredentialsMessage, InvalidCredentialsCode, [])
  {
  }

  datatype UserSummaryResponse = UserSummaryResponse(id: string, email: string, fullName: string, createdAt: string)

  datatype ListUsersResponse = ListUsersResponse(users: seq<UserSummaryResponse>, total: int)

  /** The raw filter fields a user list may be filtered by. */
  const AllowedFields: seq<string> := ["email", "fullname"]

  const CreatedAtField: string := "CreatedAt"

  /** The criteria both list handlers build: the allowed raw filters, newest users
      first, and the caller's limit and offset. */
  function ListCriteria(filters: seq<RawFilter>, limit: Option<int>, offset: Option<int>): (r: Throws<Criteria>)
    ensures r.Ok? <==> forall k :: 0 <= k < |Only(filters, AllowedFields)| ==> IsWellFormed(Only(filters, AllowedFields)[k])
    ensures r.Ok? ==> r.value.filters.Some? && |r.value.filters.value.values| == |Only(filters, AllowedFields)|
    ensures r.Ok? ==> forall f :: f in r.value.filters.value.values ==>
                        exists raw :: raw in filters && Keeps(AllowedFields, raw) && FromRaw(raw) == Ok(f)
    ensures r.Ok? ==> r.value.order == Some(Order(Wrap(CreatedAtField), DESC)) && HasOrder(r.value)
    ensures r.Ok? ==> r.value.limit == limit && r.value.offset == offset
  {
    var allowed := Only(filters, AllowedFields);
    var criteriaFilters :- FiltersFromValues(Some(allowed));
    CreatedAtDescending();
    var order := OrderFromValues(Some(CreatedAtField), Some("DESC")).value;
    var c := Criteria(criteriaFilters, Some(order), limit, offset);
    KeptFiltersAllowed(filters, c.filters.value.values);
    Ok(c)
  }

  /** Every filter built from the allowed raw filters comes from one of them. */
  lemma KeptFiltersAllowed(filters: seq<RawFilter>, values: seq<Filter>)
    requires FiltersFromValues(Some(Only(filters, AllowedFields))) == Ok(Some(Filters(values)))
    ensures forall f :: f in values ==> exists raw :: raw in filters && Keeps(AllowedFields, raw) && FromRaw(raw) == Ok(f)
  {
    var allowed := Only(filters, AllowedFields);
    forall f | f in values
      ensures exists raw :: raw in filters && Keeps(AllowedFields, raw) && FromRaw(raw) == Ok(f)
    {
      var k :| 0 <= k < |values| && values[k] == f;
      assert allowed[k] in filters && Keeps(AllowedFields, allowed[k]);
      assert FromRaw(allowed[k]) == Ok(f);
    }
  }

  /** `Order.FromValues("CreatedAt", "DESC")` is descending order on `CreatedAt`,
      which counts as an order. */
  lemma CreatedAtDescending()
    ensures OrderFromValues(Some(CreatedAtField), Some("DESC")) == Ok(Order(Wrap(CreatedAtField), DESC))
    ensures Wrap(CreatedAtField).value != ""
  {
    TrimOfTrimmed(CreatedAtField);
    DescendingParses();
  }

  /** The type name `DESC` parses as descending order. */
  lemma DescendingParses()
    ensures ParseOrderType("DESC") == Ok(DESC)
  {
    var d := "DESC";
    TrimOfTrimmed(d);
    assert TrimStart(d) == d;
    assert !IsNumericForm(d);
    EqualsIgnoreCaseIsEquivalence(d, d, d);
    assert ToUpper(d[0]) != ToUpper("NONE"[0]);
    assert ToUpper(d[0]) != ToUpper("ASC"[0]) || |d| != |"ASC"|;
  }

  /** One summary: the user's id, email and name, and its creation time as
      formatted. */
  function Summary(user: User, format: int -> string): UserSummaryResponse
    reads user
  {
    UserSummaryResponse(user.id.value, user.email.value, user.fullName.value, format(user.createdAt))
  }

  /** The summaries of the matching users, one per user, in repository order. */
  function Summaries(users: seq<User>, format: int -> string): (r: seq<UserSummaryResponse>)
    reads users
    ensures |r| == |users|
    ensures forall k :: 0 <= k < |users| ==> r[k] == Summary(users[k], format)
  {
    if users == [] then [] else [Summary(users[0], format)] + Summaries(users[1..], format)
  }

  /** The response of both list handlers: the summaries, with `Total` the number of
      users on this page (not the number of users that match). */
  function ListResponse(users: seq<User>, format: int -> string): (r: ListUsersResponse)
    reads users
    ensures r.total == |r.users| == |users|
    ensures r.users == Summaries(users, format)
  {
    var summaries := Summaries(users, format);
    ListUsersResponse(summaries, |summaries|)
  }

  /** Archetype `ListUsersHandler.Find`: always a success holding the response for
      the users the criteria match (a malformed allowed filter throws). */
  method ArchetypeListUsers(filters: seq<RawFilter>, limit: Option<int>, offset: Option<int>,
                            matching: Criteria -> seq<User>, format: int -> string)
    returns (r: Throws<Result<ListUsersResponse>>)
    ensures r.Thrown? <==> ListCriteria(filters, limit, offset).Thrown?
    ensures r.Thrown? ==> r.error == ListCriteria(filters, limit, offset).error
    ensures r.Ok? ==> r.value.IsSuccess()
    ensures r.Ok? ==> r.value.storedValue == Some(ListResponse(matching(ListCriteria(filters, limit, offset).value), format))
  {
    var criteria :- ListCriteria(filters, limit, offset);
    var users := matching(criteria);
    r := Results.FromValue(Some(ListResponse(users, format)));
  }

  /** Payments `ListUsersHandler.Find`: the same criteria and response, returned
      without a result wrapper. */
  method PaymentsListUsers(filters: seq<RawFilter>, limit: Option<int>, offset: Option<int>,
                           matching: Criteria -> seq<User>, format: int -> string)
    returns (r: Throws<ListUsersResponse>)
    ensures r.Thrown? <==> ListCriteria(filters, limit, offset).Thrown?
    ensures r.Thrown? ==> r.error == ListCriteria(filters, limit, offset).error
    ensures r.Ok? ==> r.value == ListResponse(matching(ListCriteria(filters, limit, offset).value), format)
  {
    var criteria :- ListCriteria(filters, limit, offset);
    var users := matching(criteria);
    r := Ok(ListResponse(users, format));
  }

  /** A request whose raw filters name no allowed field still builds a `Filters`,
      with no filter in it. */
  lemma NoAllowedFilterGivesEmptyFilters(filters: seq<RawFilter>, limit: Option<int>, offset: Option<int>)
    requires forall k :: 0 <= k < |filters| ==> !Keeps(AllowedFields, filters[k])
    ensures ListCriteria(filters, limit, offset).Ok?
    ensures ListCriteria(filters, limit, offset).value.filters == Some(Filters([]))
    ensures !HasFilters(ListCriteria(filters, limit, offset).value)
  {
    OnlyKeepsNothing(filters, AllowedFields);
  }
}

=== FILE: log_context.dfy ===
/** `LogContext`: the correlation id, request id and user id of the current flow,
    kept in one holder that reads create on demand and `Clear` drops. */
module LogContexts {
  import opened Wrappers

  /** `LogContextValues(CorrelationId, RequestId, UserId)`; `None` is null. */
  datatype LogContextValues = LogContextValues(correlationId: Option<string>, requestId: Option<string>, userId: Option<string>)

  /** A fresh holder: all three fields null. */
  const Empty: LogContextValues := LogContextValues(None, None, None)

  /** A field after `Set`: the incoming value when it is not null, else the old one. */
  function Override(current: Option<string>, incoming: Option<string>): (r: Option<string>)
    ensures incoming.Some? ==> r == incoming
    ensures incoming.None? ==> r == current
  {
    if incoming.Some? then incoming else current
  }

  /** The holder's fields after `Set(values)`. */
  function Merge(current: LogContextValues, values: LogContextValues): (r: LogContextValues)
    ensures r.correlationId == Override(current.correlationId, values.correlationId)
    ensures r.requestId == Override(current.requestId, values.requestId)
    ensures r.userId == Override(current.userId, values.userId)
  {
    LogContextValues(
      Override(current.correlationId, values.correlationId),
      Override(current.requestId, values.requestId),
      Override(current.userId, values.userId))
  }

  /** Setting nothing changes nothing, and setting the same values twice is setting
      them once. */
  lemma MergeLaws(current: LogContextValues, values: LogContextValues)
    ensures Merge(current, Empty) == current
    ensures Merge(Merge(current, values), values) == Merge(current, values)
    ensures Merge(Empty, values) == values
  {
  }

  /** Later non-null values win: two `Set` calls act as one `Set` with the second
      call's non-null fields laid over the first's. */
  lemma MergeComposes(current: LogContextValues, first: LogContextValues, second: LogContextValues)
    ensures Merge(Merge(current, first), second) == Merge(current, Merge(first, second))
  {
  }

  class LogContext {
    /** The holder of the current flow; `None` until a read or `Set` creates it. */
    var holder: Option<LogContextValues>

    /** A flow that has not yet read or set its context. In the source the holder is
        a static `AsyncLocal`, shared by every `LogContext` of the flow; one object
        here stands for that shared holder. */
    constructor()
      ensures holder == None
    {
      holder := None;
    }

    /** The values the holder reads as: a missing holder reads as all null. */
    function Values(): (v: LogContextValues)
      reads this
      ensures holder.None? ==> v == Empty
    {
      holder.GetOr(Empty)
    }

    /** The current `CorrelationId`: null without a holder, else the holder's. */
    function CorrelationId(): (r: Option<string>)
      reads this
      ensures holder.None? ==> r.None?
      ensures holder.Some? ==> r == holder.value.correlationId
    {
      Values().correlationId
    }

    /** The current `RequestId`: null without a holder, else the holder's. */
    function RequestId(): (r: Option<string>)
      reads this
      ensures holder.None? ==> r.None?
      ensures holder.Some? ==> r == holder.value.requestId
    {
      Values().requestId
    }

    /** The current `UserId`: null without a holder, else the holder's. */
    function UserId(): (r: Option<string>)
      reads this
      ensures holder.None? ==> r.None?
      ensures holder.Some? ==> r == holder.value.userId
    {
      Values().userId
    }

    /** `Set`: the non-null fields of `values` overwrite the holder's; the null ones
        leave them as they were. */
    method Set(values: LogContextValues)
      modifies this
      ensures holder == Some(Merge(old(Values()), values))
    {
      var ctx := if holder.Some? then holder.value else Empty;
      if values.correlationId.Some? {
        ctx := ctx.(correlationId := values.correlationId);
      }
      if values.requestId.Some? {
        ctx := ctx.(requestId := values.requestId);
      }
      if values.userId.Some? {
        ctx := ctx.(userId := values.userId);
      }
      holder := Some(ctx);
    }

    /** `Capture`: the three current fields (creating the holder if there was
        none). */
    method Capture() returns (captured: LogContextValues)
      modifies this
      ensures captured == old(Values()) && holder == Some(captured)
    {
      if holder.None? {
        holder := Some(Empty);
      }
      captured := holder.value;
    }

    /** `Clear`: drops the holder, so every field reads null again. */
    method Clear()
      modifies this
      ensures holder == None
      ensures CorrelationId() == None && RequestId() == None && UserId() == None
    {
      holder := None;
    }
  }

  /** Capturing after `Set(v)` gives `v`'s non-null fields over the values captured
      before it. */
  method SetThenCapture(context: LogContext, values: LogContextValues) returns (before: LogContextValues, after: LogContextValues)
    modifies context
    ensures after == Merge(before, values)
    ensures values.correlationId.Some? ==> after.correlationId == values.correlationId
    ensures values.correlationId.None? ==> after.correlationId == before.correlationId
  {
    before := context.Capture();
    context.Set(values);
    after := context.Capture();
  }
}

=== FILE: numbers.dfy ===
/** Culture-invariant integer parsing and formatting.

    `int.Parse`, `long.Parse`, ... with `NumberStyles.Integer` accept optional white
    space around the number (only U+0009 to U+000D and the space, not every
    `char.IsWhiteSpace` character), one optional leading `+` or `-`, then one or more ASCII
    digits; a malformed input throws `FormatException` and a number outside the range
    of the target width throws `OverflowException`. `int.TryParse` returns `false` in
    both cases (and for `null`).
 */
module Numbers {
  import opened Wrappers
  import opened Text

  /** The signed and unsigned integer widths of .NET. */
  datatype IntWidth = SByte | Byte | Int16 | UInt16 | Int32 | UInt32 | Int64 | UInt64 {
    function Min(): int {
      match this
      case SByte => -0x80
      case Int16 => -0x8000
      case Int32 => -0x8000_0000
      case Int64 => -0x8000_0000_0000_0000
      case _ => 0
    }

    function Max(): int {
      match this
      case SByte => 0x7F
      case Byte => 0xFF
      case Int16 => 0x7FFF
      case UInt16 => 0xFFFF
      case Int32 => 0x7FFF_FFFF
      case UInt32 => 0xFFFF_FFFF
      case Int64 => 0x7FFF_FFFF_FFFF_FFFF
      case UInt64 => 0xFFFF_FFFF_FFFF_FFFF
    }

    predicate InRange(n: int) { Min() <= n <= Max() }
  }

  /** The white space `NumberStyles.AllowLeadingWhite` and `AllowTrailingWhite`
      accept: U+0009 to U+000D and the space. */
  predicate IsNumberSpace(c: char) {
    ('\U{9}' <= c <= '\U{D}') || c == ' '
  }

  /** The number of leading number white-space characters. */
  function LeadingNumberSpace(s: string): (n: nat)
    ensures n <= |s| && (n == |s| || !IsNumberSpace(s[n]))
    ensures forall k :: 0 <= k < n ==> IsNumberSpace(s[k])
  {
    if s == [] || !IsNumberSpace(s[0]) then 0 else 1 + LeadingNumberSpace(s[1..])
  }

  /** The length of `s` without its trailing number white space. */
  function TrailingNumberSpaceStart(s: string): (n: nat)
    ensures n <= |s| && (n == 0 || !IsNumberSpace(s[n - 1]))
    ensures forall k :: n <= k < |s| ==> IsNumberSpace(s[k])
  {
    if s == [] || !IsNumberSpace(s[|s| - 1]) then |s| else TrailingNumberSpaceStart(s[..|s| - 1])
  }

  /** The text between the leading and the trailing number white space. */
  function TrimNumberSpace(s: string): (t: string)
    ensures t == [] || (!IsNumberSpace(t[0]) && !IsNumberSpace(t[|t| - 1]))
  {
    var u := s[LeadingNumberSpace(s)..];
    u[..TrailingNumberSpaceStart(u)]
  }

  /** Text with no number white space at either end is its own trimmed form. */
  lemma TrimNumberSpaceOfTrimmed(s: string)
    requires s == [] || (!IsNumberSpace(s[0]) && !IsNumberSpace(s[|s| - 1]))
    ensures TrimNumberSpace(s) == s
  {
  }

  predicate AllDigits(s: string) {
    forall i :: 0 <= i < |s| ==> IsDigit(s[i])
  }

  function DigitValue(c: char): (d: nat)
    requires IsDigit(c)
    ensures d < 10
  {
    c as int - '0' as int
  }

  function DigitChar(d: nat): (c: char)
    requires d < 10
    ensures IsDigit(c) && DigitValue(c) == d
  {
    ('0' as int + d) as char
  }

  /** The value of a string of decimal digits, most significant first. */
  function DigitsValue(s: string): nat
    requires AllDigits(s)
  {
    if s == [] then 0 else DigitsValue(s[..|s| - 1]) * 10 + DigitValue(s[|s| - 1])
  }

  /** The integer written in `s`, or `None` when `s` is not an integer literal. */
  function ParseInteger(s: string): (r: Option<int>)
  {
    var t := TrimNumberSpace(s);
    if t == [] then None
    else
      var negative := t[0] == '-';
      var digits := if t[0] == '-' || t[0] == '+' then t[1..] else t;
      if digits == [] || !AllDigits(digits) then None
      else
        var magnitude: int := DigitsValue(digits);
        Some(if negative then -magnitude else magnitude)
  }

  /** `Int32.Parse`, `Byte.Parse`, ... for the given width. */
  function ParseWidth(s: string, width: IntWidth): (r: Throws<int>)
    ensures r.Ok? ==> width.InRange(r.value) && ParseInteger(s) == Some(r.value)
    ensures r.Thrown? ==> r.error == Format(s) || r.error == Overflow(s)
    ensures ParseInteger(s).None? ==> r == Thrown(Format(s))
  {
    match ParseInteger(s)
    case None => Thrown(Format(s))
    case Some(n) => if width.InRange(n) then Ok(n) else Thrown(Overflow(s))
  }

  /** `int.TryParse(s, out n)`: the parsed value, or `None` for `false`. */
  function TryParseInt32(s: Option<string>): (r: Option<int>)
    ensures r.Some? ==> Int32.InRange(r.value)
    ensures r.Some? <==> s.Some? && ParseWidth(s.value, Int32).Ok?
    ensures r.Some? ==> r.value == ParseWidth(s.value, Int32).value
  {
    match s
    case None => None
    case Some(text) =>
      match ParseWidth(text, Int32)
      case Ok(n) => Some(n)
      case Thrown(_) => None
  }

  /** The decimal representation of a natural number, without leading zeros. */
  function NatToString(n: nat): (s: string)
    ensures s != [] && AllDigits(s)
  {
    if n < 10 then [DigitChar(n)] else NatToString(n / 10) + [DigitChar(n % 10)]
  }

  /** The decimal representation of an integer (`int.ToString()`). */
  function IntToString(n: int): (s: string) {
    if n < 0 then "-" + NatToString(-n) else NatToString(n)
  }

  lemma {:induction false} NatToStringValue(n: nat)
    ensures DigitsValue(NatToString(n)) == n
  {
    if n >= 10 {
      var p := NatToString(n / 10);
      NatToStringValue(n / 10);
      assert (p + [DigitChar(n % 10)])[..|p|] == p;
    }
  }

  /** Formatting then parsing an integer gives it back. */
  lemma ParseIntToString(n: int)
    ensures ParseInteger(IntToString(n)) == Some(n)
  {
    var m := if n < 0 then -n else n;
    NatToStringValue(m);
    if n < 0 {
      ParseNegative(NatToString(m));
    } else {
      ParseUnsigned(NatToString(m));
    }
  }

  lemma ParseUnsigned(d: string)
    requires d != [] && AllDigits(d)
    ensures ParseInteger(d) == Some(DigitsValue(d))
  {
    assert IsDigit(d[0]) && IsDigit(d[|d| - 1]);
    TrimNumberSpaceOfTrimmed(d);
  }

  lemma ParseNegative(d: string)
    requires d != [] && AllDigits(d)
    ensures ParseInteger("-" + d) == Some(-(DigitsValue(d) as int))
  {
    var s := "-" + d;
    assert s[0] == '-' && s[1..] == d && s[|s| - 1] == d[|d| - 1];
    assert IsDigit(s[|s| - 1]);
    TrimNumberSpaceOfTrimmed(s);
  }

  /** Number white space around the digits is accepted. */
  lemma NumberSpaceAccepted()
    ensures ParseWidth(" 5\t", Int32) == Ok(5)
  {
    var s := " 5\t";
    assert LeadingNumberSpace(s) == 1;
    assert s[1..] == "5\t" && TrailingNumberSpaceStart("5\t") == 1;
    assert TrimNumberSpace(s) == "5";
    assert DigitsValue("5") == 5;
  }

  /** A no-break space or a next-line character, which `char.IsWhiteSpace` accepts,
      is not number white space: the text does not parse. */
  lemma OtherSpaceRejected()
    ensures ParseWidth("\U{A0}5", Int32) == Thrown(Format("\U{A0}5"))
    ensures TryParseInt32(Some("\U{85}5")).None?
  {
    TrimNumberSpaceOfTrimmed("\U{A0}5");
    TrimNumberSpaceOfTrimmed("\U{85}5");
  }
}

=== FILE: password_hash.dfy ===
/** `UserPasswordHash`: a plain password is validated (trimmed length 8..12 UTF-16 code units, then an
    upper-case letter, a lower-case letter, a digit and a symbol, in that order),
    hashed as given, and the hash is stored through the `StringValueObject`
    normaliser. The hasher is a pair of functions supplied by the caller. */
module PasswordHashes {
  import opened Wrappers
  import opened Text
  import opened StringValueObjects

  /** `IHasher`: `Hash(plainText)` and `Verify(plainText, textHash)`. */
  datatype Hasher = Hasher(hash: string -> string, verify: (string, string) -> bool)

  datatype UserPasswordHash = UserPasswordHash(value: string)

  const MinLength: nat := 8
  const MaxLength: nat := 12

  const UpperMessage: string := "Password must contain at least one uppercase letter."
  const LowerMessage: string := "Password must contain at least one lowercase letter."
  const DigitMessage: string := "Password must contain at least one digit."
  const SymbolMessage: string := "Password must contain at least one symbol."

  predicate HasUpper(s: string) { exists i :: 0 <= i < |s| && IsUpper(s[i]) }

  predicate HasLower(s: string) { exists i :: 0 <= i < |s| && IsLower(s[i]) }

  predicate HasDigit(s: string) { exists i :: 0 <= i < |s| && IsDigit(s[i]) }

  /** A symbol is any character that is neither a letter nor a digit. */
  predicate HasSymbol(s: string) { exists i :: 0 <= i < |s| && !IsLetterOrDigit(s[i]) }

  /** The password rules, on the trimmed password. */
  predicate IsAcceptable(password: string) {
    MinLength <= Utf16Length(password) <= MaxLength
    && HasUpper(password) && HasLower(password) && HasDigit(password) && HasSymbol(password)
  }

  /** `ValidatePlainPassword`: `None` when the trimmed password is acceptable,
      otherwise the exception of the first rule it breaks, the length rule first. */
  function ValidatePlainPassword(plainPassword: string): (r: Option<Exception>)
    ensures r.None? <==> IsAcceptable(Trim(plainPassword))
    ensures !(MinLength <= Utf16Length(Trim(plainPassword)) <= MaxLength) ==>
      r == Some(ArgumentOutOfRange("plainPassword", None))
    ensures MinLength <= Utf16Length(Trim(plainPassword)) <= MaxLength && !HasUpper(Trim(plainPassword)) ==>
      r == Some(Argument(UpperMessage))
    ensures (MinLength <= Utf16Length(Trim(plainPassword)) <= MaxLength && HasUpper(Trim(plainPassword))
      && !HasLower(Trim(plainPassword))) ==> r == Some(Argument(LowerMessage))
    ensures (MinLength <= Utf16Length(Trim(plainPassword)) <= MaxLength && HasUpper(Trim(plainPassword))
      && HasLower(Trim(plainPassword)) && !HasDigit(Trim(plainPassword))) ==> r == Some(Argument(DigitMessage))
    ensures (MinLength <= Utf16Length(Trim(plainPassword)) <= MaxLength && HasUpper(Trim(plainPassword))
      && HasLower(Trim(plainPassword)) && HasDigit(Trim(plainPassword)) && !HasSymbol(Trim(plainPassword))) ==>
      r == Some(Argument(SymbolMessage))
  {
    var password := Trim(plainPassword);
    if Utf16Length(password) < MinLength || Utf16Length(password) > MaxLength then Some(ArgumentOutOfRange("plainPassword", None))
    else if !HasUpper(password) then Some(Argument(UpperMessage))
    else if !HasLower(password) then Some(Argument(LowerMessage))
    else if !HasDigit(password) then Some(Argument(DigitMessage))
    else if !HasSymbol(password) then Some(Argument(SymbolMessage))
    else None
  }

  /** The private constructor: the hash goes through the base normaliser. */
  function FromHash(hashedPassword: string): (h: UserPasswordHash)
    ensures New(hashedPassword, None, None) == Ok(StringValueObject(h.value))
  {
    UserPasswordHash(Trim(hashedPassword))
  }

  /** `Create`: validate the trimmed password, then hash the password as given. */
  function Create(plainPassword: string, hasher: Hasher): (r: Throws<UserPasswordHash>)
    ensures r.Ok? <==> IsAcceptable(Trim(plainPassword))
    ensures r.Ok? ==> r.value.value == Trim(hasher.hash(plainPassword))
    ensures r.Thrown? ==> Some(r.error) == ValidatePlainPassword(plainPassword)
  {
    match ValidatePlainPassword(plainPassword)
    case Some(e) => Thrown(e)
    case None => Ok(FromHash(hasher.hash(plainPassword)))
  }

  /** `Verify`: the hasher decides, given the plain text and the stored hash. */
  function Verify(passwordHash: UserPasswordHash, plainPassword: string, hasher: Hasher): bool {
    hasher.verify(plainPassword, passwordHash.value)
  }

  /** `ToString()`: always the mask, whatever the hash. */
  function Masked(passwordHash: UserPasswordHash): (r: string)
    ensures |r| == 8 && forall i :: 0 <= i < |r| ==> r[i] == '*'
  {
    "********"
  }

  /** The masked text does not depend on the hash it stands for. */
  lemma MaskedHidesValue(a: UserPasswordHash, b: UserPasswordHash)
    ensures Masked(a) == Masked(b) == "********"
  {
  }

  /** Two passwords with the same trimmed text are accepted or rejected alike. */
  lemma ValidationSeesTrimmed(a: string, b: string)
    requires Trim(a) == Trim(b)
    ensures ValidatePlainPassword(a) == ValidatePlainPassword(b)
    ensures Create(a, Hasher(s => s, (p, h) => true)).Ok? == Create(b, Hasher(s => s, (p, h) => true)).Ok?
  {
  }

  /** A password that was accepted verifies against its own hash, provided the
      hasher recognises its own output and that output has no white space at
      either end. */
  lemma CreateThenVerify(plainPassword: string, hasher: Hasher)
    requires Create(plainPassword, hasher).Ok?
    requires hasher.verify(plainPassword, hasher.hash(plainPassword))
    requires Trim(hasher.hash(plainPassword)) == hasher.hash(plainPassword)
    ensures Verify(Create(plainPassword, hasher).value, plainPassword, hasher)
  {
  }

  /** The test double: `Hash(p)` is `p + "_HASH"`, and `Verify(p, h)` holds when `h`
      is that text. */
  function FakeHasher(): Hasher {
    Hasher(p => p + "_HASH", (p, h) => h == p + "_HASH")
  }

  /** `Valid12!` is acceptable: length 8, with `V`, `a`, `1` and `!`. */
  lemma ValidExampleAcceptable()
    ensures IsAcceptable("Valid12!")
  {
    var s := "Valid12!";
    assert IsUpper(s[0]) && IsLower(s[1]) && IsDigit(s[5]) && !IsLetterOrDigit(s[7]);
  }

  /** With white space around it the password is validated trimmed but hashed as
      given, so the stored value keeps the inner white space: `"  Valid12!  "`
      stores `"Valid12!  _HASH"`. The fake hasher then rejects the very password it
      hashed, because the leading white space was trimmed from the stored hash. */
  lemma SurroundingWhiteSpaceExample()
    ensures Create("  Valid12!  ", FakeHasher()) == Ok(UserPasswordHash("Valid12!  _HASH"))
    ensures !Verify(Create("  Valid12!  ", FakeHasher()).value, "  Valid12!  ", FakeHasher())
  {
    PaddedPasswordTrims();
    ValidExampleAcceptable();
    PaddedHashTrims();
    PaddedShapes();
  }

  lemma PaddedShapes()
    ensures var p := "  Valid12!  ";
      && |p| == 12 && p[2..10] == "Valid12!" && !IsWhiteSpace(p[2]) && !IsWhiteSpace(p[9])
      && (forall k :: 0 <= k < 2 ==> IsWhiteSpace(p[k])) && (forall k :: 10 <= k < |p| ==> IsWhiteSpace(p[k]))
    ensures var h := "  Valid12!  " + "_HASH";
      && |h| == 17 && h[2..] == "Valid12!  _HASH" && !IsWhiteSpace(h[2]) && !IsWhiteSpace(h[16])
      && (forall k :: 0 <= k < 2 ==> IsWhiteSpace(h[k]))
    ensures "Valid12!  _HASH" != "  Valid12!  " + "_HASH"
  {
    var h := "  Valid12!  " + "_HASH";
    assert "Valid12!  _HASH"[0] != h[0];
  }

  lemma PaddedPasswordTrims()
    ensures Trim("  Valid12!  ") == "Valid12!"
  {
    PaddedShapes();
    TrimAt("  Valid12!  ", 2, 10);
  }

  lemma PaddedHashTrims()
    ensures Trim("  Valid12!  " + "_HASH") == "Valid12!  _HASH"
  {
    PaddedShapes();
    TrimAt("  Valid12!  " + "_HASH", 2, 17);
  }

  /** Without surrounding white space the fake hasher's round trip holds:
      `Create("Valid12!")` stores `"Valid12!_HASH"`, which verifies `Valid12!` and no
      other password. */
  lemma FakeHasherRoundTrip(other: string)
    ensures Create("Valid12!", FakeHasher()) == Ok(UserPasswordHash("Valid12!_HASH"))
    ensures Verify(Create("Valid12!", FakeHasher()).value, other, FakeHasher()) <==> other == "Valid12!"
  {
    ValidCreatesHash();
    SuffixInjective(other, "Valid12!", "_HASH");
  }

  /** `Create("Valid12!")` with the fake hasher stores `Valid12!_HASH`. */
  lemma ValidCreatesHash()
    ensures Create("Valid12!", FakeHasher()) == Ok(UserPasswordHash("Valid12!_HASH"))
    ensures "Valid12!" + "_HASH" == "Valid12!_HASH"
  {
    ValidShapes();
    ValidExampleAcceptable();
    TrimOfTrimmed("Valid12!");
    TrimOfTrimmed("Valid12!_HASH");
  }

  lemma ValidShapes()
    ensures "Valid12!" + "_HASH" == "Valid12!_HASH"
    ensures !IsWhiteSpace("Valid12!"[0]) && !IsWhiteSpace("Valid12!"[7])
    ensures !IsWhiteSpace("Valid12!_HASH"[0]) && !IsWhiteSpace("Valid12!_HASH"[12])
  {
  }
}

=== FILE: payments_linq.dfy ===
/** The Payments criteria compiler (`LinqBuilderByCriteria`): it builds one
    predicate per filter over a member access read by reflection, drops the filters
    it cannot build, folds the rest left with `AndAlso`, then orders, skips and
    takes.

    The expression tree is kept as data (`Predicate`, `Expr`); `Eval` gives it its
    meaning over a row. */
module PaymentsCriteria {
  import opened Wrappers
  import opened Text
  import opened Numbers
  import opened Reflection
  import opened Rows
  import opened Sequences
  import opened Sorting
  import opened StringValueObjects
  import opened ValueObjects
  import opened FilterOperators
  import opened Criterias
  import opened Conversions
  import opened Evaluation

  /** A member access expression: the declared names of the members it reads, in
      order from the entity, and the type it ends at. */
  datatype MemberAccess = MemberAccess(path: seq<string>, memberType: TypeDesc)

  /** `Expression.PropertyOrField`: the first public instance property whose name
      matches ignoring case, else the first such public field; no match throws. The
      members of a `TypeDesc` are its public instance members: the fallback to
      non-public members, and the `AmbiguousMatchException` for two names that differ
      only in case, are not part of this model. */
  function PropertyOrField(schema: Schema, t: TypeDesc, name: string): (r: Throws<Member>)
    ensures r.Ok? ==> r.value in Info(schema, t).members && EqualsIgnoreCase(r.value.name, name)
    ensures r.Ok? && r.value.kind == MemberKind.Field ==>
      forall j :: 0 <= j < |Info(schema, t).members| ==> !Named(Info(schema, t).members[j], name, {Property})
    ensures r.Thrown? <==>
      forall j :: 0 <= j < |Info(schema, t).members| ==> !Named(Info(schema, t).members[j], name, {Property, MemberKind.Field})
    ensures r.Thrown? ==> r.error == Argument("'" + name + "' is not a member of type '" + TypeName(t) + "'")
  {
    var members := Info(schema, t).members;
    match FirstNamed(members, name, {Property})
    case Some(p) => Ok(p)
    case None =>
      match FirstNamed(members, name, {MemberKind.Field})
      case Some(f) => Ok(f)
      case None =>
        assert forall j :: 0 <= j < |members| ==> !Named(members[j], name, {Property, MemberKind.Field}) by {
          forall j | 0 <= j < |members| ensures !Named(members[j], name, {Property, MemberKind.Field}) {
            assert !Named(members[j], name, {Property}) && !Named(members[j], name, {MemberKind.Field});
          }
        }
        Thrown(Argument("'" + name + "' is not a member of type '" + TypeName(t) + "'"))
  }

  /** The segments of a member path: split on `.`, empty entries removed, entries
      not trimmed. */
  function PathParts(path: string): seq<string> {
    RemoveEmpty(Split(path, '.'))
  }

  /** The access built from the first `n` segments. */
  function AccessPrefix(schema: Schema, root: TypeDesc, parts: seq<string>, n: nat): (r: Throws<MemberAccess>)
    requires n <= |parts|
    ensures r.Ok? ==> |r.value.path| == n
  {
    if n == 0 then Ok(MemberAccess([], root))
    else
      var before :- AccessPrefix(schema, root, parts, n - 1);
      AccessStep(schema, before, parts[n - 1])
  }

  /** One more segment: `Expression.PropertyOrField(current, part)`. */
  function AccessStep(schema: Schema, current: MemberAccess, part: string): (r: Throws<MemberAccess>)
    ensures r.Ok? ==> |r.value.path| == |current.path| + 1 && r.value.path[..|current.path|] == current.path
    ensures r.Ok? ==> EqualsIgnoreCase(r.value.path[|current.path|], part)
    ensures r.Thrown? <==> PropertyOrField(schema, current.memberType, part).Thrown?
  {
    var member :- PropertyOrField(schema, current.memberType, part);
    Ok(MemberAccess(current.path + [member.name], member.memberType))
  }

  /** Once a prefix of the segments fails, the whole access fails the same way. */
  lemma {:induction false} AccessFailurePersists(schema: Schema, root: TypeDesc, parts: seq<string>, n: nat, m: nat)
    requires n <= m <= |parts| && AccessPrefix(schema, root, parts, n).Thrown?
    ensures AccessPrefix(schema, root, parts, m) == AccessPrefix(schema, root, parts, n)
    decreases m
  {
    if m > n {
      AccessFailurePersists(schema, root, parts, n, m - 1);
    }
  }

  /** The access of one more segment is one more step from the access so far; when
      that step throws, the whole access throws the same way. */
  lemma AccessAdvance(schema: Schema, root: TypeDesc, parts: seq<string>, i: nat, current: MemberAccess, next: Throws<MemberAccess>)
    requires i < |parts| && AccessPrefix(schema, root, parts, i) == Ok(current)
    requires next == AccessStep(schema, current, parts[i])
    ensures AccessPrefix(schema, root, parts, i + 1) == next
    ensures next.Thrown? ==> AccessPrefix(schema, root, parts, |parts|) == next
  {
    if next.Thrown? {
      AccessFailurePersists(schema, root, parts, i + 1, |parts|);
    }
  }

  /** The loop of `BuildMemberAccess`: one `PropertyOrField` per segment, from the
      entity. */
  method AccessParts(schema: Schema, root: TypeDesc, parts: seq<string>) returns (r: Throws<MemberAccess>)
    ensures r == AccessPrefix(schema, root, parts, |parts|)
  {
    var current := MemberAccess([], root);
    for i := 0 to |parts|
      invariant AccessPrefix(schema, root, parts, i) == Ok(current)
    {
      var next := AccessStep(schema, current, parts[i]);
      AccessAdvance(schema, root, parts, i, current, next);
      if next.Thrown? {
        return next;
      }
      current := next.value;
    }
    r := Ok(current);
  }

  /** The specification of `BuildMemberAccess`: the segments of the path, read one
      after the other, with no value-object unwrapping. */
  function MemberAccessOf(schema: Schema, root: TypeDesc, path: string): (r: Throws<MemberAccess>)
    ensures r.Ok? ==> |r.value.path| == |PathParts(path)|
  {
    AccessPrefix(schema, root, PathParts(path), |PathParts(path)|)
  }

  /** `BuildMemberAccess`. */
  method BuildMemberAccess(schema: Schema, root: TypeDesc, path: string) returns (r: Throws<MemberAccess>)
    ensures r == MemberAccessOf(schema, root, path)
  {
    var parts := PathParts(path);
    r := AccessParts(schema, root, parts);
  }

  /** A `StringValueObject` instance as a row value: an object with its `Value`. */
  function WrapperValue(t: TypeDesc, w: StringValueObject): (v: Value)
    ensures Walk(v, [ValuePropertyName]) == Str(w.value)
  {
    var v := Object(TypeName(t), [Rows.Field(ValuePropertyName, Str(w.value))]);
    assert EqualsIgnoreCase(ValuePropertyName, ValuePropertyName) by {
      EqualsIgnoreCaseIsEquivalence(ValuePropertyName, ValuePropertyName, ValuePropertyName);
    }
    v
  }

  const ValuePropertyName: string := "Value"

  /** `Activator.CreateInstance(type, rawValue)` for the `StringValueObject`
      subclasses: the constructor's exception arrives wrapped in a
      `TargetInvocationException`, and a type without a public `(string)`
      constructor throws `MissingMethodException` before any constructor runs. */
  function CreateWrapper(typeName: string, kind: WrapperKind, rawValue: string): (r: Throws<StringValueObject>)
    ensures kind == PlainWrapper ==> r == Ok(Wrap(rawValue))
    ensures kind == NonPublicConstructor <==> r == Thrown(MissingMethod(typeName))
    ensures r.Ok? ==> r.value.value == Trim(rawValue)
    ensures r.Thrown? && kind != NonPublicConstructor ==> r.error.TargetInvocation?
  {
    match kind
    case NonPublicConstructor => Thrown(MissingMethod(typeName))
    case PlainWrapper => Ok(Wrap(rawValue))
    case EmailWrapper =>
      (match EmailAddress(rawValue)
       case Ok(w) => Ok(w)
       case Thrown(e) => Thrown(TargetInvocation(e)))
    case FullNameWrapper =>
      (match UserFullName(rawValue)
       case Ok(w) => Ok(w)
       case Thrown(e) => Thrown(TargetInvocation(e)))
  }

  /** `Convert.ChangeType(rawValue, type, InvariantCulture)`: the integer and boolean
      parsers the model describes, the library for every other type. */
  function ChangeType(rawValue: string, t: TypeDesc, foreign: Foreign): (r: Throws<Value>)
    ensures t.IntegerType? ==> (r.Ok? <==> ParseWidth(rawValue, t.width).Ok?)
    ensures t == BoolType ==> (r.Ok? <==> BoolParse(rawValue).Ok?)
  {
    match t
    case IntegerType(width) =>
      var n :- ParseWidth(rawValue, width);
      Ok(Number(n))
    case BoolType =>
      var b :- BoolParse(rawValue);
      Ok(Bool(b))
    case _ => foreign.parse(t, rawValue)
  }

  /** `ConvertToType`: the filter text as a constant of the target type, trying in
      order text, a `StringValueObject` subclass, a static `From(string)`, an enum,
      `Guid`, `DateTimeOffset`, and last `Convert.ChangeType`. `None` is a null
      result, which only `From` can give. */
  function ConvertToType(schema: Schema, rawValue: string, targetType: TypeDesc, foreign: Foreign): (r: Throws<Option<Value>>)
    ensures NonNullable(targetType) == StringType ==> r == Ok(Some(Str(rawValue)))
    ensures NonNullable(targetType) != StringType && Info(schema, NonNullable(targetType)).stringValueObject.Some? ==>
      (r.Ok? <==> CreateWrapper(TypeName(NonNullable(targetType)), Info(schema, NonNullable(targetType)).stringValueObject.value, rawValue).Ok?)
      && (r.Ok? ==> r.value.Some? && Walk(r.value.value, [ValuePropertyName]) == Str(Trim(rawValue)))
    ensures r.Ok? && r.value.None? ==> Info(schema, NonNullable(targetType)).hasStaticFrom
    ensures (NonNullable(targetType) != StringType
      && Info(schema, NonNullable(targetType)).stringValueObject == Some(NonPublicConstructor)) ==>
      r == Thrown(MissingMethod(TypeName(NonNullable(targetType))))
    ensures (NonNullable(targetType).EnumType? && !Info(schema, NonNullable(targetType)).hasStaticFrom
      && Info(schema, NonNullable(targetType)).stringValueObject.None?) ==>
      (r.Ok? <==> EnumParse(NonNullable(targetType).names, rawValue).Ok?)
  {
    var t := NonNullable(targetType);
    if t == StringType then Ok(Some(Str(rawValue)))
    else if Info(schema, t).stringValueObject.Some? then
      var w :- CreateWrapper(TypeName(t), Info(schema, t).stringValueObject.value, rawValue);
      Ok(Some(WrapperValue(t, w)))
    else if Info(schema, t).hasStaticFrom then foreign.invokeFrom(t, rawValue)
    else if t.EnumType? then
      var ordinal :- EnumParse(t.names, rawValue);
      Ok(Some(EnumValue(ordinal)))
    else if t == GuidType || t == DateTimeOffsetType then
      var v :- foreign.parse(t, rawValue);
      Ok(Some(v))
    else
      var v :- ChangeType(rawValue, t, foreign);
      Ok(Some(v))
  }

  /** The types that define the ordering operators `>`, `>=`, `<`, `<=`. */
  predicate DefinesOrdering(t: TypeDesc) {
    t.IntegerType? || t == DecimalType || t == DoubleType || t == SingleType
    || t == DateTimeType || t == DateTimeOffsetType || t == GuidType
  }

  /** The name of the expression node a comparison operator builds. */
  function NodeName(op: FilterOperator): string {
    match op
    case EQUAL => "Equal"
    case NOTEQUAL => "NotEqual"
    case GT => "GreaterThan"
    case GTE => "GreaterThanOrEqual"
    case LT => "LessThan"
    case LTE => "LessThanOrEqual"
    case _ => ""
  }

  predicate IsComparison(op: FilterOperator) {
    op != CONTAINS && op != NOTCONTAINS
  }

  /** How the text a `Contains` call reads is taken from the member: the member
      itself, its `Value` property, or its `ToString()`. */
  datatype Accessor = Direct | ValueProp | ToStringCall

  /** One built filter. */
  datatype Predicate =
    | Comparison(path: seq<string>, op: FilterOperator, constant: Value)
    | ContainsCall(path: seq<string>, accessor: Accessor, text: string, positive: bool)

  /** `BuildComparison`: the converted constant compared with the member (converted
      to the target type); a null constant drops the filter, and an ordering
      operator on a type that does not define it throws. */
  function BuildComparison(schema: Schema, member: MemberAccess, rawValue: string, targetType: TypeDesc, op: FilterOperator, foreign: Foreign)
    : (r: Throws<Option<Predicate>>)
    requires IsComparison(op)
    ensures r.Ok? && r.value.Some? ==>
      ConvertToType(schema, rawValue, targetType, foreign).Ok? && ConvertToType(schema, rawValue, targetType, foreign).value.Some?
      && r.value.value == Comparison(member.path, op, ConvertToType(schema, rawValue, targetType, foreign).value.value)
    ensures ConvertToType(schema, rawValue, targetType, foreign) == Ok(None) ==> r == Ok(None)
    ensures ConvertToType(schema, rawValue, targetType, foreign).Thrown? ==> r == Thrown(ConvertToType(schema, rawValue, targetType, foreign).error)
    ensures r.Thrown? && ConvertToType(schema, rawValue, targetType, foreign).Ok? ==>
      op != EQUAL && op != NOTEQUAL && !DefinesOrdering(targetType)
  {
    var converted :- ConvertToType(schema, rawValue, targetType, foreign);
    if converted.None? then Ok(None)
    else if op != EQUAL && op != NOTEQUAL && !DefinesOrdering(targetType) then
      Thrown(InvalidOperation("The binary operator " + NodeName(op) + " is not defined for the types '"
        + TypeName(targetType) + "' and '" + TypeName(targetType) + "'."))
    else Ok(Some(Comparison(member.path, op, converted.value)))
  }

  /** `GetStringAccessor`: the member when it is text, else its public `Value`
      property when that is text, else its `ToString()`, which an interface type does
      not expose. */
  function StringAccessor(schema: Schema, t: TypeDesc): (r: Option<Accessor>)
    ensures t == StringType <==> r == Some(Direct)
    ensures r == Some(ValueProp) <==>
      t != StringType && ValueProperty(schema, t).Some? && ValueProperty(schema, t).value.memberType == StringType
    ensures r.None? <==>
      t != StringType && !(ValueProperty(schema, t).Some? && ValueProperty(schema, t).value.memberType == StringType)
      && Info(schema, t).isInterface
  {
    if t == StringType then Some(Direct)
    else if ValueProperty(schema, t).Some? && ValueProperty(schema, t).value.memberType == StringType then Some(ValueProp)
    else if Info(schema, t).isInterface then None
    else Some(ToStringCall)
  }

  /** `BuildContains`: `accessor.Contains(rawValue)`, negated for `NOT_CONTAINS`; no
      accessor drops the filter. */
  function BuildContains(schema: Schema, member: MemberAccess, rawValue: string, positive: bool): (r: Option<Predicate>)
    ensures r.None? <==> StringAccessor(schema, member.memberType).None?
    ensures r.Some? ==> r.value == ContainsCall(member.path, StringAccessor(schema, member.memberType).value, rawValue, positive)
  {
    match StringAccessor(schema, member.memberType)
    case None => None
    case Some(accessor) => Some(ContainsCall(member.path, accessor, rawValue, positive))
  }

  /** The specification of `BuildFilterExpression`: the member access of the field,
      then a comparison against the target type (the member type without
      `Nullable`) or a `Contains` call. */
  function FilterExpression(schema: Schema, foreign: Foreign, root: TypeDesc, filter: Filter): (r: Throws<Option<Predicate>>)
    ensures MemberAccessOf(schema, root, filter.field.value).Thrown? ==> r == Thrown(MemberAccessOf(schema, root, filter.field.value).error)
  {
    var member :- MemberAccessOf(schema, root, filter.field.value);
    BuildFor(schema, foreign, member, filter)
  }

  /** The predicate of one filter over an access already built. */
  function BuildFor(schema: Schema, foreign: Foreign, member: MemberAccess, filter: Filter): (r: Throws<Option<Predicate>>)
    ensures filter.op == CONTAINS ==> r == Ok(BuildContains(schema, member, filter.value.value, true))
    ensures filter.op == NOTCONTAINS ==> r == Ok(BuildContains(schema, member, filter.value.value, false))
    ensures IsComparison(filter.op) ==> r == BuildComparison(schema, member, filter.value.value, NonNullable(member.memberType), filter.op, foreign)
  {
    var targetType := NonNullable(member.memberType);
    match filter.op
    case CONTAINS => Ok(BuildContains(schema, member, filter.value.value, true))
    case NOTCONTAINS => Ok(BuildContains(schema, member, filter.value.value, false))
    case _ => BuildComparison(schema, member, filter.value.value, targetType, filter.op, foreign)
  }

  /** `BuildFilterExpression`. */
  method BuildFilterExpression(schema: Schema, foreign: Foreign, root: TypeDesc, filter: Filter) returns (r: Throws<Option<Predicate>>)
    ensures r == FilterExpression(schema, foreign, root, filter)
  {
    var member := BuildMemberAccess(schema, root, filter.field.value);
    if member.Thrown? {
      return Thrown(member.error);
    }
    r := BuildFor(schema, foreign, member.value, filter);
  }

  /** A filter predicate tree: one predicate, or two joined by `AndAlso`. */
  datatype Expr = Leaf(test: Predicate) | AndAlso(left: Expr, right: Expr)

  /** The filters' predicates, in filter order, with the dropped filters left out;
      the first exception is thrown. */
  function KeptPredicates(build: Filter -> Throws<Option<Predicate>>, filters: seq<Filter>): (r: Throws<seq<Predicate>>)
    ensures r.Ok? ==> |r.value| <= |filters|
  {
    if filters == [] then Ok([])
    else
      var before :- KeptPredicates(build, filters[..|filters| - 1]);
      var p :- build(filters[|filters| - 1]);
      Ok(if p.Some? then before + [p.value] else before)
  }

  /** The left fold of the predicates with `AndAlso`; none without predicates. */
  function FoldAnd(ps: seq<Predicate>): (r: Option<Expr>)
    ensures r.None? <==> ps == []
  {
    if ps == [] then None
    else
      match FoldAnd(ps[..|ps| - 1])
      case None => Some(Leaf(ps[|ps| - 1]))
      case Some(acc) => Some(AndAlso(acc, Leaf(ps[|ps| - 1])))
  }

  /** The builder `Where` uses for entities of type `root`. */
  function BuilderFor(schema: Schema, foreign: Foreign, root: TypeDesc): Filter -> Throws<Option<Predicate>> {
    (filter: Filter) => FilterExpression(schema, foreign, root, filter)
  }

  /** The specification of `Where`: nothing without filters; otherwise the fold of
      the kept predicates, nothing when all were dropped. */
  function WhereExpr(build: Filter -> Throws<Option<Predicate>>, criteria: Criteria): (r: Throws<Option<Expr>>)
    ensures !HasFilters(criteria) ==> r == Ok(None)
  {
    if !HasFilters(criteria) then Ok(None)
    else
      var kept :- KeptPredicates(build, criteria.filters.value.values);
      Ok(FoldAnd(kept))
  }

  /** Once a prefix of the filters throws, the whole list throws the same error. */
  lemma {:induction false} KeptFailurePersists(build: Filter -> Throws<Option<Predicate>>, filters: seq<Filter>, n: nat)
    requires n <= |filters| && KeptPredicates(build, filters[..n]).Thrown?
    ensures KeptPredicates(build, filters) == KeptPredicates(build, filters[..n])
    decreases |filters| - n
  {
    if n < |filters| {
      assert filters[..n + 1][..n] == filters[..n];
      KeptFailurePersists(build, filters, n + 1);
    } else {
      assert filters[..n] == filters;
    }
  }

  /** One more filter: its predicate is appended when it is built, the list throws
      when it throws. */
  lemma KeptStep(build: Filter -> Throws<Option<Predicate>>, filters: seq<Filter>, i: nat, built: Throws<Option<Predicate>>)
    requires i < |filters| && build(filters[i]) == built && KeptPredicates(build, filters[..i]).Ok?
    ensures built.Thrown? ==> KeptPredicates(build, filters[..i + 1]) == Thrown(built.error)
    ensures built.Ok? && built.value.None? ==> KeptPredicates(build, filters[..i + 1]) == KeptPredicates(build, filters[..i])
    ensures built.Ok? && built.value.Some? ==>
      KeptPredicates(build, filters[..i + 1]) == Ok(KeptPredicates(build, filters[..i]).value + [built.value.value])
  {
    assert filters[..i + 1][..i] == filters[..i];
  }

  /** Folding one more predicate joins it on the right. */
  lemma FoldStep(ps: seq<Predicate>, p: Predicate)
    ensures FoldAnd(ps + [p]) == Some(if ps == [] then Leaf(p) else AndAlso(FoldAnd(ps).value, Leaf(p)))
  {
    assert (ps + [p])[..|ps|] == ps;
  }

  lemma BuilderApplies(schema: Schema, foreign: Foreign, root: TypeDesc, filter: Filter, built: Throws<Option<Predicate>>)
    requires built == FilterExpression(schema, foreign, root, filter)
    ensures BuilderFor(schema, foreign, root)(filter) == built
  {
  }

  /** `Where`: builds each filter's expression, skips the null ones and folds the
      others into `accumulated`. */
  method Where(schema: Schema, foreign: Foreign, root: TypeDesc, criteria: Criteria) returns (r: Throws<Option<Expr>>)
    ensures r == WhereExpr(BuilderFor(schema, foreign, root), criteria)
  {
    if !HasFilters(criteria) {
      return Ok(None);
    }
    ghost var build := BuilderFor(schema, foreign, root);
    var filters := criteria.filters.value.values;
    var accumulated: Option<Expr> := None;
    ghost var kept: seq<Predicate> := [];
    for i := 0 to |filters|
      invariant KeptPredicates(build, filters[..i]) == Ok(kept)
      invariant accumulated == FoldAnd(kept)
    {
      var filterExpression := BuildFilterExpression(schema, foreign, root, filters[i]);
      BuilderApplies(schema, foreign, root, filters[i], filterExpression);
      KeptStep(build, filters, i, filterExpression);
      if filterExpression.Thrown? {
        KeptFailurePersists(build, filters, i + 1);
        return Thrown(filterExpression.error);
      }
      if filterExpression.value.None? {
        continue;
      }
      FoldStep(kept, filterExpression.value.value);
      accumulated := if accumulated.None? then Some(Leaf(filterExpression.value.value))
        else Some(AndAlso(accumulated.value, Leaf(filterExpression.value.value)));
      kept := kept + [filterExpression.value.value];
    }
    assert filters[..|filters|] == filters;
    r := Ok(accumulated);
  }

  /** The text a `Contains` call reads from a member value. */
  function Accessed(foreign: Foreign, accessor: Accessor, v: Value): Value {
    match accessor
    case Direct => v
    case ValueProp => Walk(v, [ValuePropertyName])
    case ToStringCall =>
      match foreign.render(v)
      case Some(s) => Str(s)
      case None => Null
  }

  /** A row satisfies one predicate. */
  predicate PredicateHolds(foreign: Foreign, p: Predicate, row: Value) {
    match p
    case Comparison(path, op, constant) => Holds(op, Walk(row, path), constant)
    case ContainsCall(path, accessor, text, positive) =>
      Holds(if positive then CONTAINS else NOTCONTAINS, Accessed(foreign, accessor, Walk(row, path)), Str(text))
  }

  /** A row satisfies a predicate tree. */
  predicate Eval(foreign: Foreign, e: Expr, row: Value) {
    match e
    case Leaf(p) => PredicateHolds(foreign, p, row)
    case AndAlso(l, r) => Eval(foreign, l, row) && Eval(foreign, r, row)
  }

  /** The rows `source.Where(lambda)` keeps, in source order. */
  function ApplyWhere(foreign: Foreign, rows: seq<Value>, e: Option<Expr>): (r: seq<Value>)
    ensures e.None? ==> r == rows
  {
    match e
    case None => rows
    case Some(x) => Sequences.Where(rows, row => Eval(foreign, x, row))
  }

  /** The specification of `OrderBy`: without an order the rows stay; otherwise the
      member access is built, and the rows are sorted stably by that member,
      ascending or descending, or left as they are for a type value with no member
      name. */
  function OrderRows(schema: Schema, root: TypeDesc, rows: seq<Value>, criteria: Criteria): (r: Throws<seq<Value>>)
    ensures !HasOrder(criteria) ==> r == Ok(rows)
    ensures r.Ok? ==> multiset(r.value) == multiset(rows)
    ensures HasOrder(criteria) ==> (r.Ok? <==> MemberAccessOf(schema, root, criteria.order.value.orderBy.value).Ok?)
    ensures HasOrder(criteria) && r.Ok? && criteria.order.value.orderType in {ASC, DESC} ==>
      SortedBy(r.value, KeyAt(MemberAccessOf(schema, root, criteria.order.value.orderBy.value).value.path),
               criteria.order.value.orderType == DESC)
    ensures HasOrder(criteria) && r.Ok? && criteria.order.value.orderType.Unnamed? ==> r.value == rows
  {
    if !HasOrder(criteria) then Ok(rows)
    else
      var access :- MemberAccessOf(schema, root, criteria.order.value.orderBy.value);
      var key := KeyAt(access.path);
      match criteria.order.value.orderType
      case ASC => SortBySorted(rows, key, false); Ok(SortBy(rows, key, false))
      case DESC => SortBySorted(rows, key, true); Ok(SortBy(rows, key, true))
      case NONE => Ok(rows)
      case Unnamed(_) => Ok(rows)
  }

  /** `OrderBy`. */
  method OrderBy(schema: Schema, root: TypeDesc, rows: seq<Value>, criteria: Criteria) returns (r: Throws<seq<Value>>)
    ensures r == OrderRows(schema, root, rows, criteria)
  {
    if !HasOrder(criteria) {
      return Ok(rows);
    }
    var keyAccess := BuildMemberAccess(schema, root, criteria.order.value.orderBy.value);
    if keyAccess.Thrown? {
      return Thrown(keyAccess.error);
    }
    var key := KeyAt(keyAccess.value.path);
    match criteria.order.value.orderType {
      case ASC => r := Ok(SortBy(rows, key, false));
      case DESC => r := Ok(SortBy(rows, key, true));
      case NONE => r := Ok(rows);
      case Unnamed(_) => r := Ok(rows);
    }
  }

  /** `Limit`: no limit, or 0, leaves the rows; otherwise `Take`. */
  function LimitRows(rows: seq<Value>, criteria: Criteria): (r: seq<Value>)
    ensures criteria.limit.None? || criteria.limit == Some(0) ==> r == rows
    ensures criteria.limit.Some? && criteria.limit.value > 0 ==> |r| <= criteria.limit.value
  {
    if criteria.limit.None? || criteria.limit.value == 0 then rows else Take(rows, criteria.limit.value)
  }

  /** `Offset`: no offset, or 0, leaves the rows; otherwise `Skip`. */
  function OffsetRows(rows: seq<Value>, criteria: Criteria): (r: seq<Value>)
    ensures criteria.offset.None? || criteria.offset == Some(0) ==> r == rows
  {
    if criteria.offset.None? || criteria.offset.value == 0 then rows else Skip(rows, criteria.offset.value)
  }

  /** The specification of `SearchByCriteria`: a null set or null criteria is
      rejected first; then `Where`, `OrderBy`, `Offset`, `Limit`. */
  function Search(schema: Schema, foreign: Foreign, root: TypeDesc, dbSet: Option<seq<Value>>, criteria: Option<Criteria>)
    : (r: Throws<seq<Value>>)
    ensures dbSet.None? ==> r == Thrown(ArgumentNull("dbSet"))
    ensures dbSet.Some? && criteria.None? ==> r == Thrown(ArgumentNull("criteria"))
  {
    if dbSet.None? then Thrown(ArgumentNull("dbSet"))
    else if criteria.None? then Thrown(ArgumentNull("criteria"))
    else
      var c := criteria.value;
      var e :- WhereExpr(BuilderFor(schema, foreign, root), c);
      var ordered :- OrderRows(schema, root, ApplyWhere(foreign, dbSet.value, e), c);
      Ok(LimitRows(OffsetRows(ordered, c), c))
  }

  /** `SearchByCriteria`. */
  method SearchByCriteria(schema: Schema, foreign: Foreign, root: TypeDesc, dbSet: Option<seq<Value>>, criteria: Option<Criteria>)
    returns (r: Throws<seq<Value>>)
    ensures r == Search(schema, foreign, root, dbSet, criteria)
  {
    if dbSet.None? {
      return Thrown(ArgumentNull("dbSet"));
    }
    if criteria.None? {
      return Thrown(ArgumentNull("criteria"));
    }
    var e :- Where(schema, foreign, root, criteria.value);
    var filtered := ApplyWhere(foreign, dbSet.value, e);
    var ordered :- OrderBy(schema, root, filtered, criteria.value);
    r := Ok(LimitRows(OffsetRows(ordered, criteria.value), criteria.value));
  }
}

=== FILE: payments_properties.dfy ===
/** Properties of the Payments criteria compiler: what a built filter expression
    means for a row, when filters are dropped, and how the search result relates to
    the entity set. */
module PaymentsCriteriaProperties {
  import opened Wrappers
  import opened Text
  import opened Reflection
  import opened Rows
  import opened Sequences
  import opened FilterOperators
  import opened Criterias
  import opened Conversions
  import opened Evaluation
  import opened PaymentsCriteria

  /** Every segment of a built member access names, ignoring case, the segment of
      the path at the same position. */
  lemma {:induction false} AccessFollowsPath(schema: Schema, root: TypeDesc, parts: seq<string>, n: nat)
    requires n <= |parts| && AccessPrefix(schema, root, parts, n).Ok?
    ensures forall k :: 0 <= k < n ==> EqualsIgnoreCase(AccessPrefix(schema, root, parts, n).value.path[k], parts[k])
  {
    if n > 0 {
      var before := AccessPrefix(schema, root, parts, n - 1).value;
      AccessFollowsPath(schema, root, parts, n - 1);
      var after := AccessPrefix(schema, root, parts, n).value;
      assert after == AccessStep(schema, before, parts[n - 1]).value;
      forall k | 0 <= k < n ensures EqualsIgnoreCase(after.path[k], parts[k]) {
        if k < n - 1 {
          assert after.path[k] == after.path[..n - 1][k];
        }
      }
    }
  }

  /** A segment that names no property or field of the type the previous segments
      end at makes the whole access throw `ArgumentException`, naming the segment
      and that type. */
  lemma AccessFailsAtUnknownSegment(schema: Schema, root: TypeDesc, parts: seq<string>, n: nat, t: TypeDesc)
    requires 0 < n <= |parts| && AccessPrefix(schema, root, parts, n - 1).Ok?
    requires AccessPrefix(schema, root, parts, n - 1).value.memberType == t
    requires forall j :: 0 <= j < |Info(schema, t).members| ==> !Named(Info(schema, t).members[j], parts[n - 1], {Property, MemberKind.Field})
    ensures AccessPrefix(schema, root, parts, |parts|) == Thrown(Argument("'" + parts[n - 1] + "' is not a member of type '" + TypeName(t) + "'"))
  {
    assert PropertyOrField(schema, t, parts[n - 1]).Thrown?;
    AccessFailurePersists(schema, root, parts, n, |parts|);
  }

  /** The rows of a predicate list: all of its predicates hold. */
  ghost predicate AllHold(foreign: Foreign, ps: seq<Predicate>, row: Value) {
    forall k :: 0 <= k < |ps| ==> PredicateHolds(foreign, ps[k], row)
  }

  /** The left fold with `AndAlso` holds exactly when every predicate holds. */
  lemma {:induction false} FoldAndMeaning(foreign: Foreign, ps: seq<Predicate>, row: Value)
    requires ps != []
    ensures Eval(foreign, FoldAnd(ps).value, row) <==> AllHold(foreign, ps, row)
  {
    var init := ps[..|ps| - 1];
    if init != [] {
      var p := ps[|ps| - 1];
      FoldAndMeaning(foreign, init, row);
      assert FoldAnd(ps) == Some(AndAlso(FoldAnd(init).value, Leaf(p)));
      assert AllHold(foreign, ps, row) <==> AllHold(foreign, init, row) && PredicateHolds(foreign, p, row) by {
        AllHoldSnoc(foreign, init, p, row);
        assert init + [p] == ps;
      }
    }
  }

  /** One more predicate at the end holds exactly when it and all the earlier ones
      hold. */
  lemma AllHoldSnoc(foreign: Foreign, ps: seq<Predicate>, p: Predicate, row: Value)
    ensures AllHold(foreign, ps + [p], row) <==> AllHold(foreign, ps, row) && PredicateHolds(foreign, p, row)
  {
    var qs := ps + [p];
    if AllHold(foreign, ps, row) && PredicateHolds(foreign, p, row) {
      forall k | 0 <= k < |qs| ensures PredicateHolds(foreign, qs[k], row) {
        if k < |ps| { assert qs[k] == ps[k]; }
      }
    }
    if AllHold(foreign, qs, row) {
      assert PredicateHolds(foreign, qs[|ps|], row);
      forall k | 0 <= k < |ps| ensures PredicateHolds(foreign, ps[k], row) {
        assert qs[k] == ps[k];
      }
    }
  }

  /** A row passes a list of filters: every filter builds, and every filter that
      builds a predicate (rather than being dropped) holds of the row. */
  ghost predicate Passes(foreign: Foreign, build: Filter -> Throws<Option<Predicate>>, filters: seq<Filter>, row: Value) {
    forall j :: 0 <= j < |filters| ==>
      build(filters[j]).Ok? && (build(filters[j]).value.Some? ==> PredicateHolds(foreign, build(filters[j]).value.value, row))
  }

  /** The kept predicates exist exactly when no filter throws. */
  lemma {:induction false} KeptBuildsAll(build: Filter -> Throws<Option<Predicate>>, filters: seq<Filter>)
    ensures KeptPredicates(build, filters).Ok? <==> forall j :: 0 <= j < |filters| ==> build(filters[j]).Ok?
  {
    if filters != [] {
      var init := filters[..|filters| - 1];
      KeptBuildsAll(build, init);
      if forall j :: 0 <= j < |filters| ==> build(filters[j]).Ok? {
        assert forall j :: 0 <= j < |init| ==> init[j] == filters[j];
      }
      if KeptPredicates(build, filters).Ok? {
        forall j | 0 <= j < |filters| ensures build(filters[j]).Ok? {
          if j < |init| { assert init[j] == filters[j]; }
        }
      }
    }
  }

  /** All the kept predicates hold exactly when the row passes every filter. */
  lemma {:induction false} KeptMeaning(foreign: Foreign, build: Filter -> Throws<Option<Predicate>>, filters: seq<Filter>, row: Value)
    requires KeptPredicates(build, filters).Ok?
    ensures AllHold(foreign, KeptPredicates(build, filters).value, row) <==> Passes(foreign, build, filters, row)
  {
    if filters != [] {
      var init := filters[..|filters| - 1];
      var last := filters[|filters| - 1];
      var before := KeptPredicates(build, init).value;
      KeptMeaning(foreign, build, init, row);
      KeptBuildsAll(build, filters);
      PassesSnoc(foreign, build, filters, row);
      if build(last).value.Some? {
        AllHoldSnoc(foreign, before, build(last).value.value, row);
      }
    }
  }

  /** Passing one more filter: passing the earlier ones, and the new one when it
      builds a predicate. */
  lemma PassesSnoc(foreign: Foreign, build: Filter -> Throws<Option<Predicate>>, filters: seq<Filter>, row: Value)
    requires filters != [] && build(filters[|filters| - 1]).Ok?
    ensures var last := build(filters[|filters| - 1]).value;
      Passes(foreign, build, filters, row) <==>
        (Passes(foreign, build, filters[..|filters| - 1], row) && (last.Some? ==> PredicateHolds(foreign, last.value, row)))
  {
    var init := filters[..|filters| - 1];
    assert forall j :: 0 <= j < |init| ==> init[j] == filters[j];
  }

  /** The filters of a criteria, none when it has none. */
  function FiltersOf(criteria: Criteria): (r: seq<Filter>)
    ensures HasFilters(criteria) ==> r == criteria.filters.value.values
  {
    if HasFilters(criteria) then criteria.filters.value.values else []
  }

  /** `Where` keeps a row exactly when it passes every filter; when a filter
      throws, `Where` throws. */
  lemma WhereMeaning(foreign: Foreign, build: Filter -> Throws<Option<Predicate>>, criteria: Criteria, row: Value)
    ensures WhereExpr(build, criteria).Ok? <==> forall j :: 0 <= j < |FiltersOf(criteria)| ==> build(FiltersOf(criteria)[j]).Ok?
    ensures WhereExpr(build, criteria).Ok? ==>
      (WhereExpr(build, criteria).value.None? || Eval(foreign, WhereExpr(build, criteria).value.value, row))
      == Passes(foreign, build, FiltersOf(criteria), row)
  {
    var filters := FiltersOf(criteria);
    KeptBuildsAll(build, filters);
    if HasFilters(criteria) && KeptPredicates(build, filters).Ok? {
      var kept := KeptPredicates(build, filters).value;
      KeptMeaning(foreign, build, filters, row);
      if kept != [] {
        FoldAndMeaning(foreign, kept, row);
      }
    }
  }

  /** Filters that all build but are all dropped (each a `null` expression) keep
      every row. */
  lemma {:induction false} AllDroppedKeepsNothingOut(build: Filter -> Throws<Option<Predicate>>, filters: seq<Filter>)
    requires forall j :: 0 <= j < |filters| ==> build(filters[j]) == Ok(None)
    ensures KeptPredicates(build, filters) == Ok([])
  {
    if filters != [] {
      var init := filters[..|filters| - 1];
      assert forall j :: 0 <= j < |init| ==> init[j] == filters[j];
      AllDroppedKeepsNothingOut(build, init);
    }
  }

  /** When every filter is dropped, `Where` returns the source unfiltered. */
  lemma AllDroppedWhere(build: Filter -> Throws<Option<Predicate>>, criteria: Criteria)
    requires forall j :: 0 <= j < |FiltersOf(criteria)| ==> build(FiltersOf(criteria)[j]) == Ok(None)
    ensures WhereExpr(build, criteria) == Ok(None)
  {
    AllDroppedKeepsNothingOut(build, FiltersOf(criteria));
  }

  /** A `CONTAINS` filter on a text member holds of a row exactly when the member's
      text contains the filter value; `NOT_CONTAINS` exactly when it does not. */
  lemma ContainsOnText(schema: Schema, foreign: Foreign, member: MemberAccess, filter: Filter, row: Value)
    requires member.memberType == StringType && (filter.op == CONTAINS || filter.op == NOTCONTAINS)
    ensures BuildFor(schema, foreign, member, filter).Ok? && BuildFor(schema, foreign, member, filter).value.Some?
    ensures PredicateHolds(foreign, BuildFor(schema, foreign, member, filter).value.value, row)
      <==> (ContainsText(Walk(row, member.path), Str(filter.value.value)) <==> filter.op == CONTAINS)
  {
  }

  /** An ordering filter on a member type that has no ordering operator throws
      instead of being dropped, once its value converts. */
  lemma OrderingNeedsOperator(schema: Schema, foreign: Foreign, member: MemberAccess, filter: Filter)
    requires filter.op in {GT, GTE, LT, LTE} && !DefinesOrdering(NonNullable(member.memberType))
    requires ConvertToType(schema, filter.value.value, NonNullable(member.memberType), foreign).Ok?
    requires ConvertToType(schema, filter.value.value, NonNullable(member.memberType), foreign).value.Some?
    ensures BuildFor(schema, foreign, member, filter).Thrown?
    ensures BuildFor(schema, foreign, member, filter).error.InvalidOperation?
  {
  }

  /** A comparison filter on a member whose type is a `StringValueObject` without a
      public `(string)` constructor (a `Uuid` id, a password hash) throws
      `MissingMethodException`, whatever the filter text. */
  lemma NonPublicWrapperThrows(schema: Schema, foreign: Foreign, member: MemberAccess, filter: Filter)
    requires IsComparison(filter.op) && member.memberType.ClassType?
    requires Info(schema, member.memberType).stringValueObject == Some(NonPublicConstructor)
    ensures BuildFor(schema, foreign, member, filter) == Thrown(MissingMethod(TypeName(member.memberType)))
  {
  }

  /** The search result is the page of the filtered and ordered rows that starts at
      the offset (a negative offset counts as none): row `k` of the result is row
      `offset + k` of the ordered rows, and there are at most `limit` of them when
      the limit is positive. */
  lemma SearchWindow(schema: Schema, foreign: Foreign, root: TypeDesc, rows: seq<Value>, criteria: Criteria)
    requires Search(schema, foreign, root, Some(rows), Some(criteria)).Ok?
    ensures var e := WhereExpr(BuilderFor(schema, foreign, root), criteria).value;
      var ordered := OrderRows(schema, root, ApplyWhere(foreign, rows, e), criteria).value;
      var start := if criteria.offset.None? || criteria.offset.value < 0 then 0 else criteria.offset.value;
      var r := Search(schema, foreign, root, Some(rows), Some(criteria)).value;
      (criteria.limit.Some? && criteria.limit.value > 0 ==> |r| <= criteria.limit.value)
      && IsWindowOf(r, ordered, start)
  {
    var e := WhereExpr(BuilderFor(schema, foreign, root), criteria).value;
    var ordered := OrderRows(schema, root, ApplyWhere(foreign, rows, e), criteria).value;
    var start := if criteria.offset.None? || criteria.offset.value < 0 then 0 else criteria.offset.value;
    var limit := if criteria.limit.None? || criteria.limit.value == 0 then |ordered| else if criteria.limit.value < 0 then 0 else criteria.limit.value;
    SearchIsPage(schema, foreign, root, rows, criteria, ordered, start, limit);
    var r := Search(schema, foreign, root, Some(rows), Some(criteria)).value;
    assert r == Take(Skip(ordered, start), limit);
    PageWindow(ordered, start, limit, r);
    assert criteria.limit.Some? && criteria.limit.value > 0 ==> limit == criteria.limit.value;
  }

  lemma SearchIsPage(schema: Schema, foreign: Foreign, root: TypeDesc, rows: seq<Value>, criteria: Criteria,
                     ordered: seq<Value>, start: nat, limit: nat)
    requires Search(schema, foreign, root, Some(rows), Some(criteria)).Ok?
    requires ordered == OrderRows(schema, root, ApplyWhere(foreign, rows, WhereExpr(BuilderFor(schema, foreign, root), criteria).value), criteria).value
    requires start == if criteria.offset.None? || criteria.offset.value < 0 then 0 else criteria.offset.value
    requires limit == if criteria.limit.None? || criteria.limit.value == 0 then |ordered| else if criteria.limit.value < 0 then 0 else criteria.limit.value
    ensures Search(schema, foreign, root, Some(rows), Some(criteria)).value == Take(Skip(ordered, start), limit)
  {
    var skipped := OffsetRows(ordered, criteria);
    assert skipped == Skip(ordered, start);
  }

  /** Every row of the search result is a row of the entity set that passes every
      filter. */
  lemma SearchResultRows(schema: Schema, foreign: Foreign, root: TypeDesc, rows: seq<Value>, criteria: Criteria)
    requires Search(schema, foreign, root, Some(rows), Some(criteria)).Ok?
    ensures var r := Search(schema, foreign, root, Some(rows), Some(criteria)).value;
      forall k :: 0 <= k < |r| ==> r[k] in rows && Passes(foreign, BuilderFor(schema, foreign, root), FiltersOf(criteria), r[k])
  {
    var build := BuilderFor(schema, foreign, root);
    var e := WhereExpr(build, criteria).value;
    var filtered := ApplyWhere(foreign, rows, e);
    var ordered := OrderRows(schema, root, filtered, criteria).value;
    var skipped := OffsetRows(ordered, criteria);
    var r := Search(schema, foreign, root, Some(rows), Some(criteria)).value;
    assert r == LimitRows(skipped, criteria);
    forall k | 0 <= k < |r|
      ensures r[k] in rows && Passes(foreign, build, FiltersOf(criteria), r[k])
    {
      assert r[k] in skipped;
      assert r[k] in ordered;
      assert r[k] in multiset(ordered);
      assert r[k] in filtered;
      WhereMeaning(foreign, build, criteria, r[k]);
    }
  }

  /** Without an order the search keeps the rows in the order the entity set yields
      them. */
  lemma SearchKeepsOrderWithoutSorting(schema: Schema, foreign: Foreign, root: TypeDesc, rows: seq<Value>, criteria: Criteria)
    requires Search(schema, foreign, root, Some(rows), Some(criteria)).Ok?
    requires !HasOrder(criteria)
    ensures IsSubsequence(Search(schema, foreign, root, Some(rows), Some(criteria)).value, rows)
  {
    var e := WhereExpr(BuilderFor(schema, foreign, root), criteria).value;
    var filtered := ApplyWhere(foreign, rows, e);
    var offset := if criteria.offset.None? then 0 else criteria.offset.value;
    var limit := if criteria.limit.None? || criteria.limit.value == 0 then |filtered| else criteria.limit.value;
    var r := Search(schema, foreign, root, Some(rows), Some(criteria)).value;
    assert r == Take(Skip(filtered, offset), limit);
    PageIsSubsequence(filtered, offset, limit);
    if e.Some? {
      WhereIsSubsequence(rows, row => Eval(foreign, e.value, row));
      SubsequenceTransitive(r, filtered, rows);
    }
  }

  /** Criteria with nothing to filter, order or page return the entity set as it
      is. */
  lemma SearchWithoutCriteria(schema: Schema, foreign: Foreign, root: TypeDesc, rows: seq<Value>, order: Option<Order>)
    requires order.None? || order.value.orderType == NONE
    ensures Search(schema, foreign, root, Some(rows), Some(Criteria(None, order, None, None))) == Ok(rows)
  {
  }
}

=== FILE: query_processor.dfy ===
/** `QueryProcessor`: turns the query string of a list request into raw filters
    (`{field, operator, value}` maps), and reads the paging parameters. Two dialects
    exist and differ only in how the part left of `=` is split into field and
    operator. */
module QueryProcessors {
  import opened Wrappers
  import opened Text
  import opened Numbers
  import opened FilterOperators
  import opened Criterias

  /** One query parameter: its name and its values (a value may be null). */
  datatype QueryParam = QueryParam(key: string, values: seq<Option<string>>)

  /** The query collection, in iteration order; names are unique ignoring case. */
  type Query = seq<QueryParam>

  datatype Dialect =
    | Payments   // field and operator split at the last `-`; no operator means `contains`
    | Archetype  // split on every `-`, trimmed; the first piece is the field, no operator means `eq`

  /** The parameters that never become filters, compared ignoring case. */
  predicate IsExcluded(key: string) {
    EqualsIgnoreCase(key, "orderby") || EqualsIgnoreCase(key, "order")
    || EqualsIgnoreCase(key, "limit") || EqualsIgnoreCase(key, "offset")
  }

  /** The operator names accepted in the query string and the tokens they stand for. */
  const OperatorMappings: seq<(string, string)> := [
    ("eq", "="), ("equals", "="), ("ne", "!="), ("not-equals", "!="),
    ("contains", "CONTAINS"), ("not-contains", "NOT_CONTAINS"),
    ("gt", ">"), ("gte", ">="), ("lt", "<"), ("lte", "<=")
  ]

  /** The token of the first mapping whose name equals `key` ignoring case, or
      `fallback` (`GetValueOrDefault` on a case-insensitive dictionary). */
  function LookupIgnoreCase(table: seq<(string, string)>, key: string, fallback: string): (r: string)
    ensures r == fallback || exists k :: 0 <= k < |table| && EqualsIgnoreCase(table[k].0, key) && table[k].1 == r
    ensures (forall k :: 0 <= k < |table| ==> !EqualsIgnoreCase(table[k].0, key)) ==> r == fallback
  {
    if table == [] then fallback
    else if EqualsIgnoreCase(table[0].0, key) then table[0].1
    else
      var r := LookupIgnoreCase(table[1..], key, fallback);
      assert r != fallback ==> EqualsIgnoreCase(table[1..][MappingWitness(table[1..], key, r)].0, key);
      r
  }

  ghost function MappingWitness(table: seq<(string, string)>, key: string, r: string): (k: nat)
    requires exists k :: 0 <= k < |table| && EqualsIgnoreCase(table[k].0, key) && table[k].1 == r
    ensures k < |table| && EqualsIgnoreCase(table[k].0, key) && table[k].1 == r
  {
    var k :| 0 <= k < |table| && EqualsIgnoreCase(table[k].0, key) && table[k].1 == r; k
  }

  /** The lookup finds the first mapping whose name matches. */
  lemma {:induction false} LookupAt(table: seq<(string, string)>, key: string, fallback: string, j: nat)
    requires j < |table| && EqualsIgnoreCase(table[j].0, key)
    requires forall i :: 0 <= i < j ==> !EqualsIgnoreCase(table[i].0, key)
    ensures LookupIgnoreCase(table, key, fallback) == table[j].1
  {
    if j > 0 {
      assert !EqualsIgnoreCase(table[0].0, key);
      LookupAt(table[1..], key, fallback, j - 1);
    }
  }

  /** The operator token for an operator name; unknown names mean `CONTAINS`. The
      result is always one of the eight tokens, and it is `NOT_CONTAINS` only for
      the name `not-contains`. */
  function MapOperator(key: string): (token: string)
    ensures FromValue(token).Ok?
    ensures token == "NOT_CONTAINS" ==> EqualsIgnoreCase(key, "not-contains")
  {
    var token := LookupIgnoreCase(OperatorMappings, key, "CONTAINS");
    assert token != "CONTAINS" ==> exists k :: 0 <= k < |OperatorMappings| && EqualsIgnoreCase(OperatorMappings[k].0, key) && OperatorMappings[k].1 == token;
    token
  }

  /** The raw filter built from its three parts. */
  function RawFilterOf(field: string, token: string, value: string): (m: RawFilter)
    ensures m.Keys == {"field", "operator", "value"}
    ensures m["field"] == field && m["operator"] == token && m["value"] == value
  {
    map["field" := field, "operator" := token, "value" := value]
  }

  /** How the part left of `=` splits into a field and an operator name, per dialect;
      `None` when no field remains. */
  function SplitLeftSide(dialect: Dialect, leftSide: string): (r: Option<(string, string)>)
  {
    match dialect
    case Payments =>
      var (field, key) := match LastIndexOf(leftSide, '-')
        case None => (leftSide, "contains")
        case Some(d) => (leftSide[..d], leftSide[d + 1..]);
      if IsBlank(field) then None else Some((field, key))
    case Archetype =>
      var segments := SplitTrimmedNonEmpty(leftSide, '-');
      if |segments| == 0 then None
      else
        var key := if |segments| > 1 then Join("-", segments[1..]) else "eq";
        if IsBlank(segments[0]) then None else Some((segments[0], key))
  }

  /** `filter` has its first `=` at `e`, with text that is not blank on both sides. */
  predicate SplitsAt(filter: string, e: int) {
    0 <= e < |filter| && filter[e] == '=' && '=' !in filter[..e]
    && !IsBlank(filter[..e]) && !IsBlank(filter[e + 1..])
  }

  /** `ParseSingleFilter`: splits at the first `=`; a missing `=`, or a blank side,
      gives null; the left side then splits into field and operator name. */
  function ParseSingleFilter(dialect: Dialect, filter: string): (r: Option<RawFilter>)
    ensures IndexOf(filter, '=').None? ==> r.None?
    ensures r.Some? ==> IsWellFormed(r.value)
    ensures r.Some? ==> exists e :: SplitsAt(filter, e) && r.value["value"] == filter[e + 1..]
  {
    match IndexOf(filter, '=')
    case None => None
    case Some(e) =>
      var leftSide := filter[..e];
      var value := filter[e + 1..];
      if IsBlank(leftSide) || IsBlank(value) then None
      else
        match SplitLeftSide(dialect, leftSide)
        case None => None
        case Some((field, key)) =>
          var token := MapOperator(key);
          assert SplitsAt(filter, e);
          Some(RawFilterOf(field, token, value))
  }

  /** The text of a value in `$"{key}={value}"`: null prints as nothing. */
  function Interpolated(value: Option<string>): string {
    value.GetOr("")
  }

  /** The filters parsed from the values of one parameter, in order. */
  function ParseValues(dialect: Dialect, key: string, values: seq<Option<string>>): (r: seq<RawFilter>)
    ensures |r| <= |values|
    ensures forall k :: 0 <= k < |r| ==> IsWellFormed(r[k])
  {
    if values == [] then []
    else
      var last := ParseSingleFilter(dialect, key + "=" + Interpolated(values[|values| - 1]));
      ParseValues(dialect, key, values[..|values| - 1]) + (if last.Some? then [last.value] else [])
  }

  /** The filters of one parameter: none for an excluded one. */
  function ParseParam(dialect: Dialect, param: QueryParam): (r: seq<RawFilter>)
    ensures forall k :: 0 <= k < |r| ==> IsWellFormed(r[k])
  {
    if IsExcluded(param.key) then [] else ParseValues(dialect, param.key, param.values)
  }

  /** The filters of the whole query: at most one per (parameter, value) pair, in
      iteration order, each one buildable by `Filter.FromValues`. */
  function ParseAll(dialect: Dialect, query: Query): (r: seq<RawFilter>)
    ensures forall k :: 0 <= k < |r| ==> IsWellFormed(r[k])
  {
    if query == [] then []
    else ParseAll(dialect, query[..|query| - 1]) + ParseParam(dialect, query[|query| - 1])
  }

  lemma ParseAllStep(dialect: Dialect, query: Query, i: nat)
    requires i < |query|
    ensures ParseAll(dialect, query[..i + 1]) == ParseAll(dialect, query[..i]) + ParseParam(dialect, query[i])
  {
    assert query[..i + 1][..i] == query[..i];
  }

  lemma ParseValuesStep(dialect: Dialect, key: string, values: seq<Option<string>>, j: nat)
    requires j < |values|
    ensures var last := ParseSingleFilter(dialect, key + "=" + Interpolated(values[j]));
      ParseValues(dialect, key, values[..j + 1])
      == ParseValues(dialect, key, values[..j]) + (if last.Some? then [last.value] else [])
  {
    assert values[..j + 1][..j] == values[..j];
  }

  /** The inner loop of `ParseFilters`: each value of one parameter, as `key=value`,
      through `ParseSingleFilter`; the null results are dropped. */
  method ParseParamValues(dialect: Dialect, key: string, values: seq<Option<string>>) returns (filters: seq<RawFilter>)
    ensures filters == ParseValues(dialect, key, values)
  {
    filters := [];
    for j := 0 to |values|
      invariant filters == ParseValues(dialect, key, values[..j])
    {
      ParseValuesStep(dialect, key, values, j);
      var parsed := ParseSingleFilter(dialect, key + "=" + Interpolated(values[j]));
      if parsed.Some? {
        filters := filters + [parsed.value];
      }
    }
    assert values[..|values|] == values;
  }

  /** `ParseFilters`: the filters of every parameter that is not excluded, in order. */
  method ParseFilters(dialect: Dialect, query: Query) returns (filters: seq<RawFilter>)
    ensures filters == ParseAll(dialect, query)
  {
    filters := [];
    for i := 0 to |query|
      invariant filters == ParseAll(dialect, query[..i])
    {
      ParseAllStep(dialect, query, i);
      if !IsExcluded(query[i].key) {
        var parsed := ParseParamValues(dialect, query[i].key, query[i].values);
        filters := filters + parsed;
      }
    }
    assert query[..|query|] == query;
  }

  /** Excluded parameters contribute nothing, wherever they appear. */
  lemma ExcludedParamsIgnored(dialect: Dialect, query: Query, param: QueryParam)
    requires IsExcluded(param.key)
    ensures ParseAll(dialect, query + [param]) == ParseAll(dialect, query)
  {
    assert (query + [param])[..|query|] == query;
  }

  /** `QueryProcessor`, holding the memoised filter list. */
  class QueryProcessor {
    const dialect: Dialect
    const query: Query
    var cached: Option<seq<RawFilter>>

    ghost predicate Valid()
      reads this
    {
      cached.Some? ==> cached.value == ParseAll(dialect, query)
    }

    constructor(dialect: Dialect, query: Query)
      ensures this.dialect == dialect && this.query == query && cached.None? && Valid()
    {
      this.dialect := dialect;
      this.query := query;
      cached := None;
    }

    /** The `Filters` getter: parsed on first read, then returned from the cache. */
    method Filters() returns (filters: seq<RawFilter>)
      requires Valid()
      modifies this
      ensures Valid() && cached == Some(filters)
      ensures filters == ParseAll(dialect, query)
    {
      if cached.Some? {
        return cached.value;
      }
      filters := ParseFilters(dialect, query);
      cached := Some(filters);
    }
  }

  /** Two reads of `Filters` return the same list. */
  method ReadTwice(processor: QueryProcessor) returns (first: seq<RawFilter>, second: seq<RawFilter>)
    requires processor.Valid()
    modifies processor
    ensures first == second
  {
    first := processor.Filters();
    second := processor.Filters();
  }

  /** The values of the parameter named `name`, ignoring case (`TryGetValue`). */
  function ValuesOf(query: Query, name: string): (r: Option<seq<Option<string>>>)
    ensures r.Some? ==> exists k :: 0 <= k < |query| && EqualsIgnoreCase(query[k].key, name) && query[k].values == r.value
    ensures r.None? <==> forall k :: 0 <= k < |query| ==> !EqualsIgnoreCase(query[k].key, name)
  {
    if query == [] then None
    else if EqualsIgnoreCase(query[0].key, name) then Some(query[0].values)
    else
      var r := ValuesOf(query[1..], name);
      assert r.Some? ==> query[1 + ParamWitness(query[1..], name, r.value)] == query[1..][ParamWitness(query[1..], name, r.value)];
      r
  }

  ghost function ParamWitness(query: Query, name: string, values: seq<Option<string>>): (k: nat)
    requires exists k :: 0 <= k < |query| && EqualsIgnoreCase(query[k].key, name) && query[k].values == values
    ensures k < |query| && EqualsIgnoreCase(query[k].key, name) && query[k].values == values
  {
    var k :| 0 <= k < |query| && EqualsIgnoreCase(query[k].key, name) && query[k].values == values; k
  }

  /** The first value of the named parameter (`FirstOrDefault`), or null. */
  function FirstValue(query: Query, name: string): (r: Option<string>)
    ensures r.Some? ==> (ValuesOf(query, name).Some? && |ValuesOf(query, name).value| > 0
                         && ValuesOf(query, name).value[0] == r)
    ensures ValuesOf(query, name).Some? && |ValuesOf(query, name).value| > 0 ==> r == ValuesOf(query, name).value[0]
  {
    match ValuesOf(query, name)
    case None => None
    case Some(values) => if values == [] then None else values[0]
  }

  /** `GetOrderBy`: the first value of the `orderBy` parameter, found ignoring case,
      or null when the parameter is absent. */
  function GetOrderBy(query: Query): (r: Option<string>)
    ensures ValuesOf(query, "orderBy").None? ==> r.None?
    ensures ValuesOf(query, "orderBy").Some? && |ValuesOf(query, "orderBy").value| > 0 ==> r == ValuesOf(query, "orderBy").value[0]
  {
    FirstValue(query, "orderBy")
  }

  /** `GetOrder`: as `GetOrderBy`, for `order`. */
  function GetOrder(query: Query): (r: Option<string>)
    ensures ValuesOf(query, "order").None? ==> r.None?
    ensures ValuesOf(query, "order").Some? && |ValuesOf(query, "order").value| > 0 ==> r == ValuesOf(query, "order").value[0]
  {
    FirstValue(query, "order")
  }

  /** `GetLimit`: the first `limit` value read as a 32-bit integer, or null when it is
      absent or not such an integer. */
  function GetLimit(query: Query): (r: Option<int>)
    ensures r.Some? ==> FirstValue(query, "limit").Some? && ParseInteger(FirstValue(query, "limit").value) == r
    ensures r.Some? ==> Int32.InRange(r.value)
    ensures FirstValue(query, "limit").None? ==> r.None?
    ensures FirstValue(query, "limit").Some? && ParseWidth(FirstValue(query, "limit").value, Int32).Ok? ==>
      r == Some(ParseWidth(FirstValue(query, "limit").value, Int32).value)
    ensures FirstValue(query, "limit").Some? && ParseWidth(FirstValue(query, "limit").value, Int32).Thrown? ==> r.None?
  {
    TryParseInt32(FirstValue(query, "limit"))
  }

  /** `GetOffset`: as `GetLimit`, for `offset`. */
  function GetOffset(query: Query): (r: Option<int>)
    ensures r.Some? ==> FirstValue(query, "offset").Some? && ParseInteger(FirstValue(query, "offset").value) == r
    ensures r.Some? ==> Int32.InRange(r.value)
    ensures FirstValue(query, "offset").None? ==> r.None?
    ensures FirstValue(query, "offset").Some? && ParseWidth(FirstValue(query, "offset").value, Int32).Ok? ==>
      r == Some(ParseWidth(FirstValue(query, "offset").value, Int32).value)
    ensures FirstValue(query, "offset").Some? && ParseWidth(FirstValue(query, "offset").value, Int32).Thrown? ==> r.None?
  {
    TryParseInt32(FirstValue(query, "offset"))
  }

  /** A 32-bit integer written as the first `limit` value is read back. */
  lemma GetLimitReadsWrittenValue(n: int, rest: Query)
    requires Int32.InRange(n)
    ensures GetLimit([QueryParam("limit", [Some(IntToString(n))])] + rest) == Some(n)
  {
    ParseIntToString(n);
    var q := [QueryParam("limit", [Some(IntToString(n))])] + rest;
    assert EqualsIgnoreCase(q[0].key, "limit");
  }
}

module QueryProcessorProperties {
  import opened Wrappers
  import opened Text
  import opened FilterOperators
  import opened Criterias
  import opened QueryProcessors

  /** For `key=value` with no `=` in `key` and neither side blank, the split happens
      right after `key`, whatever `value` holds (it may contain `=`). */
  lemma ParseKeyValue(dialect: Dialect, key: string, value: string)
    requires '=' !in key && !IsBlank(key) && !IsBlank(value)
    ensures ParseSingleFilter(dialect, key + "=" + value)
         == match SplitLeftSide(dialect, key)
            case None => None
            case Some((field, name)) => Some(RawFilterOf(field, MapOperator(name), value))
  {
    var filter := key + "=" + value;
    assert filter[|key|] == '=';
    assert filter[..|key|] == key && filter[|key| + 1..] == value;
    IndexOfAt(filter, '=', |key|);
  }

  /** A blank value, or a blank left side, gives no filter. */
  lemma BlankSideGivesNothing(dialect: Dialect, key: string, value: string)
    requires '=' !in key && (IsBlank(key) || IsBlank(value))
    ensures ParseSingleFilter(dialect, key + "=" + value).None?
  {
    var filter := key + "=" + value;
    assert filter[|key|] == '=';
    assert filter[..|key|] == key && filter[|key| + 1..] == value;
    IndexOfAt(filter, '=', |key|);
  }

  /** An operator name that names `not-contains` has a dash in it. */
  lemma NotContainsNameHasDash(name: string)
    requires EqualsIgnoreCase(name, "not-contains")
    ensures '-' in name
  {
    assert ToUpper(name[3]) == ToUpper('-');
  }

  /** The Payments dialect never produces `NOT_CONTAINS`: the operator name is the
      text after the last dash, so it has no dash, and `not-contains` has one. */
  lemma PaymentsNeverNotContains(filter: string)
    ensures var r := ParseSingleFilter(Payments, filter);
      r.Some? ==> r.value["operator"] != "NOT_CONTAINS"
  {
    match IndexOf(filter, '=')
    case None =>
    case Some(e) =>
      var leftSide := filter[..e];
      match LastIndexOf(leftSide, '-')
      case None =>
        MapContains();
      case Some(d) =>
        var name := leftSide[d + 1..];
        if EqualsIgnoreCase(name, "not-contains") {
          NotContainsNameHasDash(name);
        }
  }

  /** Payments: with a dash in the left side, the field is the text before the last
      dash (untrimmed) and the operator name the text after it. */
  lemma PaymentsSplitsAtLastDash(key: string, d: nat, value: string)
    requires '=' !in key && !IsBlank(value) && d < |key| && key[d] == '-' && '-' !in key[d + 1..]
    requires !IsBlank(key[..d])
    ensures ParseSingleFilter(Payments, key + "=" + value)
         == Some(RawFilterOf(key[..d], MapOperator(key[d + 1..]), value))
  {
    PaymentsLeftSideAt(key, d);
    ParseKeyValue(Payments, key, value);
  }

  lemma PaymentsLeftSideAt(key: string, d: nat)
    requires d < |key| && key[d] == '-' && '-' !in key[d + 1..] && !IsBlank(key[..d])
    ensures !IsBlank(key)
    ensures SplitLeftSide(Payments, key) == Some((key[..d], key[d + 1..]))
  {
    var i :| 0 <= i < d && !IsWhiteSpace(key[..d][i]);
    assert key[i] == key[..d][i];
    LastIndexOfAt(key, '-', d);
  }

  /** Payments: `email-not-contains=x` is read as field `email-not` with `CONTAINS`. */
  lemma PaymentsEmailNotContainsExample()
    ensures ParseSingleFilter(Payments, "email-not-contains" + "=" + "x")
         == Some(RawFilterOf("email-not", "CONTAINS", "x"))
  {
    PaymentsKeyShape();
    PaymentsSplitsAtLastDash("email-not-contains", 9, "x");
    MapContains();
  }

  lemma PaymentsKeyShape()
    ensures var key := "email-not-contains";
      && '=' !in key && |key| == 18 && key[9] == '-' && key[..9] == "email-not" && key[10..] == "contains"
      && '-' !in key[10..] && !IsBlank(key[..9]) && !IsBlank("x")
  {
    var key := "email-not-contains";
    assert !IsWhiteSpace(key[..9][0]);
    assert !IsWhiteSpace("x"[0]);
  }

  /** An unknown or `contains` operator name means `CONTAINS`. */
  lemma MapContains()
    ensures MapOperator("contains") == "CONTAINS"
  {
    LookupAt(OperatorMappings, "contains", "CONTAINS", 4);
  }

  /** Archetype: the field is a non-empty, trimmed piece without a dash, so the
      blank-field guard never fires once a piece exists. */
  lemma ArchetypeFieldIsTrimmedPiece(leftSide: string)
    ensures var r := SplitLeftSide(Archetype, leftSide);
      r.Some? <==> |SplitTrimmedNonEmpty(leftSide, '-')| > 0
    ensures var r := SplitLeftSide(Archetype, leftSide);
      r.Some? ==> r.value.0 != [] && Trim(r.value.0) == r.value.0 && '-' !in r.value.0
  {
    var segments := SplitTrimmedNonEmpty(leftSide, '-');
    if |segments| > 0 {
      BlankIffTrimEmpty(segments[0]);
    }
  }

  lemma ArchetypeBareLeftSide(key: string)
    requires '-' !in key && !IsBlank(key)
    ensures SplitLeftSide(Archetype, key) == Some((Trim(key), "eq"))
  {
    BlankIffTrimEmpty(key);
    SplitTrimmedSingle(key, '-');
  }

  /** Archetype: a left side without a dash is a trimmed field compared with `=`. */
  lemma ArchetypeBareKeyIsEqual(key: string, value: string)
    requires '=' !in key && '-' !in key && !IsBlank(key) && !IsBlank(value)
    ensures ParseSingleFilter(Archetype, key + "=" + value) == Some(RawFilterOf(Trim(key), "=", value))
  {
    ArchetypeBareLeftSide(key);
    EqualsIgnoreCaseIsEquivalence("eq", "eq", "eq");
    LookupAt(OperatorMappings, "eq", "CONTAINS", 0);
    ParseKeyValue(Archetype, key, value);
  }

  /** A non-empty piece with no white space at its ends and no `-` or `=`. */
  predicate IsPlainPiece(p: string) {
    p != [] && !IsWhiteSpace(p[0]) && !IsWhiteSpace(p[|p| - 1]) && '-' !in p && '=' !in p
  }

  lemma ThreePiecesSplit(field: string, a: string, b: string)
    requires IsPlainPiece(field) && IsPlainPiece(a) && IsPlainPiece(b)
    ensures SplitTrimmedNonEmpty(field + "-" + a + "-" + b, '-') == [field, a, b]
  {
    var tail := a + ['-'] + b;
    TailSplit(a, b);
    TrimOfTrimmed(field);
    Regroup(field, a, b, '-');
    SplitTrimmedCons(field, '-', tail);
  }

  lemma TailSplit(a: string, b: string)
    requires IsPlainPiece(a) && IsPlainPiece(b)
    ensures SplitTrimmedNonEmpty(a + ['-'] + b, '-') == [a, b]
  {
    TrimOfTrimmed(a);
    TrimOfTrimmed(b);
    SplitTrimmedSingle(b, '-');
    SplitTrimmedCons(a, '-', b);
  }

  lemma Regroup(field: string, a: string, b: string, c: char)
    ensures field + [c] + a + [c] + b == field + [c] + (a + [c] + b)
  {
  }

  lemma ThreePiecesLeftSide(field: string, a: string, b: string)
    requires IsPlainPiece(field) && IsPlainPiece(a) && IsPlainPiece(b)
    ensures SplitLeftSide(Archetype, field + "-" + a + "-" + b) == Some((field, a + "-" + b))
  {
    var key := field + "-" + a + "-" + b;
    ThreePiecesSplit(field, a, b);
    var segments := SplitTrimmedNonEmpty(key, '-');
    assert segments[1..] == [a, b];
    JoinPair("-", a, b);
    assert !IsBlank(field) by { assert !IsWhiteSpace(field[0]); }
  }

  /** Archetype: in `field-a-b=value` the field is the first piece and the operator
      name is `a-b`. */
  lemma ArchetypeThreePieces(field: string, a: string, b: string, value: string)
    requires IsPlainPiece(field) && IsPlainPiece(a) && IsPlainPiece(b) && !IsBlank(value)
    ensures ParseSingleFilter(Archetype, field + "-" + a + "-" + b + "=" + value)
         == Some(RawFilterOf(field, MapOperator(a + "-" + b), value))
  {
    var key := field + "-" + a + "-" + b;
    ThreePiecesLeftSide(field, a, b);
    assert !IsWhiteSpace(key[0]);
    assert '=' !in key;
    ParseKeyValue(Archetype, key, value);
  }

  lemma MapNotContains()
    ensures MapOperator("not" + "-" + "contains") == "NOT_CONTAINS"
  {
    assert "not" + "-" + "contains" == "not-contains";
    EqualsIgnoreCaseIsEquivalence("not-contains", "not-contains", "not-contains");
    LookupAt(OperatorMappings, "not-contains", "CONTAINS", 5);
  }

  /** Archetype: `email-not-contains=x` is read as field `email` with `NOT_CONTAINS`. */
  lemma ArchetypeEmailNotContainsExample()
    ensures ParseSingleFilter(Archetype, "email" + "-" + "not" + "-" + "contains" + "=" + "x")
         == Some(RawFilterOf("email", "NOT_CONTAINS", "x"))
  {
    assert IsPlainPiece("email") && IsPlainPiece("not") && IsPlainPiece("contains");
    assert !IsWhiteSpace("x"[0]);
    ArchetypeThreePieces("email", "not", "contains", "x");
    MapNotContains();
  }
}

=== FILE: reflection.dfy ===
/** The type metadata that the criteria compilers read by reflection, as an explicit
    schema: every type the compilers may meet maps to the public instance members it
    declares and to the facts the compilers test about it (value-object wrapper,
    `StringValueObject` subclass, public static `From(string)`, interface).
 */
module Reflection {
  import opened Wrappers
  import opened Text
  import opened Numbers

  /** The .NET types a member can have. `EnumType` lists the enum's names in ordinal
      order; `ClassType` is any other class, struct or interface, looked up in the
      schema. */
  datatype TypeDesc =
    | StringType
    | BoolType
    | IntegerType(width: IntWidth)
    | EnumType(enumName: string, names: seq<string>)
    | GuidType
    | DateTimeOffsetType
    | DateTimeType
    | DecimalType
    | DoubleType
    | SingleType
    | NullableType(underlying: TypeDesc)
    | ClassType(name: string)

  /** `Nullable.GetUnderlyingType(t) ?? t`. */
  function NonNullable(t: TypeDesc): TypeDesc {
    if t.NullableType? then t.underlying else t
  }

  /** `Type.ToString()`: the full name of a type, as exception messages show it. */
  function TypeName(t: TypeDesc): string {
    match t
    case StringType => "System.String"
    case BoolType => "System.Boolean"
    case IntegerType(width) =>
      (match width
       case SByte => "System.SByte"
       case Byte => "System.Byte"
       case Int16 => "System.Int16"
       case UInt16 => "System.UInt16"
       case Int32 => "System.Int32"
       case UInt32 => "System.UInt32"
       case Int64 => "System.Int64"
       case UInt64 => "System.UInt64")
    case EnumType(name, _) => name
    case GuidType => "System.Guid"
    case DateTimeOffsetType => "System.DateTimeOffset"
    case DateTimeType => "System.DateTime"
    case DecimalType => "System.Decimal"
    case DoubleType => "System.Double"
    case SingleType => "System.Single"
    case NullableType(underlying) => "System.Nullable`1[" + TypeName(underlying) + "]"
    case ClassType(name) => name
  }

  datatype MemberKind = Property | Field

  datatype Member = Member(name: string, kind: MemberKind, memberType: TypeDesc)

  /** The `StringValueObject` subclasses the model knows: those with a public
      `(string)` constructor that validates nothing, that of `EmailAddress`, that of
      `UserFullName`, and those whose `(string)` constructor is private (`Uuid`,
      `UserPasswordHash`), which `Activator.CreateInstance` cannot call. */
  datatype WrapperKind = PlainWrapper | EmailWrapper | FullNameWrapper | NonPublicConstructor

  /** What reflection reports about one type.
      - `members`: its public instance properties and fields, in declaration order;
      - `valueObjectOf`: `Some(T)` when the type is or implements `IValueObject<T>`;
      - `stringValueObject`: `Some(k)` when the type derives from `StringValueObject`;
      - `hasStaticFrom`: it declares `public static From(string)`;
      - `isInterface`: it is an interface type. */
  datatype TypeInfo = TypeInfo(
    members: seq<Member>,
    valueObjectOf: Option<TypeDesc>,
    stringValueObject: Option<WrapperKind>,
    hasStaticFrom: bool,
    isInterface: bool)

  type Schema = map<TypeDesc, TypeInfo>

  /** A type the schema does not describe has no members and none of the flags. */
  function Info(schema: Schema, t: TypeDesc): TypeInfo {
    if t in schema then schema[t] else TypeInfo([], None, None, false, false)
  }

  /** `m` is one of the given kinds and named `name`, ignoring case. */
  predicate Named(m: Member, name: string, kinds: set<MemberKind>) {
    m.kind in kinds && EqualsIgnoreCase(m.name, name)
  }

  /** The position of the first member named `name` (ordinal, ignoring case) among
      those of the given kinds, in declaration order. */
  function FirstNamedIndex(members: seq<Member>, name: string, kinds: set<MemberKind>): (r: Option<nat>)
    ensures r.Some? ==> r.value < |members| && Named(members[r.value], name, kinds)
    ensures r.Some? ==> forall j :: 0 <= j < r.value ==> !Named(members[j], name, kinds)
    ensures r.None? <==> forall j :: 0 <= j < |members| ==> !Named(members[j], name, kinds)
  {
    if members == [] then None
    else if Named(members[0], name, kinds) then Some(0)
    else match FirstNamedIndex(members[1..], name, kinds)
      case None => None
      case Some(k) => Some(k + 1)
  }

  /** The first member named `name` among those of the given kinds. */
  function FirstNamed(members: seq<Member>, name: string, kinds: set<MemberKind>): (r: Option<Member>)
    ensures r.Some? ==> r.value in members && Named(r.value, name, kinds)
    ensures r.None? <==> forall j :: 0 <= j < |members| ==> !Named(members[j], name, kinds)
  {
    match FirstNamedIndex(members, name, kinds)
    case None => None
    case Some(k) => Some(members[k])
  }

  /** `type.GetProperty("Value", Public | Instance)`: the public instance property
      named exactly `Value` (the lookup is case-sensitive). */
  function ValueProperty(schema: Schema, t: TypeDesc): (r: Option<Member>)
    ensures r.Some? ==> r.value in Info(schema, t).members && r.value.kind == Property && r.value.name == "Value"
    ensures r.None? ==> forall m :: m in Info(schema, t).members ==> !(m.kind == Property && m.name == "Value")
  {
    FirstExact(Info(schema, t).members, "Value")
  }

  function FirstExact(members: seq<Member>, name: string): (r: Option<Member>)
    ensures r.Some? ==> r.value in members && r.value.kind == Property && r.value.name == name
    ensures r.None? ==> forall m :: m in members ==> !(m.kind == Property && m.name == name)
  {
    if members == [] then None
    else if members[0].kind == Property && members[0].name == name then Some(members[0])
    else FirstExact(members[1..], name)
  }
}

=== FILE: result_extensions.dfy ===
/** `ResultExtensions.ToHttpResponse`: a success becomes `200 OK` with its value (or
    `204 No Content` for the `Success` marker); an error becomes the response the
    kind of its first error selects. Responses are modelled as the writer call they
    come from. */
module ResultExtensions {
  import opened Wrappers
  import opened Results

  /** `ApiFieldError(code, description)`. */
  datatype FieldError = FieldError(code: string, description: string)

  /** The problem responses the writer produces. */
  datatype ProblemKind = ValidationProblem | NotFoundProblem | ConflictProblem | UnauthorizedProblem
    | ForbiddenProblem | BadRequestProblem | InternalProblem

  /** A response of the API writer: `NoContent()`, `Ok(value, pagination)`, or one of
      the problem responses with the error's description and code (and, for a
      validation problem, the field errors). */
  datatype HttpResponse<T, P> =
    | NoContent
    | OkResponse(value: Option<T>, pagination: Option<P>)
    | Problem(kind: ProblemKind, description: string, code: string, fieldErrors: seq<FieldError>)

  const BadRequestStatus: int := 400
  const NotFoundStatus: int := 404
  const ConflictStatus: int := 409

  /** The response kind selected by an error. */
  function KindFor(e: Error): (k: ProblemKind)
    ensures e.kind == Validation <==> k == ValidationProblem
    ensures e.kind == Unauthorized <==> k == UnauthorizedProblem
    ensures e.kind == Forbidden <==> k == ForbiddenProblem
    ensures k == BadRequestProblem <==> e.kind == Failure || (e.kind == Custom && e.numericType == BadRequestStatus)
    ensures k == NotFoundProblem <==> e.kind == NotFound || (e.kind == Custom && e.numericType == NotFoundStatus)
    ensures k == ConflictProblem <==> e.kind == Conflict || (e.kind == Custom && e.numericType == ConflictStatus)
    ensures k == InternalProblem <==> (e.kind == Unexpected
      || (e.kind == Custom && e.numericType !in {BadRequestStatus, NotFoundStatus, ConflictStatus}))
  {
    match e.kind
    case Validation => ValidationProblem
    case NotFound => NotFoundProblem
    case Conflict => ConflictProblem
    case Unauthorized => UnauthorizedProblem
    case Forbidden => ForbiddenProblem
    case Failure => BadRequestProblem
    case Custom =>
      if e.numericType == BadRequestStatus then BadRequestProblem
      else if e.numericType == NotFoundStatus then NotFoundProblem
      else if e.numericType == ConflictStatus then ConflictProblem
      else InternalProblem
    case Unexpected => InternalProblem
  }

  /** `BuildFieldErrors`: one `(code, description)` per error, in order; none for a
      null or empty list. */
  function BuildFieldErrors(errors: Option<seq<Error>>): (r: seq<FieldError>)
    ensures errors.None? ==> r == []
    ensures errors.Some? ==> |r| == |errors.value|
    ensures errors.Some? ==> forall k :: 0 <= k < |r| ==> r[k] == FieldError(errors.value[k].code, errors.value[k].description)
  {
    if errors.None? then [] else FieldErrorsOf(errors.value)
  }

  function FieldErrorsOf(errors: seq<Error>): (r: seq<FieldError>)
    ensures |r| == |errors|
    ensures forall k :: 0 <= k < |r| ==> r[k] == FieldError(errors[k].code, errors[k].description)
  {
    if errors == [] then [] else [FieldError(errors[0].code, errors[0].description)] + FieldErrorsOf(errors[1..])
  }

  /** `MapError`: the first error alone selects the response; a validation problem
      also lists every error as a field error. */
  function MapError<T, P>(r: Result<T>): (response: HttpResponse<T, P>)
    requires r.IsError()
    ensures response.Problem?
    ensures response.kind == KindFor(r.errors.value[0])
    ensures response.description == r.errors.value[0].description && response.code == r.errors.value[0].code
    ensures response.kind == ValidationProblem ==> response.fieldErrors == BuildFieldErrors(r.errors)
    ensures response.kind != ValidationProblem ==> response.fieldErrors == []
  {
    var error := GetFirstError(r).value;
    var kind := KindFor(error);
    Problem(kind, error.description, error.code, if kind == ValidationProblem then BuildFieldErrors(r.errors) else [])
  }

  /** `MapSuccess`: the `Success` marker gives `204 No Content`; any other value
      (including a default result's null) gives `200 OK` with it. `isSuccessMarker`
      is the runtime type test `value is Success`, which a generic value cannot make
      in Dafny, so the caller supplies it; a null value is never the marker. */
  function MapSuccess<T, P>(r: Result<T>, isSuccessMarker: T -> bool, pagination: Option<P>): (response: HttpResponse<T, P>)
    requires r.IsSuccess()
    ensures response == NoContent <==> r.storedValue.Some? && isSuccessMarker(r.storedValue.value)
    ensures response != NoContent ==> response == OkResponse(r.storedValue, pagination)
  {
    var value := GetValue(r).value;
    if value.Some? && isSuccessMarker(value.value) then NoContent else OkResponse(value, pagination)
  }

  /** `ToHttpResponse`. */
  function ToHttpResponse<T, P>(r: Result<T>, isSuccessMarker: T -> bool, pagination: Option<P>): (response: HttpResponse<T, P>)
    ensures r.IsSuccess() <==> !response.Problem?
  {
    if r.IsSuccess() then MapSuccess(r, isSuccessMarker, pagination) else MapError(r)
  }

  /** Two error results with the same first error get the same response unless that
      error is a validation error (whose response also lists the other errors). */
  lemma FirstErrorDecides<T, P>(a: Result<T>, b: Result<T>, isSuccessMarker: T -> bool, pagination: Option<P>)
    requires a.IsError() && b.IsError() && GetFirstError(a) == GetFirstError(b)
    requires GetFirstError(a).value.kind != Validation
    ensures ToHttpResponse(a, isSuccessMarker, pagination) == ToHttpResponse(b, isSuccessMarker, pagination)
  {
  }

  /** A single validation error yields a validation problem that lists exactly that
      error. */
  lemma SingleValidationError<T, P>(code: string, description: string, isSuccessMarker: T -> bool, pagination: Option<P>)
    ensures ToHttpResponse(FromError<T>(Of(Validation, code, description)), isSuccessMarker, pagination)
      == Problem(ValidationProblem, description, code, [FieldError(code, description)])
  {
    var r := FromError<T>(Of(Validation, code, description));
    assert BuildFieldErrors(r.errors) == [FieldError(code, description)];
  }
}

=== FILE: results.dfy ===
/** The result algebra: `Error` (a kind, a numeric type for custom errors, a code
    and a description) and `Result<TValue>`, which holds either a value or a
    non-empty list of errors, with its implicit conversions. */
module Results {
  import opened Wrappers

  datatype ErrorType = Failure | Unexpected | Validation | Conflict | NotFound | Unauthorized | Forbidden | Custom

  /** An error; `numericType` is 0 except for custom errors. */
  datatype Error = Error(code: string, description: string, kind: ErrorType, numericType: int)

  /** The named factories (`Error.Failure`, `Error.NotFound`, ...): the given kind,
      numeric type 0. */
  function Of(kind: ErrorType, code: string, description: string): (e: Error)
    requires kind != Custom
    ensures e.kind == kind && e.numericType == 0
    ensures e.code == code && e.description == description
  {
    Error(code, description, kind, 0)
  }

  /** `Error.Custom(type, code, description)`. */
  function CustomError(numericType: int, code: string, description: string): (e: Error)
    ensures e.kind == Custom && e.numericType == numericType
    ensures e.code == code && e.description == description
  {
    Error(code, description, Custom, numericType)
  }

  /** `Equals`: kind, numeric type, code and description all equal. */
  predicate ErrorEquals(a: Error, b: Error)
    ensures ErrorEquals(a, b) <==> a == b
  {
    a.kind == b.kind && a.numericType == b.numericType && a.code == b.code && a.description == b.description
  }

  /** `Equals` is an equivalence relation. */
  lemma ErrorEqualsIsEquivalence(a: Error, b: Error, c: Error)
    ensures ErrorEquals(a, a)
    ensures ErrorEquals(a, b) ==> ErrorEquals(b, a)
    ensures ErrorEquals(a, b) && ErrorEquals(b, c) ==> ErrorEquals(a, c)
  {
  }

  /** Errors of different kinds are never equal, whatever their code and text. */
  lemma KindsSeparateErrors(k1: ErrorType, k2: ErrorType, code: string, description: string)
    requires k1 != Custom && k2 != Custom && k1 != k2
    ensures !ErrorEquals(Of(k1, code, description), Of(k2, code, description))
  {
  }

  /** `GetHashCode`: a combination of the four fields, by a combiner the runtime
      supplies. Equal errors hash alike. */
  function HashCode(e: Error, combine: (string, string, ErrorType, int) -> int): int {
    combine(e.code, e.description, e.kind, e.numericType)
  }

  lemma EqualErrorsHashAlike(a: Error, b: Error, combine: (string, string, ErrorType, int) -> int)
    requires ErrorEquals(a, b)
    ensures HashCode(a, combine) == HashCode(b, combine)
  {
  }

  /** `Success`, the value of operations that return nothing. */
  datatype Success = Success

  /** `Result<TValue>`: the stored value (null for error results) and the error list
      (null only for a default-constructed result). */
  datatype Result<T> = Result(storedValue: Option<T>, errors: Option<seq<Error>>) {
    /** `IsSuccess`: no error list, or an empty one. */
    predicate IsSuccess()
      ensures IsSuccess() <==> (errors.Some? ==> |errors.value| == 0)
    {
      errors.None? || errors.value == []
    }

    /** `IsError`: not a success, so there is a first error to read. */
    predicate IsError()
      ensures IsError() <==> errors.Some? && |errors.value| > 0
    {
      !IsSuccess()
    }
  }

  /** `new Result(value)`: a null value is rejected. */
  function FromValue<T>(value: Option<T>): (r: Throws<Result<T>>)
    ensures value.None? <==> r == Thrown(ArgumentNull("value"))
    ensures r.Ok? ==> r.value.IsSuccess() && GetValue(r.value) == Ok(value)
  {
    if value.None? then Thrown(ArgumentNull("value")) else Ok(Result(value, Some([])))
  }

  /** `new Result(error)`: the error list is that one error. */
  function FromError<T>(error: Error): (r: Result<T>)
    ensures r.IsError() && r.errors == Some([error])
    ensures GetFirstError(r) == Ok(error)
  {
    Result(None, Some([error]))
  }

  const EmptyErrorsMessage: string :=
    "Cannot create an Result<TValue> from an empty collection of errors. Provide at least one error."

  /** `new Result(errors)`: a null or empty list is rejected; otherwise the list is
      kept as given. */
  function FromErrors<T>(errors: Option<seq<Error>>): (r: Throws<Result<T>>)
    ensures errors.None? ==> r == Thrown(ArgumentNull("errors"))
    ensures errors == Some([]) ==> r == Thrown(Argument(EmptyErrorsMessage))
    ensures r.Ok? <==> errors.Some? && errors.value != []
    ensures r.Ok? ==> r.value.IsError() && r.value.errors == errors
  {
    match errors
    case None => Thrown(ArgumentNull("errors"))
    case Some(list) => if list == [] then Thrown(Argument(EmptyErrorsMessage)) else Ok(Result(None, errors))
  }

  const ValueOnErrorMessage: string :=
    "The Value property cannot be accessed when Errors property is not empty. Check IsSuccess or IsError before accessing the Value."

  const FirstErrorOnSuccessMessage: string :=
    "The FirstError property cannot be accessed when Errors property is empty. Check IsError before accessing FirstError."

  /** The `Value` getter: throws on an error result. */
  function GetValue<T>(r: Result<T>): (v: Throws<Option<T>>)
    ensures v.Thrown? <==> r.IsError()
    ensures v.Thrown? ==> v.error == InvalidOperation(ValueOnErrorMessage)
    ensures v.Ok? ==> v.value == r.storedValue
  {
    if r.IsError() then Thrown(InvalidOperation(ValueOnErrorMessage)) else Ok(r.storedValue)
  }

  /** The `FirstError` getter: throws on success, otherwise the head of the list. */
  function GetFirstError<T>(r: Result<T>): (e: Throws<Error>)
    ensures e.Thrown? <==> r.IsSuccess()
    ensures e.Thrown? ==> e.error == InvalidOperation(FirstErrorOnSuccessMessage)
    ensures e.Ok? ==> r.errors.Some? && r.errors.value != [] && e.value == r.errors.value[0]
  {
    if r.IsSuccess() then Thrown(InvalidOperation(FirstErrorOnSuccessMessage)) else Ok(r.errors.value[0])
  }

  /** `default(Result<TValue>)`: no value and no error list, hence a success. */
  function Default<T>(): (r: Result<T>)
    ensures r.IsSuccess() && GetValue(r) == Ok(None)
  {
    Result(None, None)
  }

  /** The implicit conversion from `Error[]`: the array copied into a list. */
  function FromErrorArray<T>(errors: seq<Error>): (r: Throws<Result<T>>)
    ensures r.Ok? <==> errors != []
    ensures r.Ok? ==> r.value.errors == Some(errors) && GetFirstError(r.value) == Ok(errors[0])
    ensures r.Thrown? ==> r.error == Argument(EmptyErrorsMessage)
  {
    FromErrors(Some(errors))
  }

  /** A result is a success or an error, never both; a success has a readable value
      and no first error, an error the other way round. */
  lemma SuccessXorError<T>(r: Result<T>)
    ensures r.IsSuccess() != r.IsError()
    ensures GetValue(r).Ok? <==> GetFirstError(r).Thrown?
  {
  }

  /** Converting a value and reading it back gives the value; converting errors and
      reading them back gives the same errors, in order. */
  lemma ConversionsRoundTrip<T>(value: T, errors: seq<Error>)
    ensures FromValue(Some(value)).Ok? && GetValue(FromValue(Some(value)).value) == Ok(Some(value))
    ensures errors != [] ==> FromErrors<T>(Some(errors)).Ok? && FromErrors<T>(Some(errors)).value.errors == Some(errors)
    ensures errors != [] ==> GetFirstError(FromErrors<T>(Some(errors)).value) == Ok(errors[0])
  {
  }
}

=== FILE: rows.dfy ===
/** Runtime rows that the compiled queries run over, and the ordering of the values
    they hold.

    An entity is an `Object` whose fields are its public members; a value-object
    wrapper is an `Object` with a `Value` field. Member access ignores case, as the
    dynamic-query parser and the database translation do. `Compare` is the ordering of
    `Comparer<T>.Default` restricted to one kind of value, extended to a total
    preorder on all values with `Null` first, as database ordering treats it.
 */
module Rows {
  import opened Wrappers
  import opened Text

  datatype Value =
    | Null
    | Bool(b: bool)
    | Number(n: int)
    | Str(s: string)
    | Object(typeName: string, fields: seq<Field>)

  datatype Field = Field(name: string, value: Value)

  /** The first field named `name`, ignoring case. */
  function FieldNamed(fields: seq<Field>, name: string): (r: Option<Value>)
    ensures r.Some? ==> exists k :: 0 <= k < |fields| && EqualsIgnoreCase(fields[k].name, name) && fields[k].value == r.value
    ensures r.None? <==> forall k :: 0 <= k < |fields| ==> !EqualsIgnoreCase(fields[k].name, name)
  {
    if fields == [] then None
    else if EqualsIgnoreCase(fields[0].name, name) then Some(fields[0].value)
    else
      var r := FieldNamed(fields[1..], name);
      assert r.Some? ==> EqualsIgnoreCase(fields[1..][ContainsField(fields[1..], name, r.value)].name, name);
      r
  }

  ghost function ContainsField(fields: seq<Field>, name: string, v: Value): (k: nat)
    requires exists k :: 0 <= k < |fields| && EqualsIgnoreCase(fields[k].name, name) && fields[k].value == v
    ensures k < |fields| && EqualsIgnoreCase(fields[k].name, name) && fields[k].value == v
  {
    var k :| 0 <= k < |fields| && EqualsIgnoreCase(fields[k].name, name) && fields[k].value == v; k
  }

  /** The value reached by following `path` member by member from `v`; `Null` once a
      member is null, missing, or asked of something that is not an object. */
  function Walk(v: Value, path: seq<string>): (r: Value)
    ensures path == [] ==> r == v
    decreases |path|
  {
    if path == [] then v
    else match v
      case Object(_, fields) =>
        (match FieldNamed(fields, path[0])
         case Some(child) => Walk(child, path[1..])
         case None => Null)
      case _ => Null
  }

  /** The ordering key that reads the member at `path` of a row. */
  function KeyAt(path: seq<string>): Value -> Value {
    row => Walk(row, path)
  }

  /** Following a path in two steps is following it at once. */
  lemma {:induction false} WalkAppend(v: Value, p: seq<string>, q: seq<string>)
    ensures Walk(v, p + q) == Walk(Walk(v, p), q)
    decreases |p|
  {
    if p == [] {
      assert p + q == q;
    } else {
      assert (p + q)[0] == p[0] && (p + q)[1..] == p[1..] + q;
      match v {
        case Object(_, fields) =>
          match FieldNamed(fields, p[0]) {
            case Some(child) => WalkAppend(child, p[1..], q);
            case None => WalkNull(q);
          }
        case _ => WalkNull(q);
      }
    }
  }

  lemma {:induction false} WalkNull(q: seq<string>)
    ensures Walk(Null, q) == Null
  {
  }

  /** The rank of a value's kind in the ordering. */
  function Rank(v: Value): nat {
    match v
    case Null => 0
    case Bool(_) => 1
    case Number(_) => 2
    case Str(_) => 3
    case Object(_, _) => 4
  }

  /** Ordinal string comparison: -1, 0 or 1. */
  function CompareStrings(a: string, b: string): (c: int)
    ensures -1 <= c <= 1
    ensures c == 0 <==> a == b
  {
    if a == [] && b == [] then 0
    else if a == [] then -1
    else if b == [] then 1
    else if a[0] < b[0] then -1
    else if a[0] > b[0] then 1
    else
      var c := CompareStrings(a[1..], b[1..]);
      assert c == 0 ==> a == [a[0]] + a[1..] && b == [b[0]] + b[1..];
      c
  }

  lemma {:induction false} CompareStringsAntisymmetric(a: string, b: string)
    ensures CompareStrings(a, b) == -CompareStrings(b, a)
  {
    if a != [] && b != [] && a[0] == b[0] {
      CompareStringsAntisymmetric(a[1..], b[1..]);
    }
  }

  lemma {:induction false} CompareStringsTransitive(a: string, b: string, c: string)
    requires CompareStrings(a, b) <= 0 && CompareStrings(b, c) <= 0
    ensures CompareStrings(a, c) <= 0
  {
    if a != [] && b != [] && c != [] && a[0] == b[0] && b[0] == c[0] {
      CompareStringsTransitive(a[1..], b[1..], c[1..]);
    }
  }

  /** The ordering of values: by kind first, then `false < true`, numbers
      numerically, strings ordinally; objects are not ordered among themselves. */
  function Compare(a: Value, b: Value): (c: int)
    ensures -1 <= c <= 1
    ensures Rank(a) < Rank(b) ==> c == -1
    ensures Rank(a) > Rank(b) ==> c == 1
  {
    if Rank(a) < Rank(b) then -1
    else if Rank(a) > Rank(b) then 1
    else match (a, b)
      case (Bool(x), Bool(y)) => if x == y then 0 else if !x then -1 else 1
      case (Number(x), Number(y)) => if x < y then -1 else if x > y then 1 else 0
      case (Str(x), Str(y)) => CompareStrings(x, y)
      case _ => 0
  }

  /** `Compare` is a total preorder, and on scalars its ties are exactly equality. */
  lemma CompareIsTotalPreorder(a: Value, b: Value, c: Value)
    ensures Compare(a, a) == 0
    ensures Compare(a, b) == -Compare(b, a)
    ensures Compare(a, b) <= 0 && Compare(b, c) <= 0 ==> Compare(a, c) <= 0
    ensures !a.Object? && !b.Object? ==> (Compare(a, b) == 0 <==> a == b)
  {
    if a.Str? && b.Str? {
      CompareStringsAntisymmetric(a.s, b.s);
      if c.Str? && Compare(a, b) <= 0 && Compare(b, c) <= 0 {
        CompareStringsTransitive(a.s, b.s, c.s);
      }
    }
  }
}

=== FILE: sequences.dfy ===
/** Sequence semantics of the LINQ operators the query code composes:
    `Where` (filter), `Skip` and `Take`, and the subsequence relation that
    filtering establishes.
 */
module Sequences {
  import opened Wrappers

  /** `xs` is an order-preserving subsequence of `ys`. */
  ghost predicate IsSubsequence<T>(xs: seq<T>, ys: seq<T>) {
    if xs == [] then true
    else if ys == [] then false
    else if xs[0] == ys[0] then IsSubsequence(xs[1..], ys[1..])
    else IsSubsequence(xs, ys[1..])
  }

  /** `Enumerable.Where`: the elements that satisfy `p`, in their original order. */
  function Where<T(!new)>(s: seq<T>, p: T -> bool): (r: seq<T>)
    ensures |r| <= |s|
    ensures forall k :: 0 <= k < |r| ==> p(r[k]) && r[k] in s
    ensures forall k :: 0 <= k < |s| && p(s[k]) ==> s[k] in r
    ensures forall x :: multiset(r)[x] == if p(x) then multiset(s)[x] else 0
  {
    if s == [] then []
    else
      var rest := Where(s[1..], p);
      WhereCountStep(s, p, rest);
      if p(s[0]) then [s[0]] + rest else rest
  }

  /** One step of `Where`: adding the head to the kept tail, when it passes, keeps
      the counts. */
  lemma WhereCountStep<T(!new)>(s: seq<T>, p: T -> bool, rest: seq<T>)
    requires s != []
    requires forall x :: multiset(rest)[x] == if p(x) then multiset(s[1..])[x] else 0
    ensures forall x :: multiset(if p(s[0]) then [s[0]] + rest else rest)[x] == if p(x) then multiset(s)[x] else 0
  {
    assert s == [s[0]] + s[1..];
  }

  lemma {:induction false} WhereIsSubsequence<T(!new)>(s: seq<T>, p: T -> bool)
    ensures IsSubsequence(Where(s, p), s)
  {
    if s != [] {
      WhereIsSubsequence(s[1..], p);
      var r := Where(s[1..], p);
      if p(s[0]) {
        assert ([s[0]] + r)[1..] == r;
      } else {
        SubsequenceOfTail(r, s);
      }
    }
  }

  lemma {:induction false} SubsequenceOfTail<T>(xs: seq<T>, ys: seq<T>)
    requires ys != [] && IsSubsequence(xs, ys[1..])
    ensures IsSubsequence(xs, ys)
    decreases |xs| + |ys|
  {
    if xs != [] && xs[0] == ys[0] {
      SubsequenceDropHead(xs, ys[1..]);
    }
  }

  lemma {:induction false} SubsequenceDropHead<T>(xs: seq<T>, ys: seq<T>)
    requires xs != [] && IsSubsequence(xs, ys)
    ensures IsSubsequence(xs[1..], ys)
    decreases |xs| + |ys|
  {
    if xs[0] == ys[0] {
      SubsequenceOfTail(xs[1..], ys);
    } else {
      SubsequenceDropHead(xs, ys[1..]);
      SubsequenceOfTail(xs[1..], ys);
    }
  }

  /** A contiguous slice keeps its order in the sequence it was cut from. */
  lemma {:induction false} SliceIsSubsequence<T>(s: seq<T>, i: nat, j: nat)
    requires i <= j <= |s|
    ensures IsSubsequence(s[i..j], s)
    decreases |s|
  {
    if i < j {
      if i == 0 {
        SliceIsSubsequence(s[1..], 0, j - 1);
        assert s[1..][0..j - 1] == s[i..j][1..];
      } else {
        SliceIsSubsequence(s[1..], i - 1, j - 1);
        assert s[1..][i - 1..j - 1] == s[i..j];
        SubsequenceOfTail(s[i..j], s);
      }
    }
  }

  /** A subsequence of a subsequence is a subsequence. */
  lemma {:induction false} SubsequenceTransitive<T>(xs: seq<T>, ys: seq<T>, zs: seq<T>)
    requires IsSubsequence(xs, ys) && IsSubsequence(ys, zs)
    ensures IsSubsequence(xs, zs)
    decreases |zs|
  {
    if xs != [] {
      if ys[0] == zs[0] {
        if xs[0] == ys[0] {
          SubsequenceTransitive(xs[1..], ys[1..], zs[1..]);
        } else {
          SubsequenceTransitive(xs, ys[1..], zs[1..]);
          SubsequenceOfTail(xs, zs);
        }
      } else {
        SubsequenceTransitive(xs, ys, zs[1..]);
        SubsequenceOfTail(xs, zs);
      }
    }
  }

  /** A page `Take(Skip(s, offset), limit)` keeps the order of `s`. */
  lemma PageIsSubsequence<T>(s: seq<T>, offset: int, limit: int)
    ensures IsSubsequence(Take(Skip(s, offset), limit), s)
  {
    var skipped := Skip(s, offset);
    var page := Take(skipped, limit);
    SliceIsSubsequence(s, |s| - |skipped|, |s|);
    assert s[|s| - |skipped|..|s|] == skipped;
    SliceIsSubsequence(skipped, 0, |page|);
    assert skipped[0..|page|] == page;
    SubsequenceTransitive(page, skipped, s);
  }

  /** Filtering twice with the same predicate is filtering once. */
  lemma {:induction false} WhereIdempotent<T(!new)>(s: seq<T>, p: T -> bool)
    ensures Where(Where(s, p), p) == Where(s, p)
  {
    if s != [] {
      WhereIdempotent(s[1..], p);
      if p(s[0]) {
        assert ([s[0]] + Where(s[1..], p))[1..] == Where(s[1..], p);
      }
    }
  }

  /** A predicate that holds of every element keeps the whole sequence. */
  lemma {:induction false} WhereAll<T(!new)>(s: seq<T>, p: T -> bool)
    requires forall k :: 0 <= k < |s| ==> p(s[k])
    ensures Where(s, p) == s
  {
    if s != [] {
      WhereAll(s[1..], p);
    }
  }

  /** `Queryable.Take(n)`: the first `n` elements; none when `n` is not positive. */
  function Take<T>(s: seq<T>, n: int): (r: seq<T>)
    ensures n <= 0 ==> r == []
    ensures 0 < n ==> |r| == if n < |s| then n else |s|
    ensures r == s[..|r|]
  {
    if n <= 0 then [] else if n < |s| then s[..n] else s
  }

  /** `Queryable.Skip(n)`: all but the first `n` elements; all of them when `n` is
      not positive. */
  function Skip<T>(s: seq<T>, n: int): (r: seq<T>)
    ensures n <= 0 ==> r == s
    ensures 0 < n ==> |r| == if n < |s| then |s| - n else 0
    ensures r == s[|s| - |r|..]
  {
    if n <= 0 then s else if n < |s| then s[n..] else []
  }

  /** The page `Take(Skip(s, offset), limit)` holds the elements at positions
      `offset .. offset + limit - 1` of `s`, as many of them as exist. */
  lemma Window<T>(s: seq<T>, offset: nat, limit: nat, k: nat)
    requires k < |Take(Skip(s, offset), limit)|
    ensures offset + k < |s| && k < limit
    ensures Take(Skip(s, offset), limit)[k] == s[offset + k]
  {
  }

  /** Element `k` of `r` is element `start + k` of `s`, for every `k`. */
  ghost predicate IsWindowOf<T>(r: seq<T>, s: seq<T>, start: nat) {
    forall k :: 0 <= k < |r| ==> start + k < |s| && r[k] == s[start + k]
  }

  /** Every row of a page is the row `start` places later in the whole sequence. */
  lemma PageWindow<T>(s: seq<T>, start: nat, limit: nat, r: seq<T>)
    requires r == Take(Skip(s, start), limit)
    ensures |r| <= limit
    ensures IsWindowOf(r, s, start)
  {
    forall k | 0 <= k < |r| ensures start + k < |s| && r[k] == s[start + k] {
      Window(s, start, limit, k);
    }
  }

  /** `xs.Select(f)` materialised into a list: every element mapped in order, the
      first exception thrown by `f` ending the whole call. */
  function MapThrows<A, B>(xs: seq<A>, f: A -> Throws<B>): (r: Throws<seq<B>>)
    ensures r.Ok? <==> forall k :: 0 <= k < |xs| ==> f(xs[k]).Ok?
    ensures r.Ok? ==> |r.value| == |xs| && forall k :: 0 <= k < |xs| ==> r.value[k] == f(xs[k]).value
    ensures r.Thrown? ==> FirstThrown(xs, f, r.error)
  {
    if xs == [] then Ok([])
    else
      match f(xs[0])
      case Thrown(e) =>
        assert FirstThrownAt(xs, f, e, 0);
        Thrown(e)
      case Ok(y) =>
        match MapThrows(xs[1..], f)
        case Thrown(e) =>
          assert FirstThrown(xs, f, e) by {
            var k :| FirstThrownAt(xs[1..], f, e, k);
            assert xs[k + 1] == xs[1..][k];
            forall j | 0 <= j < k + 1 ensures f(xs[j]).Ok? {
              if j > 0 { assert xs[j] == xs[1..][j - 1]; }
            }
            assert FirstThrownAt(xs, f, e, k + 1);
          }
          Thrown(e)
        case Ok(ys) => Ok([y] + ys)
  }

  /** `f` throws `e` at position `k` of `xs` and succeeds on every earlier element. */
  ghost predicate FirstThrownAt<A, B>(xs: seq<A>, f: A -> Throws<B>, e: Exception, k: int) {
    0 <= k < |xs| && f(xs[k]) == Thrown(e) && forall j :: 0 <= j < k ==> f(xs[j]).Ok?
  }

  ghost predicate FirstThrown<A, B>(xs: seq<A>, f: A -> Throws<B>, e: Exception) {
    exists k :: FirstThrownAt(xs, f, e, k)
  }
}

=== FILE: sorting.dfy ===
/** `OrderBy` / `OrderByDescending` on a sequence: a stable sort by a key, using the
    value ordering of `Rows.Compare`. */
module Sorting {
  import opened Rows
  import opened Sequences

  /** `x` may come before `y` in the requested direction. */
  predicate InOrder(x: Value, y: Value, descending: bool) {
    if descending then Compare(x, y) >= 0 else Compare(x, y) <= 0
  }

  ghost predicate SortedBy<T>(s: seq<T>, key: T -> Value, descending: bool) {
    forall i, j :: 0 <= i < j < |s| ==> InOrder(key(s[i]), key(s[j]), descending)
  }

  lemma InOrderTotal(x: Value, y: Value, descending: bool)
    ensures InOrder(x, y, descending) || InOrder(y, x, descending)
  {
    CompareIsTotalPreorder(x, y, x);
  }

  lemma InOrderTransitive(x: Value, y: Value, z: Value, descending: bool)
    requires InOrder(x, y, descending) && InOrder(y, z, descending)
    ensures InOrder(x, z, descending)
  {
    if descending {
      CompareIsTotalPreorder(x, y, z);
      CompareIsTotalPreorder(y, z, x);
      CompareIsTotalPreorder(z, y, x);
      CompareIsTotalPreorder(z, x, z);
    } else {
      CompareIsTotalPreorder(x, y, z);
    }
  }

  /** Inserts `x` before the first element it may precede, that is after every
      element that must come before it. */
  function Insert<T>(x: T, s: seq<T>, key: T -> Value, descending: bool): (r: seq<T>)
    ensures multiset(r) == multiset(s) + multiset{x}
    ensures |r| == |s| + 1
  {
    if s == [] then [x]
    else if InOrder(key(x), key(s[0]), descending) then [x] + s
    else
      assert s == [s[0]] + s[1..];
      [s[0]] + Insert(x, s[1..], key, descending)
  }

  lemma {:induction false} InsertSorted<T>(x: T, s: seq<T>, key: T -> Value, descending: bool)
    requires SortedBy(s, key, descending)
    ensures SortedBy(Insert(x, s, key, descending), key, descending)
  {
    if s == [] {
    } else if InOrder(key(x), key(s[0]), descending) {
      var r := [x] + s;
      forall i, j | 0 <= i < j < |r| ensures InOrder(key(r[i]), key(r[j]), descending) {
        if i == 0 && j > 1 {
          InOrderTransitive(key(x), key(s[0]), key(s[j - 1]), descending);
        }
      }
    } else {
      InOrderTotal(key(x), key(s[0]), descending);
      var t := Insert(x, s[1..], key, descending);
      InsertSorted(x, s[1..], key, descending);
      var r := [s[0]] + t;
      forall i, j | 0 <= i < j < |r| ensures InOrder(key(r[i]), key(r[j]), descending) {
        if i == 0 {
          // r[j] is x or an element of s[1..], each of which s[0] may precede
          assert r[j] in multiset(t);
          assert r[j] in multiset(s[1..]) + multiset{x};
          if r[j] != x {
            var k :| 0 <= k < |s[1..]| && s[1..][k] == r[j];
            assert s[k + 1] == r[j];
          }
        }
      }
    }
  }

  /** A stable insertion sort by `key`: equal keys keep their source order. */
  function SortBy<T>(s: seq<T>, key: T -> Value, descending: bool): (r: seq<T>)
    ensures multiset(r) == multiset(s)
    ensures |r| == |s|
    decreases |s|
  {
    if s == [] then []
    else
      assert s == [s[0]] + s[1..];
      Insert(s[0], SortBy(s[1..], key, descending), key, descending)
  }

  /** The sorted sequence is ordered by the key in the requested direction. */
  lemma {:induction false} SortBySorted<T>(s: seq<T>, key: T -> Value, descending: bool)
    ensures SortedBy(SortBy(s, key, descending), key, descending)
    decreases |s|
  {
    if s != [] {
      SortBySorted(s[1..], key, descending);
      InsertSorted(s[0], SortBy(s[1..], key, descending), key, descending);
    }
  }

  /** The test for the elements whose key ties with `v`. */
  function TiesWith<T>(key: T -> Value, v: Value): T -> bool {
    x => Compare(key(x), v) == 0
  }

  /** Two values that tie with a third tie with each other. */
  lemma TiesAgree(a: Value, b: Value, v: Value)
    requires Compare(a, v) == 0 && Compare(b, v) == 0
    ensures Compare(a, b) == 0
  {
    CompareIsTotalPreorder(a, v, b);
    CompareIsTotalPreorder(b, v, a);
    CompareIsTotalPreorder(v, b, a);
  }

  /** `Insert` puts `x` before every element whose key ties with it, and keeps the
      order of the rest. */
  lemma {:induction false} InsertKeepsTies<T(!new)>(x: T, s: seq<T>, key: T -> Value, descending: bool, v: Value)
    ensures Where(Insert(x, s, key, descending), TiesWith(key, v)) ==
      if Compare(key(x), v) == 0 then [x] + Where(s, TiesWith(key, v)) else Where(s, TiesWith(key, v))
  {
    if s == [] {
    } else if InOrder(key(x), key(s[0]), descending) {
      assert ([x] + s)[1..] == s;
    } else {
      if Compare(key(x), v) == 0 && Compare(key(s[0]), v) == 0 {
        TiesAgree(key(x), key(s[0]), v);
        assert false;
      }
      var t := Insert(x, s[1..], key, descending);
      InsertKeepsTies(x, s[1..], key, descending, v);
      assert ([s[0]] + t)[1..] == t;
    }
  }

  /** `SortBy` is stable: the elements whose keys tie come out in their source
      order. */
  lemma {:induction false} SortByIsStable<T(!new)>(s: seq<T>, key: T -> Value, descending: bool, v: Value)
    ensures Where(SortBy(s, key, descending), TiesWith(key, v)) == Where(s, TiesWith(key, v))
    decreases |s|
  {
    if s != [] {
      SortByIsStable(s[1..], key, descending, v);
      InsertKeepsTies(s[0], SortBy(s[1..], key, descending), key, descending, v);
    }
  }
}

=== FILE: string_value_object.dfy ===
/** `StringValueObject`: an immutable string wrapper that normalises its input (by
    default with `Trim`) and then validates the normalised value. */
module StringValueObjects {
  import opened Wrappers
  import opened Text

  datatype StringValueObject = StringValueObject(value: string)

  /** A validator either accepts its argument (`None`) or names what it throws. */
  type Validator = string -> Option<Exception>

  /** The value a wrapper stores for `raw`: the given normaliser's output, or the
      trimmed input when no normaliser is given. */
  function Normalized(raw: string, normalizer: Option<string -> string>): (v: string)
    ensures normalizer.None? ==> v == Trim(raw)
  {
    match normalizer
    case None => Trim(raw)
    case Some(f) => f(raw)
  }

  /** The protected constructor: normalise, then run the validator (if any) on the
      normalised value. */
  function New(raw: string, normalizer: Option<string -> string>, validator: Option<Validator>): (r: Throws<StringValueObject>)
    ensures r.Ok? ==> r.value.value == Normalized(raw, normalizer)
    ensures validator.None? ==> r.Ok?
    ensures validator.Some? ==> (r.Ok? <==> validator.value(Normalized(raw, normalizer)).None?)
    ensures validator.Some? && r.Thrown? ==> Some(r.error) == validator.value(Normalized(raw, normalizer))
  {
    var v := Normalized(raw, normalizer);
    match validator
    case None => Ok(StringValueObject(v))
    case Some(check) =>
      match check(v)
      case None => Ok(StringValueObject(v))
      case Some(e) => Thrown(e)
  }

  /** A wrapper with the default normaliser and no validator (`FilterField`,
      `FilterValue`, `OrderBy`); its construction cannot fail. */
  function Wrap(raw: string): (w: StringValueObject)
    ensures New(raw, None, None) == Ok(w)
  {
    StringValueObject(Trim(raw))
  }

  /** `ToString()` returns `Value`. */
  function ToString(w: StringValueObject): (s: string)
    ensures s == w.value
  {
    w.value
  }

  /** The implicit conversion to `string` returns `Value`. */
  function AsString(w: StringValueObject): (s: string)
    ensures s == ToString(w)
  {
    w.value
  }

  /** The validator only ever sees the normalised value: inputs that normalise alike
      are accepted or rejected alike, and wrap to the same value. */
  lemma ValidatorSeesNormalized(a: string, b: string, normalizer: Option<string -> string>, validator: Option<Validator>)
    requires Normalized(a, normalizer) == Normalized(b, normalizer)
    ensures New(a, normalizer, validator) == New(b, normalizer, validator)
  {
  }

  /** With the default normaliser the stored value has no white space at either end,
      and re-wrapping the stored value gives the same value back. */
  lemma DefaultNormalization(raw: string, validator: Option<Validator>)
    ensures var r := New(raw, None, validator);
      r.Ok? ==> (r.value.value == [] || (!IsWhiteSpace(r.value.value[0]) && !IsWhiteSpace(r.value.value[|r.value.value| - 1])))
    ensures var r := New(raw, None, validator);
      r.Ok? ==> New(r.value.value, None, validator) == r
  {
    TrimSpec(raw);
    TrimIdempotent(raw);
  }
}

=== FILE: text.dfy ===
/** The string primitives of .NET that the modelled code relies on, on `seq<char>`.

    Character classes are an approximation restricted to ASCII and Latin-1:
    `char.IsWhiteSpace` and the regular-expression class `\s` are the characters
    U+0009..U+000D, U+0020, U+0085 and U+00A0; upper case, lower case and digits are
    the ASCII ranges; ordinal case-insensitive comparison folds ASCII letters only.
 */
module Text {
  import opened Wrappers

  predicate IsWhiteSpace(c: char) {
    ('\U{9}' <= c <= '\U{D}') || c == ' ' || c == '\U{85}' || c == '\U{A0}'
  }

  predicate IsUpper(c: char) { 'A' <= c <= 'Z' }

  predicate IsLower(c: char) { 'a' <= c <= 'z' }

  predicate IsDigit(c: char) { '0' <= c <= '9' }

  predicate IsLetterOrDigit(c: char) { IsUpper(c) || IsLower(c) || IsDigit(c) }

  function ToUpper(c: char): (u: char)
    ensures IsLower(c) ==> IsUpper(u)
    ensures !IsLower(c) ==> u == c
  {
    if IsLower(c) then (c as int - 32) as char else c
  }

  /** A character outside the Basic Multilingual Plane, which UTF-16 stores as a
      surrogate pair. */
  predicate IsSupplementary(c: char) { c as int > 0xFFFF }

  /** `string.Length`: the number of UTF-16 code units, two for each supplementary
      character and one for every other. */
  function Utf16Length(s: string): (n: nat)
    ensures |s| <= n <= 2 * |s|
    ensures n == |s| <==> forall k :: 0 <= k < |s| ==> !IsSupplementary(s[k])
  {
    if s == [] then 0
    else
      var init := s[..|s| - 1];
      assert forall k :: 0 <= k < |init| ==> init[k] == s[k];
      Utf16Length(init) + (if IsSupplementary(s[|s| - 1]) then 2 else 1)
  }

  lemma Utf16LengthSnoc(s: string, c: char)
    ensures Utf16Length(s + [c]) == Utf16Length(s) + (if IsSupplementary(c) then 2 else 1)
  {
    assert (s + [c])[..|s|] == s;
  }

  /** `StringComparison.OrdinalIgnoreCase` / `StringComparer.OrdinalIgnoreCase`. */
  predicate EqualsIgnoreCase(a: string, b: string) {
    |a| == |b| && forall i :: 0 <= i < |a| ==> ToUpper(a[i]) == ToUpper(b[i])
  }

  lemma EqualsIgnoreCaseIsEquivalence(a: string, b: string, c: string)
    ensures EqualsIgnoreCase(a, a)
    ensures EqualsIgnoreCase(a, b) ==> EqualsIgnoreCase(b, a)
    ensures EqualsIgnoreCase(a, b) && EqualsIgnoreCase(b, c) ==> EqualsIgnoreCase(a, c)
  {
  }

  /** `ToUpperInvariant`, on ASCII letters. */
  function ToUpperString(s: string): (u: string)
    ensures |u| == |s| && forall k :: 0 <= k < |s| ==> u[k] == ToUpper(s[k])
  {
    seq(|s|, k requires 0 <= k < |s| => ToUpper(s[k]))
  }

  /** Upper-casing first does not change a case-insensitive comparison. */
  lemma EqualsIgnoreCaseUpper(a: string, b: string)
    ensures EqualsIgnoreCase(ToUpperString(a), b) <==> EqualsIgnoreCase(a, b)
  {
    var u := ToUpperString(a);
    assert forall k :: 0 <= k < |a| ==> ToUpper(u[k]) == ToUpper(a[k]);
  }

  /** `string.IsNullOrWhiteSpace` on a non-null string. */
  predicate IsBlank(s: string) {
    forall i :: 0 <= i < |s| ==> IsWhiteSpace(s[i])
  }

  /** The number of white-space characters at the start of `s`. */
  function LeadingWhiteSpace(s: string): (n: nat)
    ensures n <= |s| && (n == |s| || !IsWhiteSpace(s[n]))
    ensures forall k :: 0 <= k < n ==> IsWhiteSpace(s[k])
  {
    if s == [] || !IsWhiteSpace(s[0]) then 0 else 1 + LeadingWhiteSpace(s[1..])
  }

  /** The length of `s` without the white space at its end. */
  function TrimmedEndLength(s: string): (n: nat)
    ensures n <= |s| && (n == 0 || !IsWhiteSpace(s[n - 1]))
    ensures forall k :: n <= k < |s| ==> IsWhiteSpace(s[k])
  {
    if s == [] || !IsWhiteSpace(s[|s| - 1]) then |s| else TrimmedEndLength(s[..|s| - 1])
  }

  /** The white-space count is the only one with its defining property. */
  lemma LeadingWhiteSpaceUnique(s: string, m: nat)
    requires m <= |s| && (m == |s| || !IsWhiteSpace(s[m]))
    requires forall k :: 0 <= k < m ==> IsWhiteSpace(s[k])
    ensures LeadingWhiteSpace(s) == m
  {
  }

  /** The trimmed length is the only one with its defining property. */
  lemma TrimmedEndLengthUnique(s: string, m: nat)
    requires m <= |s| && (m == 0 || !IsWhiteSpace(s[m - 1]))
    requires forall k :: m <= k < |s| ==> IsWhiteSpace(s[k])
    ensures TrimmedEndLength(s) == m
  {
  }

  /** `string.TrimStart()`. */
  function TrimStart(s: string): (r: string)
    ensures |r| <= |s| && r == s[|s| - |r|..]
    ensures forall k :: 0 <= k < |s| - |r| ==> IsWhiteSpace(s[k])
    ensures r == [] || !IsWhiteSpace(r[0])
  {
    s[LeadingWhiteSpace(s)..]
  }

  /** `string.TrimEnd()`. */
  function TrimEnd(s: string): (r: string)
    ensures |r| <= |s| && r == s[..|r|]
    ensures forall k :: |r| <= k < |s| ==> IsWhiteSpace(s[k])
    ensures r == [] || !IsWhiteSpace(r[|r| - 1])
  {
    s[..TrimmedEndLength(s)]
  }

  /** `string.Trim()`: removes leading and trailing white space. */
  function Trim(s: string): string {
    TrimEnd(TrimStart(s))
  }

  /** `r` is the part of `s` that starts at `i`, and everything of `s` outside it is
      white space. */
  ghost predicate TrimmedAt(s: string, r: string, i: int) {
    && 0 <= i <= |s| - |r| && r == s[i..i + |r|]
    && (forall k :: 0 <= k < i ==> IsWhiteSpace(s[k]))
    && (forall k :: i + |r| <= k < |s| ==> IsWhiteSpace(s[k]))
  }

  /** A trimmed string has no white space at either end, and it is the middle part
      of the input that remains after the leading white space is skipped. */
  lemma TrimSpec(s: string)
    ensures Trim(s) == [] || (!IsWhiteSpace(Trim(s)[0]) && !IsWhiteSpace(Trim(s)[|Trim(s)| - 1]))
    ensures TrimmedAt(s, Trim(s), |s| - |TrimStart(s)|)
  {
    var t := TrimStart(s);
    var r := TrimEnd(t);
    assert Trim(s) == r;
    MiddleIsTrimmedAt(s, t, r, |s| - |t|);
    EndsNotWhiteSpace(t, r);
  }

  /** A prefix of a string that does not start with white space, itself not ending
      with white space, has white space at neither end. */
  lemma EndsNotWhiteSpace(t: string, r: string)
    requires t == [] || !IsWhiteSpace(t[0])
    requires |r| <= |t| && r == t[..|r|] && (r == [] || !IsWhiteSpace(r[|r| - 1]))
    ensures r == [] || (!IsWhiteSpace(r[0]) && !IsWhiteSpace(r[|r| - 1]))
  {
    if r != [] {
      assert r[0] == t[0];
    }
  }

  /** The slicing behind `TrimSpec`: a prefix of a suffix of `s`, with white space
      cut from both sides, sits in `s` at the suffix's start. */
  lemma MiddleIsTrimmedAt(s: string, t: string, r: string, i: int)
    requires 0 <= i <= |s| && t == s[i..] && forall k :: 0 <= k < i ==> IsWhiteSpace(s[k])
    requires |r| <= |t| && r == t[..|r|] && forall k :: |r| <= k < |t| ==> IsWhiteSpace(t[k])
    ensures TrimmedAt(s, r, i)
  {
    assert r == s[i..i + |r|];
    forall k | i + |r| <= k < |s| ensures IsWhiteSpace(s[k]) {
      assert s[k] == t[k - i];
    }
  }

  /** A string without white space at its ends is left unchanged by `Trim`. */
  lemma TrimOfTrimmed(s: string)
    requires s == [] || (!IsWhiteSpace(s[0]) && !IsWhiteSpace(s[|s| - 1]))
    ensures Trim(s) == s
  {
    if s != [] {
      TrimAt(s, 0, |s|);
    }
  }

  /** Appending the same text to two strings keeps them apart exactly when they
      were apart. */
  lemma SuffixInjective(a: string, b: string, suffix: string)
    ensures a + suffix == b + suffix <==> a == b
  {
    if a + suffix == b + suffix {
      assert |a| == |b|;
      assert a == (a + suffix)[..|a|];
      assert b == (b + suffix)[..|b|];
    }
  }

  /** `Trim` is idempotent. */
  lemma TrimIdempotent(s: string)
    ensures Trim(Trim(s)) == Trim(s)
  {
    TrimSpec(s);
    TrimOfTrimmed(Trim(s));
  }

  /** A string is blank exactly when trimming leaves nothing. */
  lemma BlankIffTrimEmpty(s: string)
    ensures IsBlank(s) <==> Trim(s) == []
  {
    TrimSpec(s);
    var i := |s| - |TrimStart(s)|;
    if Trim(s) == [] {
      forall k | 0 <= k < |s| ensures IsWhiteSpace(s[k]) {
        if k < i { } else { }
      }
    }
  }

  /** `Trim` keeps exactly the part between the white space at the two ends. */
  lemma TrimAt(s: string, i: nat, j: nat)
    requires i < j <= |s| && !IsWhiteSpace(s[i]) && !IsWhiteSpace(s[j - 1])
    requires forall k :: 0 <= k < i ==> IsWhiteSpace(s[k])
    requires forall k :: j <= k < |s| ==> IsWhiteSpace(s[k])
    ensures Trim(s) == s[i..j]
  {
    LeadingWhiteSpaceUnique(s, i);
    var t := s[i..];
    assert t[j - i - 1] == s[j - 1];
    forall k | j - i <= k < |t| ensures IsWhiteSpace(t[k]) {
      assert t[k] == s[i + k];
    }
    TrimmedEndLengthUnique(t, j - i);
  }

  /** Trimming a text surrounded by white space gives the text, when the text itself
      starts and ends with something other than white space. */
  lemma TrimSurrounded(pre: string, mid: string, post: string)
    requires IsBlank(pre) && IsBlank(post)
    requires mid != [] && !IsWhiteSpace(mid[0]) && !IsWhiteSpace(mid[|mid| - 1])
    ensures Trim(pre + mid + post) == mid
  {
    var s := pre + mid + post;
    var i := |pre|;
    var j := |pre| + |mid|;
    assert s[i] == mid[0] && s[j - 1] == mid[|mid| - 1];
    forall k | 0 <= k < i ensures IsWhiteSpace(s[k]) {
      assert s[k] == pre[k];
    }
    forall k | j <= k < |s| ensures IsWhiteSpace(s[k]) {
      assert s[k] == post[k - j];
    }
    TrimAt(s, i, j);
    assert s[i..j] == mid;
  }

  /** Trimming commutes with upper-casing: white space is not a letter. */
  lemma TrimUpper(s: string)
    ensures Trim(ToUpperString(s)) == ToUpperString(Trim(s))
  {
    TrimStartUpper(s);
    TrimEndUpper(TrimStart(s));
  }

  /** Upper-casing neither makes nor removes white space. */
  lemma UpperWhiteSpace(c: char)
    ensures IsWhiteSpace(ToUpper(c)) <==> IsWhiteSpace(c)
  {
  }

  /** Upper-casing commutes with taking a slice. */
  lemma UpperSlice(s: string, i: nat, j: nat)
    requires i <= j <= |s|
    ensures ToUpperString(s)[i..j] == ToUpperString(s[i..j])
  {
  }

  lemma TrimStartUpper(s: string)
    ensures TrimStart(ToUpperString(s)) == ToUpperString(TrimStart(s))
  {
    var u := ToUpperString(s);
    var n := LeadingWhiteSpace(s);
    forall k | 0 <= k < |s| ensures IsWhiteSpace(u[k]) <==> IsWhiteSpace(s[k]) {
      UpperWhiteSpace(s[k]);
    }
    LeadingWhiteSpaceUnique(u, n);
    UpperSlice(s, n, |s|);
  }

  lemma TrimEndUpper(s: string)
    ensures TrimEnd(ToUpperString(s)) == ToUpperString(TrimEnd(s))
  {
    var u := ToUpperString(s);
    var n := TrimmedEndLength(s);
    forall k | 0 <= k < |s| ensures IsWhiteSpace(u[k]) <==> IsWhiteSpace(s[k]) {
      UpperWhiteSpace(s[k]);
    }
    TrimmedEndLengthUnique(u, n);
    UpperSlice(s, 0, n);
  }

  /** `string.IndexOf(char)`: the first position of `c`, or `None` for -1. */
  function IndexOf(s: string, c: char): (r: Option<nat>)
    ensures r.Some? ==> r.value < |s| && s[r.value] == c && c !in s[..r.value]
    ensures r.None? <==> c !in s
  {
    if s == [] then None
    else if s[0] == c then Some(0)
    else match IndexOf(s[1..], c)
      case None => None
      case Some(i) => Some(i + 1)
  }

  /** `string.LastIndexOf(char)`: the last position of `c`, or `None` for -1. */
  function LastIndexOf(s: string, c: char): (r: Option<nat>)
    ensures r.Some? ==> r.value < |s| && s[r.value] == c && c !in s[r.value + 1..]
    ensures r.None? <==> c !in s
  {
    if s == [] then None
    else if s[|s| - 1] == c then Some(|s| - 1)
    else LastIndexOf(s[..|s| - 1], c)
  }

  /** The last occurrence of `c` is the one `LastIndexOf` finds. */
  lemma {:induction false} LastIndexOfAt(s: string, c: char, j: nat)
    requires j < |s| && s[j] == c && c !in s[j + 1..]
    ensures LastIndexOf(s, c) == Some(j)
    decreases |s|
  {
    if j < |s| - 1 {
      var t := s[..|s| - 1];
      assert s[|s| - 1] == s[j + 1..][|s| - 2 - j];
      assert t[j + 1..] == s[j + 1..|s| - 1];
      assert s[j + 1..|s| - 1] == s[j + 1..][..|s| - 2 - j];
      LastIndexOfAt(t, c, j);
    }
  }

  /** `string.Split(char)` with no options: the pieces between occurrences of `sep`. */
  function Split(s: string, sep: char): (parts: seq<string>)
    ensures |parts| >= 1
    ensures forall k :: 0 <= k < |parts| ==> sep !in parts[k]
    decreases |s|
  {
    match IndexOf(s, sep)
    case None => [s]
    case Some(i) => [s[..i]] + Split(s[i + 1..], sep)
  }

  /** `string.Join(sep, parts)`. */
  function Join(sep: string, parts: seq<string>): string {
    if |parts| == 0 then ""
    else if |parts| == 1 then parts[0]
    else parts[0] + sep + Join(sep, parts[1..])
  }

  lemma JoinPair(sep: string, a: string, b: string)
    ensures Join(sep, [a, b]) == a + sep + b
  {
    assert [a, b][1..] == [b];
  }

  /** Splitting and re-joining with the same separator gives the input back. */
  lemma {:induction false} JoinSplit(s: string, sep: char)
    ensures Join([sep], Split(s, sep)) == s
    decreases |s|
  {
    match IndexOf(s, sep)
    case None =>
    case Some(i) =>
      var rest := Split(s[i + 1..], sep);
      JoinSplit(s[i + 1..], sep);
      assert Split(s, sep) == [s[..i]] + rest;
      assert ([s[..i]] + rest)[1..] == rest;
      assert Join([sep], [s[..i]] + rest) == s[..i] + [sep] + Join([sep], rest);
      assert s == s[..i] + [sep] + s[i + 1..];
  }

  /** The pieces of a sequence that are not empty, in order
      (`StringSplitOptions.RemoveEmptyEntries`). */
  function RemoveEmpty(parts: seq<string>): (r: seq<string>)
    ensures |r| <= |parts|
    ensures forall k :: 0 <= k < |r| ==> r[k] != [] && r[k] in parts
    ensures forall k :: 0 <= k < |parts| && parts[k] != [] ==> parts[k] in r
  {
    if parts == [] then []
    else if parts[0] == [] then RemoveEmpty(parts[1..])
    else [parts[0]] + RemoveEmpty(parts[1..])
  }

  /** The pieces trimmed, without the ones that trimming empties
      (`StringSplitOptions.TrimEntries | RemoveEmptyEntries`). */
  function TrimmedEntries(pieces: seq<string>, sep: char): (r: seq<string>)
    requires forall k :: 0 <= k < |pieces| ==> sep !in pieces[k]
    ensures |r| <= |pieces|
    ensures forall k :: 0 <= k < |r| ==> r[k] != [] && sep !in r[k] && Trim(r[k]) == r[k]
  {
    if pieces == [] then []
    else
      TrimmedEntry(pieces[0], sep);
      var rest := TrimmedEntries(pieces[1..], sep);
      if Trim(pieces[0]) == [] then rest else [Trim(pieces[0])] + rest
  }

  /** `s.Split(sep, RemoveEmptyEntries | TrimEntries)`: entries are trimmed, then the
      empty ones are removed. */
  function SplitTrimmedNonEmpty(s: string, sep: char): (r: seq<string>)
    ensures forall k :: 0 <= k < |r| ==> r[k] != [] && sep !in r[k] && Trim(r[k]) == r[k]
  {
    TrimmedEntries(Split(s, sep), sep)
  }

  /** Trimming a piece without the separator keeps it without the separator, and
      trimming again changes nothing. */
  lemma TrimmedEntry(p: string, sep: char)
    requires sep !in p
    ensures sep !in Trim(p) && Trim(Trim(p)) == Trim(p)
  {
    TrimSpec(p);
    TrimIdempotent(p);
    var i := |p| - |TrimStart(p)|;
    assert Trim(p) == p[i..i + |Trim(p)|];
  }

  /** A string without the separator is one trimmed entry, unless it is blank. */
  lemma SplitTrimmedSingle(a: string, sep: char)
    requires sep !in a && Trim(a) != []
    ensures SplitTrimmedNonEmpty(a, sep) == [Trim(a)]
  {
    assert Split(a, sep) == [a];
  }

  /** The entries of `a` + sep + `b`: `a` trimmed (when not blank), then those of `b`. */
  lemma SplitTrimmedCons(a: string, sep: char, b: string)
    requires sep !in a && Trim(a) != []
    ensures SplitTrimmedNonEmpty(a + [sep] + b, sep) == [Trim(a)] + SplitTrimmedNonEmpty(b, sep)
  {
    SplitCons(a, sep, b);
    assert ([a] + Split(b, sep))[1..] == Split(b, sep);
  }

  /** Splitting `a` + sep + `b`, where `a` has no separator, gives `a` first. */
  lemma SplitCons(a: string, sep: char, b: string)
    requires sep !in a
    ensures Split(a + [sep] + b, sep) == [a] + Split(b, sep)
  {
    var s := a + [sep] + b;
    assert s[..|a|] == a && s[|a| + 1..] == b && s[|a|] == sep;
    IndexOfAt(s, sep, |a|);
  }

  /** The first occurrence of `c` is the one `IndexOf` finds. */
  lemma {:induction false} IndexOfAt(s: string, c: char, j: nat)
    requires j < |s| && s[j] == c && c !in s[..j]
    ensures IndexOf(s, c) == Some(j)
  {
    if j > 0 {
      assert s[0] == s[..j][0];
      assert s[1..][..j - 1] == s[..j][1..];
      IndexOfAt(s[1..], c, j - 1);
    }
  }

  /** `s.Split(sep, RemoveEmptyEntries)`: the non-empty pieces, untrimmed. */
  function SplitNonEmpty(s: string, sep: char): (r: seq<string>)
    ensures forall k :: 0 <= k < |r| ==> r[k] != [] && sep !in r[k]
  {
    RemoveEmpty(Split(s, sep))
  }

  predicate IsPrefix(p: string, s: string) {
    |p| <= |s| && s[..|p|] == p
  }

  /** `sub` occurs in `s` at position `i`. */
  predicate OccursAt(s: string, sub: string, i: int) {
    0 <= i <= |s| - |sub| && s[i..i + |sub|] == sub
  }

  /** `string.Contains(string)` (ordinal). */
  function Contains(s: string, sub: string): (b: bool)
    ensures b <==> exists i :: OccursAt(s, sub, i)
  {
    if IsPrefix(sub, s) then
      assert OccursAt(s, sub, 0);
      true
    else if s == [] then
      assert forall i :: !OccursAt(s, sub, i);
      false
    else
      var b := Contains(s[1..], sub);
      assert b ==> OccursAt(s, sub, ContainsWitness(s[1..], sub) + 1) by {
        if b {
          var i := ContainsWitness(s[1..], sub);
          assert s[i + 1..i + 1 + |sub|] == s[1..][i..i + |sub|];
        }
      }
      assert forall i :: OccursAt(s, sub, i) ==> b by {
        forall i | OccursAt(s, sub, i) ensures b {
          assert i != 0;
          assert s[1..][i - 1..i - 1 + |sub|] == s[i..i + |sub|];
          assert OccursAt(s[1..], sub, i - 1);
        }
      }
      b
  }

  /** A position at which `sub` occurs in `s`. */
  ghost function ContainsWitness(s: string, sub: string): (i: int)
    requires exists i :: OccursAt(s, sub, i)
    ensures OccursAt(s, sub, i)
  {
    var i :| OccursAt(s, sub, i); i
  }
}

=== FILE: users.dfy ===
/** The `User` entity and the in-memory repository that stores users by id. The
    clock is a parameter: `Create` receives the instant it stamps as `CreatedAt`. */
module Users {
  import opened Wrappers
  import opened StringValueObjects
  import opened Text
  import opened PasswordHashes

  /** `Uuid`, a string value object; its `Validate` hook is not part of this model. */
  datatype Uuid = Uuid(value: string)

  /** The null checks of `User.Create`, in source order: the first null argument is
      reported. */
  function CreateGuard(id: Option<Uuid>, email: Option<StringValueObject>, fullName: Option<StringValueObject>,
                       password: Option<UserPasswordHash>): (e: Option<Exception>)
    ensures e.None? <==> id.Some? && email.Some? && fullName.Some? && password.Some?
    ensures id.None? ==> e == Some(ArgumentNull("id"))
    ensures id.Some? && email.None? ==> e == Some(ArgumentNull("email"))
    ensures (id.Some? && email.Some? && fullName.None?) ==> e == Some(ArgumentNull("fullName"))
    ensures (id.Some? && email.Some? && fullName.Some? && password.None?) ==> e == Some(ArgumentNull("password"))
  {
    if id.None? then Some(ArgumentNull("id"))
    else if email.None? then Some(ArgumentNull("email"))
    else if fullName.None? then Some(ArgumentNull("fullName"))
    else if password.None? then Some(ArgumentNull("password"))
    else None
  }

  class User {
    var id: Uuid
    var email: StringValueObject
    var fullName: StringValueObject
    var passwordHash: UserPasswordHash
    /** `CreatedAt`, as an instant of the supplied clock. */
    var createdAt: int

    constructor(id: Uuid, email: StringValueObject, fullName: StringValueObject, passwordHash: UserPasswordHash, createdAt: int)
      ensures this.id == id && this.email == email && this.fullName == fullName
      ensures this.passwordHash == passwordHash && this.createdAt == createdAt
    {
      this.id := id;
      this.email := email;
      this.fullName := fullName;
      this.passwordHash := passwordHash;
      this.createdAt := createdAt;
    }

    /** `User.Create`: every argument is required; the user keeps them as given and
        is stamped with `now`. */
    static method Create(id: Option<Uuid>, email: Option<StringValueObject>, fullName: Option<StringValueObject>,
                         password: Option<UserPasswordHash>, now: int) returns (r: Throws<User>)
      ensures r.Thrown? <==> CreateGuard(id, email, fullName, password).Some?
      ensures r.Thrown? ==> Some(r.error) == CreateGuard(id, email, fullName, password)
      ensures r.Ok? ==> fresh(r.value)
      ensures r.Ok? ==> r.value.id == id.value && r.value.email == email.value && r.value.fullName == fullName.value
      ensures r.Ok? ==> r.value.passwordHash == password.value && r.value.createdAt == now
    {
      var guard := CreateGuard(id, email, fullName, password);
      if guard.Some? {
        return Thrown(guard.value);
      }
      var user := new User(id.value, email.value, fullName.value, password.value, now);
      r := Ok(user);
    }

    /** `ChangePassword`: a null hash is rejected and changes nothing; otherwise the
        hash is replaced and every other field kept. */
    method ChangePassword(newPassword: Option<UserPasswordHash>) returns (error: Option<Exception>)
      modifies this
      ensures newPassword.None? ==> error == Some(ArgumentNull("newPassword")) && passwordHash == old(passwordHash)
      ensures newPassword.Some? ==> error.None? && passwordHash == newPassword.value
      ensures id == old(id) && email == old(email) && fullName == old(fullName) && createdAt == old(createdAt)
    {
      if newPassword.None? {
        return Some(ArgumentNull("newPassword"));
      }
      passwordHash := newPassword.value;
      error := None;
    }

    /** `VerifyPassword`: the stored hash decides, through the given hasher. */
    function VerifyPassword(plainPassword: string, hasher: Hasher): (b: bool)
      reads this
      ensures b == hasher.verify(plainPassword, passwordHash.value)
    {
      Verify(passwordHash, plainPassword, hasher)
    }
  }

  /** After the password is changed to one created from `NewValid1!` with the fake
      hasher, that password verifies and the former one, `Valid12!`, no longer
      does. */
  method ChangePasswordReplacesHash(user: User) returns (newMatches: bool, oldMatches: bool)
    modifies user
    ensures newMatches && !oldMatches
  {
    var created := Create("NewValid1!", FakeHasher());
    NewPasswordAccepted();
    var _ := user.ChangePassword(Some(created.value));
    newMatches := user.VerifyPassword("NewValid1!", FakeHasher());
    oldMatches := user.VerifyPassword("Valid12!", FakeHasher());
  }

  /** `NewValid1!` is acceptable and the fake hasher stores `NewValid1!_HASH`, which
      `Valid12!` does not match. */
  lemma NewPasswordAccepted()
    ensures Create("NewValid1!", FakeHasher()) == Ok(UserPasswordHash("NewValid1!_HASH"))
    ensures "NewValid1!_HASH" != "Valid12!" + "_HASH"
  {
    NewPasswordShapes();
    TrimOfTrimmed("NewValid1!");
    TrimOfTrimmed("NewValid1!_HASH");
  }

  lemma NewPasswordShapes()
    ensures IsAcceptable("NewValid1!")
    ensures "NewValid1!" + "_HASH" == "NewValid1!_HASH" && "NewValid1!_HASH" != "Valid12!" + "_HASH"
    ensures !IsWhiteSpace("NewValid1!"[0]) && !IsWhiteSpace("NewValid1!"[9])
    ensures !IsWhiteSpace("NewValid1!_HASH"[0]) && !IsWhiteSpace("NewValid1!_HASH"[14])
  {
    var plain := "NewValid1!";
    assert IsUpper(plain[0]) && IsLower(plain[1]) && IsDigit(plain[8]) && !IsLetterOrDigit(plain[9]);
    assert |"NewValid1!_HASH"| != |"Valid12!" + "_HASH"|;
  }

  /** `InMemoryUserRepository`: users by id, one entry per id. */
  class InMemoryUserRepository {
    var store: map<Uuid, User>

    /** The seeded constructor: the store holds the seed user alone, under its id.
        The seed values themselves are not part of this model. */
    constructor(seed: User)
      ensures store == map[seed.id := seed]
    {
      var empty: map<Uuid, User> := map[];
      store := empty[seed.id := seed];
    }

    /** `Find`: the stored user for a known id, null otherwise. */
    function Find(id: Uuid): (u: Option<User>)
      reads this
      ensures u.Some? <==> id in store
      ensures u.Some? ==> u.value == store[id]
    {
      if id in store then Some(store[id]) else None
    }

    /** `Save`: adds the user under its id, replacing any user stored there; every
        other entry is unchanged. */
    method Save(user: User)
      modifies this
      ensures store == old(store)[user.id := user]
      ensures Find(user.id) == Some(user)
      ensures forall id :: id != user.id ==> Find(id) == old(Find(id))
    {
      store := store[user.id := user];
    }
  }

  /** Saving the same user twice leaves the store as saving it once. */
  method SaveIsIdempotent(repository: InMemoryUserRepository, user: User) returns (once: map<Uuid, User>)
    modifies repository
    ensures once == old(repository.store)[user.id := user]
    ensures repository.store == once
  {
    repository.Save(user);
    once := repository.store;
    repository.Save(user);
  }

  /** A repository seeded with one user finds that user and nothing else. */
  method SeededRepositoryFinds(seed: User, other: Uuid) returns (found: Option<User>, missing: Option<User>)
    requires other != seed.id
    ensures found == Some(seed) && missing.None?
  {
    var repository := new InMemoryUserRepository(seed);
    found := repository.Find(seed.id);
    missing := repository.Find(other);
  }
}

=== FILE: value_objects.dfy ===
/** The validated string wrappers of the user domain: `EmailAddress` and
    `UserFullName`. Both trim their input with the default normaliser and validate
    the trimmed value. */
module ValueObjects {
  import opened Wrappers
  import opened Text
  import opened StringValueObjects

  /** A character that `[^@\s]` matches. */
  predicate NotAtOrSpace(c: char) {
    c != '@' && !IsWhiteSpace(c)
  }

  /** `s` is `L@D.E` with `L`, `D`, `E` non-empty runs of `[^@\s]`, the `@` at `a`
      and the `.` at `d`. */
  ghost predicate EmailSplit(s: string, a: int, d: int) {
    && 0 < a && a + 1 < d && d + 1 < |s|
    && s[a] == '@' && s[d] == '.'
    && forall k :: 0 <= k < |s| && k != a ==> NotAtOrSpace(s[k])
  }

  /** The whole of `s` matches `[^@\s]+@[^@\s]+\.[^@\s]+`. */
  ghost predicate MatchesEmailPattern(s: string) {
    exists a, d :: EmailSplit(s, a, d)
  }

  /** The email check as the source states its intent: no white space, exactly one
      `@`, a non-empty local part, and a `.` in the domain that is neither the
      domain's first nor its last character. */
  predicate IsEmailShaped(s: string) {
    && (forall k :: 0 <= k < |s| ==> !IsWhiteSpace(s[k]))
    && match IndexOf(s, '@')
       case None => false
       case Some(a) => 0 < a && '@' !in s[a + 1..] && a + 2 < |s| - 1 && '.' in s[a + 2..|s| - 1]
  }

  /** The shape check and the pattern accept exactly the same strings. */
  lemma EmailShapeIsPattern(s: string)
    ensures IsEmailShaped(s) <==> MatchesEmailPattern(s)
  {
    if IsEmailShaped(s) {
      var a := IndexOf(s, '@').value;
      var k :| 0 <= k < |s[a + 2..|s| - 1]| && s[a + 2..|s| - 1][k] == '.';
      var d := a + 2 + k;
      assert s[d] == s[a + 2..|s| - 1][k];
      forall j | 0 <= j < |s| && j != a ensures NotAtOrSpace(s[j]) {
        if j < a {
          assert s[j] in s[..a];
        } else {
          assert s[j] == s[a + 1..][j - a - 1];
        }
      }
      assert EmailSplit(s, a, d);
    }
    if MatchesEmailPattern(s) {
      var a, d :| EmailSplit(s, a, d);
      assert forall k :: 0 <= k < |s| ==> !IsWhiteSpace(s[k]) by {
        forall k | 0 <= k < |s| ensures !IsWhiteSpace(s[k]) {
          if k != a { assert NotAtOrSpace(s[k]); }
        }
      }
      var i := IndexOf(s, '@');
      assert '@' in s by { assert s[a] == '@'; }
      assert i == Some(a) by {
        assert i.Some? && s[i.value] == '@';
        assert i.value == a;
      }
      var tail := s[a + 1..];
      assert '@' !in tail by {
        forall j | 0 <= j < |tail| ensures tail[j] != '@' {
          assert tail[j] == s[a + 1 + j];
          assert NotAtOrSpace(s[a + 1 + j]);
        }
      }
      assert s[a + 2..|s| - 1][d - a - 2] == '.';
    }
  }

  /** `Regex.IsMatch` for `^[^@\s]+@[^@\s]+\.[^@\s]+$`: `$` also matches just before
      a final line feed. */
  predicate RegexIsMatch(s: string) {
    IsEmailShaped(s) || (|s| > 0 && s[|s| - 1] == '\n' && IsEmailShaped(s[..|s| - 1]))
  }

  /** The email validator: rejects with `ArgumentException("Invalid email address.")`. */
  function EnsureValidEmail(v: string): (r: Option<Exception>)
    ensures r.None? <==> RegexIsMatch(v)
    ensures r.Some? ==> r.value == Argument("Invalid email address.")
  {
    if RegexIsMatch(v) then None else Some(Argument("Invalid email address."))
  }

  /** `new EmailAddress(value)`: trimmed, then validated by the email pattern. */
  function EmailAddress(raw: string): (r: Throws<StringValueObject>)
    ensures r.Ok? ==> r.value.value == Trim(raw)
    ensures r.Thrown? ==> r.error == Argument("Invalid email address.")
  {
    New(raw, None, Some(EnsureValidEmail))
  }

  /** An email address is accepted exactly when its trimmed text matches the pattern;
      the line-feed allowance of `$` never matters after trimming. */
  lemma EmailAddressAccepts(raw: string)
    ensures EmailAddress(raw).Ok? <==> MatchesEmailPattern(Trim(raw))
    ensures EmailAddress(raw).Ok? <==> IsEmailShaped(Trim(raw))
  {
    var v := Trim(raw);
    TrimSpec(raw);
    EmailShapeIsPattern(v);
    assert RegexIsMatch(v) <==> IsEmailShaped(v) by {
      if v != [] { assert IsWhiteSpace('\n'); }
    }
  }

  /** Text without an `@`, or without a `.`, never matches the pattern. */
  lemma MissingAtOrDotNeverMatches(s: string)
    requires '@' !in s || '.' !in s
    ensures !MatchesEmailPattern(s)
  {
  }

  /** Inputs the email tests reject: the empty string, one without `@`, and one whose
      domain has no `.`. */
  lemma EmailAddressRejectsEmpty()
    ensures EmailAddress("").Thrown?
  {
    EmailAddressAccepts("");
  }

  lemma EmailAddressRejectsMissingAt()
    ensures EmailAddress("invalid-email").Thrown?
  {
    var s := "invalid-email";
    assert '@' !in s;
    MissingAtOrDotNeverMatches(s);
    TrimOfTrimmed(s);
    EmailAddressAccepts(s);
  }

  lemma EmailAddressRejectsMissingDot()
    ensures EmailAddress("user@domain").Thrown?
  {
    var s := "user@domain";
    assert '.' !in s;
    MissingAtOrDotNeverMatches(s);
    TrimOfTrimmed(s);
    EmailAddressAccepts(s);
  }

  /** An address the email tests accept, kept verbatim. */
  lemma EmailAddressAcceptsExample()
    ensures EmailAddress("user.name+tag@sub.domain.io") == Ok(StringValueObject("user.name+tag@sub.domain.io"))
  {
    var t := "user.name+tag@sub.domain.io";
    ExampleAddressSplits();
    TrimOfTrimmed(t);
    EmailAddressKeepsTrimmed(t);
  }

  lemma ExampleAddressSplits()
    ensures EmailSplit("user.name+tag@sub.domain.io", 13, 17)
  {
    var t := "user.name+tag@sub.domain.io";
    assert forall k :: 0 <= k < |t| && k != 13 ==> NotAtOrSpace(t[k]);
  }

  /** An address that already is trimmed and matches the pattern is kept as it is. */
  lemma EmailAddressKeepsTrimmed(t: string)
    requires Trim(t) == t && MatchesEmailPattern(t)
    ensures EmailAddress(t) == Ok(StringValueObject(t))
  {
    EmailAddressAccepts(t);
  }

  /** The full-name validator: the trimmed length, in UTF-16 code units, must be
      within 3..100. */
  function EnsureLengthIsWithinRange(v: string): (r: Option<Exception>)
    ensures r.None? <==> 3 <= Utf16Length(v) <= 100
    ensures r.Some? ==> r.value == ArgumentOutOfRange("v", None)
  {
    if Utf16Length(v) < 3 || Utf16Length(v) > 100 then Some(ArgumentOutOfRange("v", None)) else None
  }

  /** `new UserFullName(value)`. */
  function UserFullName(raw: string): (r: Throws<StringValueObject>)
    ensures r.Ok? <==> 3 <= Utf16Length(Trim(raw)) <= 100
    ensures r.Ok? ==> r.value.value == Trim(raw)
    ensures r.Thrown? ==> r.error == ArgumentOutOfRange("v", None)
  {
    New(raw, None, Some(EnsureLengthIsWithinRange))
  }

  /** The name is trimmed before its length is checked. */
  lemma UserFullNameExample()
    ensures UserFullName("   Jane Doe   ") == Ok(StringValueObject("Jane Doe"))
  {
    TrimJaneDoe();
    JaneDoeLength();
  }

  lemma EmojiLengths(e: char)
    requires IsSupplementary(e)
    ensures Utf16Length([e]) == 2 && Utf16Length([e, e]) == 4
  {
    Utf16LengthSnoc([], e);
    Utf16LengthSnoc([e], e);
    assert [] + [e] == [e] && [e] + [e] == [e, e];
  }

  lemma JaneDoeLength()
    ensures Utf16Length("Jane Doe") == 8
  {
    var s := "Jane Doe";
    assert forall k :: 0 <= k < |s| ==> !IsSupplementary(s[k]);
  }

  /** Two characters outside the Basic Multilingual Plane are four UTF-16 code units,
      long enough for a name, while one is too short. */
  lemma UserFullNameCountsCodeUnits()
    ensures UserFullName("\U{1F600}\U{1F600}").Ok?
    ensures UserFullName("\U{1F600}").Thrown?
  {
    var e := '\U{1F600}';
    assert "\U{1F600}\U{1F600}" == [e, e] && "\U{1F600}" == [e];
    EmojiLengths(e);
    TrimOfTrimmed([e, e]);
    TrimOfTrimmed([e]);
  }

  lemma TrimJaneDoe()
    ensures Trim("   Jane Doe   ") == "Jane Doe"
  {
    JaneDoeShape();
    TrimAt("   Jane Doe   ", 3, 11);
  }

  lemma JaneDoeShape()
    ensures var s := "   Jane Doe   ";
      && |s| == 14 && s[3..11] == "Jane Doe" && !IsWhiteSpace(s[3]) && !IsWhiteSpace(s[10])
      && (forall k :: 0 <= k < 3 ==> IsWhiteSpace(s[k]))
      && (forall k :: 11 <= k < |s| ==> IsWhiteSpace(s[k]))
  {
  }
}

=== FILE: wrappers.dfy ===
/** Failure-compatible wrappers shared by the whole model.

    - `Option<T>` stands for a nullable reference or a `Nullable<T>`: `None` is `null`.
    - `Exception` names the .NET exceptions the modelled code throws, with the data
      that the code puts into them.
    - `Throws<T>` is the outcome of a call that either returns a `T` or throws.
 */
module Wrappers {

  datatype Option<+T> = None | Some(value: T) {
    predicate IsFailure() { None? }

    function PropagateFailure<U>(): Option<U>
      requires None?
    {
      None
    }

    function Extract(): T
      requires Some?
    {
      value
    }

    function GetOr(default: T): T {
      match this
      case Some(v) => v
      case None => default
    }
  }

  /** The exceptions thrown by the modelled code. */
  datatype Exception =
    | ArgumentNull(paramName: string)
    | ArgumentOutOfRange(paramName: string, actualValue: Option<string>)
    | Argument(message: string)
    | InvalidOperation(message: string)
    | KeyNotFound(key: string)
    | Format(input: string)
    | Overflow(input: string)
    | MissingMethod(typeName: string)
    | TargetInvocation(inner: Exception)
    | Foreign(description: string)

  datatype Throws<+T> = Ok(value: T) | Thrown(error: Exception) {
    predicate IsFailure() { Thrown? }

    function PropagateFailure<U>(): Throws<U>
      requires Thrown?
    {
      Thrown(error)
    }

    function Extract(): T
      requires Ok?
    {
      value
    }
  }
}
